=== FILE: README.md ===
# Appix project-health dashboard: a Dafny model

This project models the computational core of a project-financial-health
dashboard. The backend is Django and the frontend is React.

**Health engine.** At the centre is the triple-axis health engine
(`TripleAxis`). It:
- turns logged hours, costs, budget and schedule progress into a
  consumption percentage, an actual cost and an earned value;
- classifies the pair (consumption, progress) as CRITICAL, WARNING or
  HEALTHY, with a 0-100 score;
- records a snapshot on each evaluation run;
- raises an alert only on a transition into CRITICAL, or from HEALTHY into
  WARNING.

**Around the engine, the model covers:**
- **API read side:** the serializer getters and the change-request cost
  impact (`Serializers`), the burndown series and the review endpoints
  (`FinanceViews`).
- **Role-based access:** the profile flags, the permission classes and the
  per-user project/alert scoping (`Profiles`, `Permissions`, `Visibility`).
- **Clockify synchronisation:** the ISO-8601 duration parser, rate and
  phase lookup, and the upsert loop (`ClockifySync`).
- **Jira progress:** the paginated story-point fold (`Jira`).
- **CSV seeding:** the sprint date tables, the two task/hours joins and the
  time-entry creation (`CsvLoad`).
- **Frontend logic:** the camelCase/snake_case key transformation of the
  HTTP client (`ApiClient`), the hours/minutes formatter and health labels
  (`Formatters`), the permission-filtered sidebar (`Sidebar`), and the
  sprint deliverables list (`Sprints`).

**Units.** Python `Decimal` values with two places (money, percentages,
budget hours) are integers in hundredths. Logged durations carry four
places (`DecimalField(decimal_places=4)`), so they are integers in
ten-thousandths of an hour. `Decimal.quantize` under the default context
rounds half to even; it is `Fixed.RoundHalfEven` on the exact quotient.
Python `int()` on a float is truncation toward zero (`Fixed.TruncDiv`).
Calendar dates are day numbers counted from 1970-01-01 (`Calendar.Civil`).
Timestamps are seconds.
Order-preserving filters (`Array.filter`, a Python loop with `continue`) are
stated with `Seqs.Keeps`: the result is the marked elements, each once, in
their order.

**Two behaviours of the code worth stating plainly:**
- `Decimal.quantize` is called with the default context
  (backend/apps/finance/services.py:26-28), which rounds half to even, so
  `ConsumptionPercent` and `EarnedValue` round half to even.
- The first alert rule (backend/apps/finance/services.py:123-132) fires on
  any move into CRITICAL from another status, WARNING included, so
  `AlertFor` raises a CRITICAL alert on WARNING → CRITICAL.

## Model

| member | source | states |
|---|---|---|
| `Fixed.RoundHalfEven` | backend/apps/finance/services.py:26-28 | the result is the integer nearest the exact quotient, and an exact tie goes to the even neighbour |
| `Fixed.TruncDiv` | backend/apps/finance/services.py:76 | Python `int()` of a quotient: the result lies within one unit of the quotient, toward zero on either sign |
| `TripleAxis.ConsumedHours` | backend/apps/finance/services.py:19-21 | the summed logged hours are non-negative when every entry's hours are |
| `TripleAxis.ActualCost` | backend/apps/finance/services.py:41-46 | the summed cost is non-negative when every entry's cost is |
| `TripleAxis.AggregatesAppend` | backend/apps/finance/services.py:19-46 | both aggregates distribute over concatenating two sets of time entries |
| `TripleAxis.ConsumptionPercent` | backend/apps/finance/services.py:19-28 | a zero budget gives 0; otherwise the result is consumed/budget·100 to the nearest hundredth, ties to even |
| `TripleAxis.EarnedValue` | backend/apps/finance/services.py:49-55 | invoice·progress/100 to the nearest cent, ties to even; for progress within 0..100 % it lies between 0 and the invoice |
| `TripleAxis.Classify` | backend/apps/finance/services.py:57-89 | CRITICAL exactly when consumption ≥ 80 and progress < 50; WARNING exactly when not critical and the deviation exceeds 15 or lies in (10, 15]; HEALTHY exactly when not critical and the deviation ≤ 10; each branch's score is the truncated formula with its floor or cap, always within 0..100 |
| `TripleAxis.HealthyOutscoresWarning` | backend/apps/finance/services.py:79-89 | any HEALTHY score (≥ 90) exceeds any WARNING score (≤ 84) |
| `TripleAxis.ScoreNonIncreasingWithinBranch` | backend/apps/finance/services.py:75-89 | within one rule, a larger deviation never yields a larger score |
| `TripleAxis.GreyZoneBoundary` | backend/apps/finance/services.py:79-89 | a deviation of exactly 15 is scored by the grey-zone formula (77); one hundredth more is scored by the plain-warning formula (84) |
| `TripleAxis.MetricExamples` | backend/apps/finance/tests/test_services.py:45-112 | 85 of 100 hours is 85.00 %, a zero budget gives 0, and 40 % of 50000.00 is 20000.00 |
| `TripleAxis.ClassifyExamples` | backend/apps/finance/tests/test_services.py:45-96 | 85/40 is CRITICAL, 60/40 WARNING, 55/50 HEALTHY, and 0/0 HEALTHY with score 100 |
| `TripleAxis.AlertFor` | backend/apps/finance/services.py:123-141 | a CRITICAL alert exactly on entering CRITICAL; a WARNING alert exactly on HEALTHY → WARNING; nothing otherwise |
| `TripleAxis.RunEvaluation` | backend/apps/finance/services.py:92-143 | one snapshot is appended with the computed metrics and classification; the project's status becomes the new one; at most the one transition alert is appended; nothing else changes |
| `TripleAxis.RunEvaluationPreservesConsistency` | backend/apps/finance/services.py:103-120 | the project's status stays equal to its latest snapshot's status, and every snapshot's status stays a function of its two percentages |
| `TripleAxis.RunMany` | backend/apps/finance/services.py:92-143 | repeated runs keep the entries, budget and invoice, append one snapshot per run and keep every earlier snapshot and alert |
| `TripleAxis.RunManyEffect` | backend/apps/finance/services.py:92-143 | repeated runs add exactly the alerts the status transitions call for |
| `TripleAxis.AlertOnceWhileCritical` | backend/apps/finance/services.py:123-132 | while every run is CRITICAL, one alert is raised in all, or none if the project was already CRITICAL |
| `TripleAxis.AlertOnceScenario` | backend/apps/finance/tests/test_services.py:123-133 | two CRITICAL runs from HEALTHY raise exactly one alert |
| `Serializers.ConsumptionGetter` | backend/apps/finance/serializers.py:212-216 | the serialized consumption is the engine's percentage, 0 for a zero budget |
| `Serializers.Latest` | backend/apps/finance/serializers.py:218-222 | the latest snapshot is present exactly when there are snapshots, and no snapshot is later |
| `Serializers.ProgressGetter` | backend/apps/finance/serializers.py:218-222 | the progress of a latest snapshot, or 0 with no snapshots |
| `Serializers.Deviation` | backend/apps/finance/serializers.py:434-443 | the absolute gap between unrounded consumption and latest progress, to the nearest cent with ties to even; equal to the progress when the budget is not positive |
| `Serializers.DeviationNearEngine` | backend/apps/finance/serializers.py:434-443 | this deviation is within one hundredth of the engine's rounded deviation |
| `Serializers.DeviationExample` | backend/apps/finance/serializers.py:434-443 | 60 of 100 hours against progress 40 gives a deviation of 20.00 |
| `Serializers.HourlyRate` | backend/apps/finance/serializers.py:67-75 | the rate is exactly actual cost / consumed hours when hours were logged, and 500 otherwise |
| `Serializers.CountedImpacts` | backend/apps/finance/serializers.py:54-60 | only impacts in a counted status take part; when all are counted, all take part |
| `Serializers.CountedImpactsFilter` | backend/apps/finance/serializers.py:54-60 | the counted impacts are exactly the impacts in a counted status, each once, in their order |
| `Serializers.CountedImpactsCount` | backend/apps/finance/serializers.py:54-60 | their number is the number of impacts in a counted status |
| `Serializers.Contribution` | backend/apps/finance/serializers.py:77-87 | an uncounted impact adds nothing; a counted one adds its hours, and its cost hours·rate to the absorbed total, or for a charged change request to the charged total, where a set non-zero charged amount replaces the cost |
| `Serializers.ImpactTotals` | backend/apps/finance/serializers.py:77-87 | nothing is charged when no impact is chargeable, and nothing is absorbed when all are |
| `Serializers.ImpactTotalsStep` | backend/apps/finance/serializers.py:77-87 | each impact adds exactly its own contribution to the totals of those before it |
| `Serializers.ImpactTotalsAppend` | backend/apps/finance/serializers.py:77-87 | the totals of two runs of impacts add up |
| `Serializers.TotalsConserveCost` | backend/apps/finance/serializers.py:77-87 | with no fixed charged amounts, charged plus absorbed equals total hours times the rate |
| `Serializers.TotalHoursAreCounted` | backend/apps/finance/serializers.py:77-87 | the total hours are the hours of exactly the counted impacts |
| `Serializers.CrImpactOf` | backend/apps/finance/serializers.py:52-106 | the items, count and hours are the counted impacts', and each money total is the exact total to the nearest cent, an exact tie going to the even neighbour |
| `Serializers.InReviewIgnored` | backend/apps/finance/serializers.py:54-60 | an impact still in review changes nothing in the summary |
| `Serializers.DefaultRateExample` | backend/apps/finance/serializers.py:67-87 | with no hours logged, 4 accepted hours are absorbed at the default 500 as 2000.00 |
| `Serializers.ValidateUpload` | backend/apps/finance/serializers.py:122-127 | an absent file passes; a present one passes exactly when its name ends in ".pdf" in any case and it is at most 10 MB; any other name is rejected as not a PDF |
| `Serializers.UploadExamples` | backend/apps/finance/serializers.py:122-127 | upper-case ".PDF" at exactly 10 MB passes, one byte more is too large, and ".pdf.exe" is refused |
| `Serializers.ValidateAnticipoAmount` | backend/apps/finance/serializers.py:329-332 | an amount is accepted, unchanged, exactly when it is positive |
| `FinanceViews.IsClientUser` | backend/apps/finance/views.py:57-61 | a user counts as a client exactly when they have a profile with the client role |
| `FinanceViews.ClientRoleIsNotClientOrg` | backend/apps/finance/views.py:57-61 | the view's client test (role) and the profile's (organization type) disagree on both sides |
| `FinanceViews.FirstDate` | backend/apps/finance/views.py:99-107 | the earliest entry date: it occurs among the entries and none is earlier |
| `FinanceViews.CostThroughBounds` | backend/apps/finance/views.py:113-121 | with non-negative costs, the cost through any day lies between 0 and the project's actual cost |
| `FinanceViews.CostThroughStep` | backend/apps/finance/views.py:113-121 | the cumulative cost through a day is the previous day's plus that day's cost |
| `FinanceViews.CostBeforeFirst` | backend/apps/finance/views.py:113-121 | before every entry the cumulative cost is 0 |
| `FinanceViews.CostThroughAll` | backend/apps/finance/views.py:113-121 | once every entry is past, the cumulative cost is the project's actual cost |
| `FinanceViews.CostThroughMonotone` | backend/apps/finance/views.py:113-121 | with non-negative costs, the cumulative cost never decreases |
| `FinanceViews.SnapshotsThrough` | backend/apps/finance/views.py:125-132 | exactly the snapshots taken on or before the day |
| `FinanceViews.EarnedValueThroughMeaning` | backend/apps/finance/views.py:125-132 | 0 when no snapshot was taken by the day; otherwise the earned value of a snapshot taken by the day with no later-stamped snapshot taken by the day |
| `FinanceViews.AsWrittenTotalDays` | backend/apps/finance/views.py:103-107 | the code's day count is never 0, and is today minus the start when the start is earlier |
| `FinanceViews.BudgetLineAsWrittenRounds` | backend/apps/finance/views.py:103-123 | the as-written line is the exact invoice·(days elapsed, the first day counting 1)/(today − start) to the nearest cent, ties to even; a one-day series divides by 1 |
| `FinanceViews.BudgetLineOvershoots` | backend/apps/finance/views.py:103-123 | the budget line as written reaches 2000.00 on an invoice of 1000.00 |
| `FinanceViews.BudgetLineAsWrittenEndsAbove` | backend/apps/finance/views.py:103-123 | as written, the last day's budget line is at least the invoice |
| `FinanceViews.BudgetLine` | backend/apps/finance/views.py:122-123 | the corrected planned spend is invoice·k/n to the nearest cent, an exact tie going to the even neighbour |
| `FinanceViews.BudgetLineWithinInvoice` | backend/apps/finance/views.py:103-123 | the corrected line stays between 0 and the invoice, and reaches the invoice on the last day |
| `FinanceViews.PointAt` | backend/apps/finance/views.py:103-132 | the series' point for day d is dated d; its three values are stated by the next three rows |
| `FinanceViews.PointAtBudget` | backend/apps/finance/views.py:103-123 | the point's budget line is the code's formula: the exact invoice·(d − start + 1)/(today − start, or 1 when that is 0) to the nearest cent, ties to even |
| `FinanceViews.PointAtCost` | backend/apps/finance/views.py:113-121 | the point's actual cost is the whole actual cost once every entry is dated by the day, and 0 before every entry |
| `FinanceViews.PointAtEarnedValue` | backend/apps/finance/views.py:125-132 | the point's earned value is that of a latest snapshot taken by the day, or 0 before the first snapshot |
| `FinanceViews.SeriesExtends` | backend/apps/finance/views.py:113-142 | appending the next day's point keeps the series equal to the day-by-day definition |
| `FinanceViews.SeriesDay` | backend/apps/finance/views.py:113-140 | one loop iteration adds that day's logged cost to the running total and builds exactly that day's point |
| `FinanceViews.Series` | backend/apps/finance/views.py:103-142 | one point per day from the start to today inclusive, the i-th being the point of day start + i, with the as-written budget line |
| `FinanceViews.Burndown` | backend/apps/finance/views.py:84-145 | once the request has passed the profile check and the project is visible to the user: forbidden exactly for client users; empty without entries; otherwise one point per day from the first entry's date to today, each with the as-written budget line, cumulative cost and latest earned value |
| `FinanceViews.ReviewAdvance` | backend/apps/finance/views.py:291-304 | 200 exactly for "pending"/"accepted" (the status and the given observations are stored, everything else kept), 400 otherwise with nothing changed |
| `FinanceViews.ReviewAdvanceKeepsStatusValid` | backend/apps/finance/views.py:291-304 | a review never leaves an advance in a status outside its vocabulary |
| `FinanceViews.ReviewAdvanceIdempotent` | backend/apps/finance/views.py:291-304 | repeating the same review changes nothing more |
| `FinanceViews.ReviewSimpleChange` | backend/apps/finance/views.py:314-330 | 200 exactly for the four change-request statuses (the status and the given comments are stored), 400 otherwise with nothing changed |
| `FinanceViews.ReviewSimpleChangeKeepsStatusValid` | backend/apps/finance/views.py:314-330 | a review keeps a change request's status in its vocabulary |
| `FinanceViews.ReviewVocabularies` | backend/apps/finance/views.py:296-324 | "rejected" is refused for an advance but accepted for a change, and "pending" is refused for a change |
| `Profiles.ProfileFlags` | backend/apps/accounts/models.py:63-85 | internal and client are exclusive; financials exactly for non-clients; billing management exactly when portfolio and personal are both visible; the client role sees neither |
| `Permissions.Allows` | backend/apps/accounts/permissions.py:10-76 | anonymous requests are refused, superusers admitted, and anyone else admitted exactly when their profile meets the class's condition |
| `Permissions.AllowsAll` | backend/apps/accounts/permissions.py:10-76 | a view's classes admit a request exactly when each one does |
| `Permissions.InternalViewsAdmit` | backend/apps/accounts/permissions.py:10-29 | profile plus internal-user admit exactly superusers and active internal profiles |
| `Permissions.BillingWriteWithoutRead` | backend/apps/accounts/permissions.py:66-76 | an external admin may write billing roles but not read them |
| `Visibility.ProjectsForUser` | backend/apps/accounts/querysets.py:11-34 | an error exactly for a non-superuser without a profile; superusers, admins and directors see every project, PMs their assigned ones, clients their organization's |
| `Visibility.AlertsForUser` | backend/apps/accounts/querysets.py:37-42 | exactly the alerts on the projects the user may see |
| `Visibility.SuperuserSeesEveryAlert` | backend/apps/accounts/querysets.py:11-42 | a profile-less superuser sees every alert that any user sees |
| `ClockifySync.ParseNumber` | backend/apps/integrations/clockify_sync_service.py:84-96 | a component is read exactly when it is a non-empty digit string, as its decimal value |
| `ClockifySync.Designator` | backend/apps/integrations/clockify_sync_service.py:84-96 | an absent designator reads as 0 with the text intact; a repeated one is an error; on success the designator is consumed |
| `ClockifySync.HoursFromSeconds` | backend/apps/integrations/clockify_sync_service.py:95-96 | seconds/3600 to the nearest ten-thousandth of an hour, never negative |
| `ClockifySync.ParseDuration` | backend/apps/integrations/clockify_sync_service.py:77-97 | an empty duration is 0 hours; a parsed duration is never negative |
| `ClockifySync.ParseFormatRoundTrip` | backend/apps/integrations/clockify_sync_service.py:77-97 | parsing "PT{h}H{m}M{s}S" (zero parts omitted) gives (3600h+60m+s)/3600 hours, rounded |
| `ClockifySync.DesignatedSteps` | backend/apps/integrations/clockify_sync_service.py:84-96 | hours, minutes and seconds read in turn combine into the rounded hour count |
| `ClockifySync.ZeroRoundTrip` | backend/apps/integrations/clockify_sync_service.py:77-97 | "PT0S" is 0 hours |
| `ClockifySync.OneAndAHalfHours` | backend/apps/integrations/clockify_sync_service.py:77-97 | "PT1H30M" is 1.5000 hours |
| `ClockifySync.RepeatedHoursRejected` | backend/apps/integrations/clockify_sync_service.py:84-96 | "PT1H2H" is refused |
| `ClockifySync.FirstRateFor` | backend/apps/integrations/clockify_sync_service.py:47-58 | the project's first rate row for the role, or none exactly when no row names it |
| `ClockifySync.HourlyRate` | backend/apps/integrations/clockify_sync_service.py:47-58 | no role gives 0; a project rate for the role wins; otherwise the role's default |
| `ClockifySync.RoleForUser` | backend/apps/integrations/clockify_sync_service.py:71-75 | the first billing role, or none exactly when there is none |
| `ClockifySync.EntryCost` | backend/apps/integrations/clockify_sync_service.py:145 | hours·rate to the nearest cent, ties to even |
| `ClockifySync.EntryCostExample` | backend/apps/integrations/clockify_sync_service.py:145 | 1.5 hours at 500.00 costs 750.00 |
| `ClockifySync.PhaseNamed` | backend/apps/integrations/clockify_sync_service.py:60-69 | a phase whose name equals the tag ignoring case, or none exactly when there is none |
| `ClockifySync.MapTagsToPhase` | backend/apps/integrations/clockify_sync_service.py:60-69 | the phase named by the first tag that names one; none exactly when no tag does |
| `ClockifySync.ProjectMap` | backend/apps/integrations/clockify_sync_service.py:116-120 | exactly the projects with a non-empty Clockify id, keyed by it |
| `ClockifySync.CountLinked` | backend/apps/integrations/clockify_sync_service.py:132-135 | at most one linked entry per fetched entry |
| `ClockifySync.StoredFor` | backend/apps/integrations/clockify_sync_service.py:145-167 | the stored row carries the local project, the parsed hours, their cost at the role's rate, and the entry's date or today |
| `ClockifySync.SyncEntries` | backend/apps/integrations/clockify_sync_service.py:132-176 | fails exactly when a linked entry's duration does not parse; otherwise counts every linked entry; keeps every stored row and rewrites only keys the run writes |
| `ClockifySync.SyncIsOverlay` | backend/apps/integrations/clockify_sync_service.py:132-168 | a successful run is the old store overlaid with the rows of the linked entries, later entries winning |
| `ClockifySync.SyncStepLinked` | backend/apps/integrations/clockify_sync_service.py:132-167 | a linked entry upserts its row under its Clockify id before the rest are processed |
| `ClockifySync.UnlinkedEntriesSkipped` | backend/apps/integrations/clockify_sync_service.py:133-135 | entries of projects not linked locally change nothing and count nothing |
| `ClockifySync.SyncIdempotent` | backend/apps/integrations/clockify_sync_service.py:154-167 | running the same sync again leaves the store as it is |
| `Jira.PointsMeaning` | backend/apps/integrations/jira_client.py:60-74 | unestimated issues add no points; with no issue done nothing is done; with every issue done the done points are all the points |
| `Jira.DoneWithinTotal` | backend/apps/integrations/jira_client.py:60-74 | with non-negative points, the done points lie between 0 and the total |
| `Jira.PointsAppend` | backend/apps/integrations/jira_client.py:60-74 | both sums distribute over pages |
| `Jira.Progress` | backend/apps/integrations/jira_client.py:80-83 | 0 without points; otherwise done/total·100 to the nearest hundredth, an exact tie going to the even neighbour |
| `Jira.ProgressInRange` | backend/apps/integrations/jira_client.py:60-83 | the progress lies in 0..100.00 |
| `Jira.PagesRequested` | backend/apps/integrations/jira_client.py:76-78 | the fewest pages (at least one) that cover the reported total |
| `Jira.PagesRequestedUnique` | backend/apps/integrations/jira_client.py:76-78 | that page count is the only one with both properties |
| `Jira.TakeThenPage` | backend/apps/integrations/jira_client.py:46-78 | the issues fetched so far, followed by the next page, are the issues up to the next offset |
| `Jira.FetchStep` | backend/apps/integrations/jira_client.py:60-74 | folding one more page adds exactly that page's points |
| `Jira.AddPage` | backend/apps/integrations/jira_client.py:60-74 | one page's fold adds its total and done points |
| `Jira.FetchPage` | backend/apps/integrations/jira_client.py:60-74 | one request adds the page's points to the sums over the issues before it, giving the sums up to the next offset |
| `Jira.FetchPages` | backend/apps/integrations/jira_client.py:34-78 | the loop requests the computed number of pages and sums exactly the issues they return |
| `Jira.FetchProjectProgress` | backend/apps/integrations/jira_client.py:34-83 | the progress of the fetched issues |
| `Jira.FetchCoversAll` | backend/apps/integrations/jira_client.py:34-78 | when the reported total is right, every issue is fetched |
| `Jira.EmptySearchOnePage` | backend/apps/integrations/jira_client.py:76-81 | an empty search asks one page and reports progress 0 |
| `Jira.ProgressExample` | backend/apps/integrations/jira_client.py:60-83 | 8 done of 10 estimated points is 80.00 %; unestimated issues count nothing |
| `CsvLoad.FirstContaining` | backend/apps/finance/management/commands/load_csv_data.py:592-599 | the sprint of the first range holding the day, none exactly when no range holds it |
| `CsvLoad.SprintNumForDate` | backend/apps/finance/management/commands/load_csv_data.py:634-639 | the sprint of a range holding the day, or 1 when none holds it |
| `CsvLoad.SprintNumForDateByCalendar` | backend/apps/finance/management/commands/load_csv_data.py:182-187 | the CAPMX sprint of a day by its calendar dates, 1 outside every range |
| `CsvLoad.ColoradoSprintNumForDate` | backend/apps/finance/management/commands/load_csv_data.py:591-598 | the sprint of a range holding the day; outside every range 1 before 2025-07-01 and 5 from then on |
| `CsvLoad.ColoradoSprintByCalendar` | backend/apps/finance/management/commands/load_csv_data.py:234-240 | the Colorado sprint of a day by its calendar dates |
| `CsvLoad.ColoradoSprintMonotone` | backend/apps/finance/management/commands/load_csv_data.py:592-599 | later days never fall in earlier Colorado sprints, and the sprint is 1..5 |
| `CsvLoad.FirstMatch` | backend/apps/finance/management/commands/load_csv_data.py:576-589 | the first task whose amount or hours match, or the end when none does |
| `CsvLoad.IsColoradoDescEntry` | backend/apps/finance/management/commands/load_csv_data.py:552-573 | a "[CL-" key marks Colorado; a foreign key prefix excludes it; otherwise exactly a task matching on amount or hours includes it |
| `CsvLoad.MatchColoradoTask` | backend/apps/finance/management/commands/load_csv_data.py:576-589 | one of the day's tasks: the only one, else the first matching, else the first |
| `CsvLoad.MatchedEntryGetsMatchingTask` | backend/apps/finance/management/commands/load_csv_data.py:552-589 | an entry admitted by a task matching on amount or hours is given a task that matches on amount or hours |
| `CsvLoad.LastIndexWithKey` | backend/apps/finance/management/commands/load_csv_data.py:412-419 | the last task row with the date and description, or -1 when none |
| `CsvLoad.TaskLookupLastWins` | backend/apps/finance/management/commands/load_csv_data.py:412-419 | the lookup holds a key exactly when a row has it, and maps it to the last such row's task |
| `CsvLoad.RawMerge` | backend/apps/finance/management/commands/load_csv_data.py:394-448 | one merged row per hours row, with its fields kept and the task of the last matching task row, or "(Without task)" |
| `CsvLoad.ColoradoGroupsAreGroups` | backend/apps/finance/management/commands/load_csv_data.py:471-492 | the grouping holds a (user, date) key exactly when some task row has it, mapped to those rows in order |
| `CsvLoad.MixedKeys` | backend/apps/finance/management/commands/load_csv_data.py:471-492 | exactly the (user, date) keys that also carry a non-Colorado task row |
| `CsvLoad.MergeOne` | backend/apps/finance/management/commands/load_csv_data.py:520-534 | a kept row keeps its date, description, hours and amount, takes the normalized user and the task matched among its day's Colorado tasks |
| `CsvLoad.MergeDescRows` | backend/apps/finance/management/commands/load_csv_data.py:498-535 | each kept row is given one of its day's tasks; when every row passes the checks all are kept; rows of days without tasks are all dropped |
| `CsvLoad.MergeDescRowsFilter` | backend/apps/finance/management/commands/load_csv_data.py:498-535 | the merged rows are exactly the rows the join keeps, each once and in file order, the j-th built by MergeOne from the j-th kept row |
| `CsvLoad.ColoradoMerge` | backend/apps/finance/management/commands/load_csv_data.py:450-549 | each merged row has one of its day's Colorado tasks; all rows kept when all pass; none when no day has Colorado work |
| `CsvLoad.KeepDescRowMeaning` | backend/apps/finance/management/commands/load_csv_data.py:471-519 | a description row is kept exactly when its (user, date) has Colorado task rows and, if that user also logged another project that day, the classifier accepts it |
| `CsvLoad.ColoradoMergeFilter` | backend/apps/finance/management/commands/load_csv_data.py:450-549 | the join's rows are the kept description rows in file order, each with the normalized user, its own date, text, hours and amount, and the task matched among its day's Colorado rows |
| `CsvLoad.MixedDateRowsFiltered` | backend/apps/finance/management/commands/load_csv_data.py:507-519 | on a mixed date, a description row the classifier rejects yields no merged row; a row yields one exactly when the rule keeps it |
| `CsvLoad.RowSprint` | backend/apps/finance/management/commands/load_csv_data.py:1024-1027 | a task's fixed sprint when it has one, else the sprint of its date |
| `CsvLoad.EntryFor` | backend/apps/finance/management/commands/load_csv_data.py:1000-1052 | the entry for an eligible row carries its 1-based row number, user, hours, amount as cost, date, description, sprint and that sprint's phase |
| `CsvLoad.CreateCapmxTimeEntries` | backend/apps/finance/management/commands/load_csv_data.py:1000-1052 | one entry per row of a known user with positive hours, each built from its own row, in row order |
| `ApiClient.SnakeToCamel` | frontend/src/services/apiClient.ts:3-5 | camelCasing never lengthens a key |
| `ApiClient.CamelToSnake` | frontend/src/services/apiClient.ts:7-9 | snake_casing never shortens a key |
| `ApiClient.SnakeToCamelIdentity` | frontend/src/services/apiClient.ts:3-5 | a key without underscores is left as it is by camelCasing |
| `ApiClient.CamelToSnakeIdentity` | frontend/src/services/apiClient.ts:7-9 | a key without capitals is left as it is by snake_casing |
| `ApiClient.CamelToSnakeGrows` | frontend/src/services/apiClient.ts:7-9 | snake_casing lengthens a key exactly when the key holds a capital |
| `ApiClient.SnakeToCamelMergesAll` | frontend/src/services/apiClient.ts:3-5 | after camelCasing no underscore is followed by a lower-case letter |
| `ApiClient.SnakeCamelRoundTrip` | frontend/src/services/apiClient.ts:3-9 | a key without capitals survives camelCasing and snake_casing back |
| `ApiClient.CamelSnakeRoundTrip` | frontend/src/services/apiClient.ts:3-9 | a key without underscores survives snake_casing and camelCasing back |
| `ApiClient.CamelToSnakeNoUpper` | frontend/src/services/apiClient.ts:7-9 | snake_casing leaves no capital letters |
| `ApiClient.SnakeToCamelInjective` | frontend/src/services/apiClient.ts:3-5 | distinct keys without capitals stay distinct when camelCased |
| `ApiClient.RenamingExamples` | frontend/src/services/apiClient.ts:3-9 | "a_b" ↔ "aB", and an underscore before a digit is kept |
| `ApiClient.KeyIndex` | frontend/src/services/apiClient.ts:19-24 | the position of the entry with the key, -1 exactly when no entry has it |
| `ApiClient.KeySetAppend` | frontend/src/services/apiClient.ts:19-24 | assigning a new key adds exactly that key |
| `ApiClient.KeySetUpdate` | frontend/src/services/apiClient.ts:19-24 | assigning an existing key leaves the keys as they are |
| `ApiClient.SetEntry` | frontend/src/services/apiClient.ts:19-24 | assigning a key adds it or replaces its value, and keys stay unique |
| `ApiClient.FromEntries` | frontend/src/services/apiClient.ts:19-24 | the object built from entries has unique keys, exactly the entries' keys, and only entries' values |
| `ApiClient.FromEntriesUnique` | frontend/src/services/apiClient.ts:19-24 | entries with distinct keys become the object as they are |
| `ApiClient.TransformKeys` | frontend/src/services/apiClient.ts:11-27 | arrays keep their length, scalars are unchanged, and an object's keys are exactly the renamed keys |
| `ApiClient.TransformObject` | frontend/src/services/apiClient.ts:19-24 | when renaming keeps keys distinct, each field is renamed in place with its value transformed |
| `ApiClient.TransformKeysRoundTrip` | frontend/src/services/apiClient.ts:38-59 | a snake_case payload sent as camelCase and converted back is unchanged |
| `ApiClient.CollidingKeysMerge` | frontend/src/services/apiClient.ts:19-24 | two keys that rename alike merge, and the later value wins |
| `ApiClient.RequestBodyAsWritten` | frontend/src/services/apiClient.ts:11-27 | as written, every request body leaves as JSON: a JSON body with its keys snake_cased, and a `FormData` body rebuilt from its own entries |
| `ApiClient.FormDataArrivesEmpty` | frontend/src/services/financeApi.ts:96-113 | as written, an upload's `FormData` reaches the server as `{}`, whatever fields were appended |
| `ApiClient.RequestBody` | frontend/src/services/apiClient.ts:50-59 | a `FormData` body goes through with all its fields, in order; JSON scalars are unchanged and JSON stays JSON |
| `ApiClient.RequestBodiesAgreeOnJson` | frontend/src/services/apiClient.ts:50-59 | the two interceptors agree exactly on JSON bodies |
| `ApiClient.RequestBodyRoundTrip` | frontend/src/services/apiClient.ts:38-59 | a snake_case value read as camelCase and sent back reaches the server unchanged |
| `Formatters.RoundMinutes` | frontend/src/services/formatters.ts:32 | the nearest whole minute, a half rounding up |
| `Formatters.FormatHoursMinutes` | frontend/src/services/formatters.ts:26-38 | nothing positive shows as "0min"; the text is never empty |
| `Formatters.RenderMinutesRoundTrip` | frontend/src/services/formatters.ts:33-37 | a minute count rendered and read back is the same count |
| `Formatters.FormatHoursMinutesRoundTrip` | frontend/src/services/formatters.ts:26-38 | the text loses nothing beyond the rounding to minutes |
| `Formatters.FormatHoursMinutesExamples` | frontend/src/services/formatters.ts:26-38 | 0.5 h is "30min", 1.33 h "1h 20min", 3.87 h "3h 52min", 8 h "8h" |
| `Formatters.HealthLabel` | frontend/src/services/formatters.ts:58-65 | "Critico", "En Riesgo" and "En Camino" each belong to exactly one status |
| `Formatters.HealthColor` | frontend/src/services/formatters.ts:40-47 | a "#RRGGBB" colour, each of the three belonging to exactly one status |
| `Sidebar.PermissionsFor` | backend/apps/finance/auth_views.py:64-99 | projects are always visible; with no profile every flag is granted; otherwise financials exactly for internal organizations, portfolio exactly for directors and admins, personal exactly for PMs and admins, billing roles exactly for admins |
| `Sidebar.Allowed` | frontend/src/components/layout/Sidebar.tsx:24-30 | exactly the entries the flags allow, in menu order |
| `Sidebar.VisibleItems` | frontend/src/components/layout/Sidebar.tsx:24-30 | every entry before the user is known, afterwards exactly the allowed ones, in order |
| `Sidebar.ClientSeesOnlyProjects` | frontend/src/components/layout/Sidebar.tsx:17-30 | a client-role user sees only the project list |
| `Sidebar.IsActive` | frontend/src/components/layout/Sidebar.tsx:32-35 | the root entry is active exactly on the root; another entry exactly on its own path or a path continuing it after a "/" |
| `Sidebar.ActiveIsPrefix` | frontend/src/components/layout/Sidebar.tsx:32-35 | an active entry's path is a prefix of the current path |
| `Sidebar.SiblingPathInactive` | frontend/src/components/layout/Sidebar.tsx:32-35 | "/projects-x" does not activate "/projects", "/projects/7" does, and the root is active only on itself |
| `Sidebar.AtMostOneActive` | frontend/src/components/layout/Sidebar.tsx:17-35 | whatever the path, at most one menu entry is highlighted |
| `Sprints.DeliverableExamples` | frontend/src/components/dashboard/SprintsSection.tsx:37-43 | management patterns match in any case, and "INV" only with its hyphen |
| `Sprints.FindAdvance` | frontend/src/components/dashboard/SprintsSection.tsx:153-156 | the first advance for the key, none exactly when there is none |
| `Sprints.DatePart` | frontend/src/components/dashboard/SprintsSection.tsx:175 | the longest 'T'-free prefix of the timestamp |
| `Sprints.TaskItem` | frontend/src/components/dashboard/SprintsSection.tsx:153-164 | pending exactly when no advance exists; accepted exactly when the first advance is accepted; that advance's description and id, or the task title and no id when there is none |
| `Sprints.OrphanItem` | frontend/src/components/dashboard/SprintsSection.tsx:167-179 | an extra item keeps the advance's key and is never pending |
| `Sprints.DeliverableTasks` | frontend/src/components/dashboard/SprintsSection.tsx:149 | exactly the tasks with a client-facing key |
| `Sprints.DeliverableTasksFilter` | frontend/src/components/dashboard/SprintsSection.tsx:149 | the listed tasks are the client-facing ones, each once, in sprint order |
| `Sprints.Orphans` | frontend/src/components/dashboard/SprintsSection.tsx:167-172 | exactly the client-facing advances whose key no listed task has |
| `Sprints.OrphansFilter` | frontend/src/components/dashboard/SprintsSection.tsx:167-172 | the extra advances are exactly those, each once, in advance order |
| `Sprints.Assemble` | frontend/src/components/dashboard/SprintsSection.tsx:148-182 | task items first in task order, then extra items in advance order |
| `Sprints.Deliverables` | frontend/src/components/dashboard/SprintsSection.tsx:148-182 | one item per client-facing task in task order, followed by one extra item per orphan advance in advance order; every item has a client-facing key |
| `Sprints.ExtraItemsMeaning` | frontend/src/components/dashboard/SprintsSection.tsx:167-182 | extra items are never pending and belong to advances whose key no task item has |
| `Sprints.EveryDeliverableTaskListed` | frontend/src/components/dashboard/SprintsSection.tsx:148-164 | every client-facing task of the sprint has an item |
| `Sprints.AcceptedCount` | frontend/src/components/dashboard/SprintsSection.tsx:184 | the count is 0 exactly when nothing is accepted, and the full length exactly when everything is |
| `Sprints.AcceptedCountIsSize` | frontend/src/components/dashboard/SprintsSection.tsx:184 | the count is the number of positions holding an accepted item |
| `Sprints.NoAdvancesNothingAccepted` | frontend/src/components/dashboard/SprintsSection.tsx:148-184 | with no advances every item is a pending task item and none is accepted |

## Left out

- Persistence, HTTP routing, Celery scheduling, sync logs and all I/O are left out. Queries are functions over the records they would read. Saving is a new state value, and the snapshot write and status update form one step.
- `Decimal` division to 28 significant digits is treated as exact before quantizing. Where the quotient is exact, or is only scaled by a power of ten before quantizing (consumption, deviation), no result changes for the magnitudes a project holds. Where the rounded quotient is multiplied by another factor, the result can differ at an exact half-cent tie; the next two lines say where.
- FinanceViews.BudgetLineAsWritten: the code computes `invoice / total_days` to 28 digits and then multiplies by `days_elapsed`. When the exact value is a half-cent tie, the code can round it either way, depending on the digits dropped from the quotient; for example 1000.07 over 6 days on day 3 gives 500.03 in the code and 500.04 here. Away from exact ties the results agree.
- Serializers.CrImpactOf: the hourly rate `actual_cost / consumed` is computed to 28 digits and then multiplied by each impact's hours. When the exact charged or absorbed total is a half-cent tie and the rate is not exact, the code can round it either way. With an exact rate, or away from exact ties, the results agree.
- FinanceViews.Burndown: the two gates the viewset applies before the action are modelled separately rather than inside `Burndown`. `HasUserProfile` is `Permissions.Allows`; the 404 for a project outside the user's queryset is `Visibility.ProjectsForUser`.
- TripleAxis.Classify: the score's float arithmetic is exact rational arithmetic truncated toward zero. Binary-float representation error at exact integer boundaries is not modelled.
- Snapshot days are UTC days (timestamp / 86400). The server time zone is not modelled.
- Upper- and lower-casing covers ASCII letters only.
- ClockifySync.ParseDuration: duration components are read only as plain digit strings. `Decimal` spellings such as "1.5", "1e2" or signs are errors in the model. For decimal hours the code would accept them.
- Error message texts and Spanish UI strings are not modelled, except the menu titles and labels that the properties compare.
- `max_digits` column limits are not modelled.
- Visibility.ProjectsForUser: the final `Project.objects.none()` branch is not modelled. No role reaches it, because the role enum has exactly four values.
- Serializers.Latest: it picks the first snapshot with the greatest timestamp. The database orders ties by an unspecified key.
- ClockifySync.SyncEntries: the model covers one user's run. Like the code, it stops at the first linked entry whose duration fails to parse, keeping the rows already written. The outer handler that records the error in the sync log, and so skips the remaining users, is not modelled.
- ClockifySync.RoleForUser: the model takes the user's first role as the database returns it. The database order is not modelled.
- ApiClient.TransformKeys: class instances other than `FormData` (a `File` or `Date` nested in a payload) also pass the `typeof data === "object"` test and come out as `{}`. `Json` has no such values, so this is not modelled; `FormData` bodies are modelled by `ApiClient.RequestBodyAsWritten`.
- Jira.FetchPages: every request is taken to return the next 100 issues in full, with the same reported total. A server that caps `maxResults` below 100, or whose total changes between pages, would make the code skip issues; the model does not show that.
- ClockifySync.StoredFor: the stored row's `user_email` default is not modelled. Nor is the exception `datetime.fromisoformat` raises on a malformed `timeInterval.start`: start dates are given as day numbers.
- `ApiClient`: JavaScript orders integer-like object keys before the others; here keys keep insertion order. Axios interceptors are modelled only as the two key transforms.
- Formatters.RoundMinutes: hours arrive as hundredths of an hour. The float product `hours * 60` is exact in the model.
- Also from `formatters.ts`: `formatCurrency`, `formatPercent`, `formatHours` and `getHealthBgClass` are not modelled. They only call `Intl` formatting or pick CSS class names.
- Also from the sidebar: the icons are not modelled.
- Sprints.TaskItem: the description's `?? task.title` fallback for a null advance description is not modelled, because descriptions are non-null strings here.
- The CSV loader's file reading, `_distribute_hours`, `_parse_month`, business-day counting and the Colorado time-entry creation are not modelled.
- The start-date string parsing of the sprint tables is not modelled. Tables hold day numbers, and the `CsvLoad` boundary lemmas tie them to calendar dates.
- `AnticipoCoverageService` is not part of this model.
- Report generation (PDF/Excel), seed data and the admin site are not part of this model.

## Findings

| source | as written | input that shows it | evidently intended | confidence | as-written member | corrected member |
|---|---|---|---|---|---|---|
| backend/apps/finance/views.py:103-123 | `days_elapsed` counts from 1 and reaches `total_days + 1` on the last day, so `budget_line = invoice · days_elapsed / total_days` ends above the invoice | first entry on day 0, today day 1, invoice 1000.00: the budget line on day 1 is 2000.00 | the planned line reaches the invoice on the last day and never exceeds it | not executed | `FinanceViews.BudgetLineOvershoots` | `FinanceViews.BudgetLineWithinInvoice` |
| frontend/src/services/apiClient.ts:11-59 | the request interceptor runs `transformKeys` on every body; a `FormData` instance is an object whose fields are not own enumerable properties, so it becomes `{}` | `updatePhaseInvoice` with an invoice file, or `updateAnticipo` (financeApi.ts:96-113, 134-146): the PATCH body is `{}` | `FormData` is sent untouched, as the comment at financeApi.ts:96 expects | not executed | `ApiClient.FormDataArrivesEmpty` | `ApiClient.RequestBody` |

The burndown members (`FinanceViews.PointAt`, `FinanceViews.Series`,
`FinanceViews.Burndown`) follow the code as written and carry the
as-written line; the corrected line is defined and proved beside them.

=== FILE: accounts.dfy ===
/**
 * Users, organizations and the role flags derived from them.
 * A user may lack a profile (legacy superusers); a profile belongs to one
 * organization, which is either the internal company or an external client.
 */
module Profiles {
  import opened Wrappers

  datatype OrgType = Internal | External

  datatype Role = PM | Director | Admin | ClientRole

  datatype Organization = Organization(id: int, orgType: OrgType)

  /** `assignedProjects` holds the ids of the projects assigned to the profile. */
  datatype UserProfile = UserProfile(
    organization: Organization,
    role: Role,
    isActive: bool,
    assignedProjects: set<int>)

  datatype User = User(isAuthenticated: bool, isSuperuser: bool, profile: Option<UserProfile>)

  predicate IsInternal(p: UserProfile) { p.organization.orgType == Internal }

  predicate IsClient(p: UserProfile) { p.organization.orgType == External }

  predicate CanSeeFinancials(p: UserProfile) { IsInternal(p) }

  predicate CanSeePortfolio(p: UserProfile) { p.role == Director || p.role == Admin }

  predicate CanSeePersonal(p: UserProfile) { p.role == PM || p.role == Admin }

  predicate CanManageBillingRoles(p: UserProfile) { p.role == Admin }

  /**
   * Exactly one of internal/client holds; financial visibility is internal
   * membership; only ADMIN combines portfolio and personal views, and
   * managing billing roles is exactly that combination.
   */
  lemma ProfileFlags(p: UserProfile)
    ensures IsInternal(p) != IsClient(p)
    ensures CanSeeFinancials(p) <==> !IsClient(p)
    ensures CanManageBillingRoles(p) <==> CanSeePortfolio(p) && CanSeePersonal(p)
    ensures p.role == ClientRole ==> !CanSeePortfolio(p) && !CanSeePersonal(p)
  {
  }
}

/** The request-level permission classes of the API. */
module Permissions {
  import opened Wrappers
  import opened Profiles

  datatype PermissionClass =
    | HasUserProfile
    | IsInternalUser
    | IsAdmin
    | CanSeePortfolioView
    | CanManageBillingRolesView

  /** The request as the permission classes see it; `user` is absent when the request carries none. */
  datatype Request = Request(user: Option<User>, httpMethod: string)

  predicate IsSafeMethod(m: string) {
    m == "GET" || m == "HEAD" || m == "OPTIONS"
  }

  /** The condition each class puts on the profile of an authenticated non-superuser. */
  predicate ProfileMeets(perm: PermissionClass, p: UserProfile, httpMethod: string) {
    match perm
    case HasUserProfile => p.isActive
    case IsInternalUser => IsInternal(p)
    case IsAdmin => p.role == Admin
    case CanSeePortfolioView => CanSeePortfolio(p)
    case CanManageBillingRolesView =>
      if IsSafeMethod(httpMethod) then IsInternal(p) else CanManageBillingRoles(p)
  }

  /**
   * `has_permission` of each class: unauthenticated requests are denied,
   * superusers are admitted, and everyone else needs a profile meeting the
   * class's own condition.
   */
  function Allows(perm: PermissionClass, req: Request): (r: bool)
    ensures req.user.None? || !req.user.value.isAuthenticated ==> !r
    ensures req.user.Some? && req.user.value.isAuthenticated && req.user.value.isSuperuser ==> r
    ensures req.user.Some? && req.user.value.isAuthenticated && !req.user.value.isSuperuser ==>
      (r <==> req.user.value.profile.Some? && ProfileMeets(perm, req.user.value.profile.value, req.httpMethod))
  {
    if req.user.None? || !req.user.value.isAuthenticated then false
    else if req.user.value.isSuperuser then true
    else if req.user.value.profile.None? then false
    else ProfileMeets(perm, req.user.value.profile.value, req.httpMethod)
  }

  /** A view admits a request only when every one of its classes does. */
  function AllowsAll(perms: seq<PermissionClass>, req: Request): (r: bool)
    ensures r <==> forall i :: 0 <= i < |perms| ==> Allows(perms[i], req)
  {
    if |perms| == 0 then true else Allows(perms[0], req) && AllowsAll(perms[1..], req)
  }

  /** Internal-only views (`HasUserProfile` then `IsInternalUser`) admit exactly superusers and active internal profiles. */
  lemma InternalViewsAdmit(req: Request)
    requires req.user.Some? && req.user.value.isAuthenticated
    ensures AllowsAll([HasUserProfile, IsInternalUser], req) <==>
      req.user.value.isSuperuser ||
      (req.user.value.profile.Some? && req.user.value.profile.value.isActive
        && IsInternal(req.user.value.profile.value))
  {
  }

  /**
   * The billing-role class checks writes and reads independently: an ADMIN
   * profile of an external organization may write billing roles yet not read them.
   */
  lemma BillingWriteWithoutRead(org: Organization)
    requires org.orgType == External
    ensures var u := User(true, false, Some(UserProfile(org, Admin, true, {})));
      Allows(CanManageBillingRolesView, Request(Some(u), "POST"))
      && !Allows(CanManageBillingRolesView, Request(Some(u), "GET"))
  {
  }
}

/** Which projects and alerts a user may see. */
module Visibility {
  import opened Wrappers
  import opened Profiles

  /** A project as far as visibility goes: its id and the client organization it belongs to, if any. */
  datatype ProjectRef = ProjectRef(id: int, clientOrg: Option<int>)

  datatype AlertRef = AlertRef(id: int, projectId: int)

  /** Reading the profile of a non-superuser who has none raises. */
  datatype QueryError = MissingProfile

  /**
   * `get_projects_for_user`: a superuser without a profile sees everything;
   * otherwise the profile's role decides.
   */
  function ProjectsForUser(user: User, projects: set<ProjectRef>): (r: Result<set<ProjectRef>, QueryError>)
    ensures r.Err? <==> !user.isSuperuser && user.profile.None?
    ensures r.Ok? ==> r.value <= projects
    ensures user.isSuperuser && user.profile.None? ==> r == Ok(projects)
    ensures user.profile.Some? && user.profile.value.role in {Admin, Director} ==> r == Ok(projects)
    ensures user.profile.Some? && user.profile.value.role == PM ==>
      r.Ok? && forall p :: p in r.value <==> p in projects && p.id in user.profile.value.assignedProjects
    ensures user.profile.Some? && user.profile.value.role == ClientRole ==>
      r.Ok? && forall p :: p in r.value <==>
        p in projects && p.clientOrg == Some(user.profile.value.organization.id)
  {
    if user.isSuperuser && user.profile.None? then Ok(projects)
    else if user.profile.None? then Err(MissingProfile)
    else
      var profile := user.profile.value;
      match profile.role
      case Admin => Ok(projects)
      case Director => Ok(projects)
      case PM => Ok(set p | p in projects && p.id in profile.assignedProjects)
      case ClientRole => Ok(set p | p in projects && p.clientOrg == Some(profile.organization.id))
  }

  /** `get_alerts_for_user`: the alerts whose project the user can see. */
  function AlertsForUser(user: User, projects: set<ProjectRef>, alerts: set<AlertRef>)
    : (r: Result<set<AlertRef>, QueryError>)
    ensures r.Err? <==> ProjectsForUser(user, projects).Err?
    ensures r.Ok? ==> r.value <= alerts
    ensures r.Ok? ==> forall a :: a in r.value <==>
      a in alerts && exists p :: p in ProjectsForUser(user, projects).value && p.id == a.projectId
  {
    match ProjectsForUser(user, projects)
    case Err(e) => Err(e)
    case Ok(visible) =>
      Ok(set a | a in alerts && exists p :: p in visible && p.id == a.projectId)
  }

  /** Seeing more projects never hides an alert: a superuser's alert set contains everyone's. */
  lemma SuperuserSeesEveryAlert(user: User, other: User, projects: set<ProjectRef>, alerts: set<AlertRef>)
    requires user.isSuperuser && user.profile.None?
    requires AlertsForUser(other, projects, alerts).Ok?
    ensures AlertsForUser(user, projects, alerts).Ok?
    ensures AlertsForUser(other, projects, alerts).value <= AlertsForUser(user, projects, alerts).value
  {
    var mine := AlertsForUser(user, projects, alerts).value;
    forall a | a in AlertsForUser(other, projects, alerts).value
      ensures a in mine
    {
      var p :| p in ProjectsForUser(other, projects).value && p.id == a.projectId;
      assert p in ProjectsForUser(user, projects).value;
    }
  }
}

=== FILE: api_client.dfy ===
/**
 * The API client's key renaming: responses arrive with snake_case keys and
 * are handed to the UI in camelCase; requests go the other way. JSON values
 * are a datatype; an object is its list of entries in insertion order.
 */
module ApiClient {
  import opened Text

  /**
   * `str.replace(/_([a-z])/g, upper)`: each underscore before a lower-case
   * letter merges into it, so the key never grows.
   */
  function SnakeToCamel(s: string): (r: string)
    ensures |r| <= |s|
    decreases |s|
  {
    if |s| == 0 then []
    else if s[0] == '_' && |s| >= 2 && IsAsciiLower(s[1]) then [UpperChar(s[1])] + SnakeToCamel(s[2..])
    else [s[0]] + SnakeToCamel(s[1..])
  }

  /**
   * `str.replace(/[A-Z]/g, "_" + lower)`: each upper-case letter becomes an
   * underscore and its lower case, so the key never shrinks.
   */
  function CamelToSnake(s: string): (r: string)
    ensures |r| >= |s|
    decreases |s|
  {
    if |s| == 0 then []
    else if IsAsciiUpper(s[0]) then ['_', LowerChar(s[0])] + CamelToSnake(s[1..])
    else [s[0]] + CamelToSnake(s[1..])
  }

  predicate NoUpper(s: string) {
    forall i :: 0 <= i < |s| ==> !IsAsciiUpper(s[i])
  }

  /** CamelToSnake read one leading character at a time. */
  lemma CamelToSnakeCons(c: char, t: string)
    ensures CamelToSnake([c] + t) == (if IsAsciiUpper(c) then ['_', LowerChar(c)] else [c]) + CamelToSnake(t)
  {
    var s := [c] + t;
    assert s[0] == c && s[1..] == t;
  }

  /** SnakeToCamel on a character that does not start a merge. */
  lemma SnakeToCamelCons(c: char, t: string)
    requires c != '_'
    ensures SnakeToCamel([c] + t) == [c] + SnakeToCamel(t)
  {
    var s := [c] + t;
    assert s[0] == c && s[1..] == t;
  }

  /** SnakeToCamel on an underscore followed by a lower-case letter. */
  lemma SnakeToCamelMerge(c: char, t: string)
    requires IsAsciiLower(c)
    ensures SnakeToCamel(['_', c] + t) == [UpperChar(c)] + SnakeToCamel(t)
  {
    var s := ['_', c] + t;
    assert s[0] == '_' && s[1] == c && s[2..] == t;
  }

  /** snake_case output never holds a capital. */
  lemma {:induction false} CamelToSnakeNoUpper(s: string)
    ensures NoUpper(CamelToSnake(s))
    decreases |s|
  {
    if |s| > 0 {
      var t := s[1..];
      CamelToSnakeNoUpper(t);
      assert s == [s[0]] + t;
      CamelToSnakeCons(s[0], t);
      var head := if IsAsciiUpper(s[0]) then ['_', LowerChar(s[0])] else [s[0]];
      assert CamelToSnake(s) == head + CamelToSnake(t);
      if IsAsciiUpper(s[0]) {
        assert !IsAsciiUpper(LowerChar(s[0]));
        assert head[0] == '_' && head[1] == LowerChar(s[0]) && |head| == 2;
      }
      assert NoUpper(head);
      NoUpperConcat(head, CamelToSnake(t));
    }
  }

  /** Two capital-free keys joined are capital-free. */
  lemma NoUpperConcat(a: string, b: string)
    requires NoUpper(a) && NoUpper(b)
    ensures NoUpper(a + b)
  {
    forall i | 0 <= i < |a + b| ensures !IsAsciiUpper((a + b)[i]) {
      if i < |a| {
        assert (a + b)[i] == a[i];
      } else {
        assert (a + b)[i] == b[i - |a|];
      }
    }
  }

  /** A key without underscores has nothing to merge and is left as it is by camelCasing. */
  lemma {:induction false} SnakeToCamelIdentity(s: string)
    requires '_' !in s
    ensures SnakeToCamel(s) == s
    decreases |s|
  {
    if |s| > 0 {
      var t := s[1..];
      assert s == [s[0]] + t;
      assert s[0] != '_' by { assert s[0] in s; }
      assert '_' !in t by { assert forall c :: c in t ==> c in s; }
      SnakeToCamelIdentity(t);
      SnakeToCamelCons(s[0], t);
    }
  }

  /** A key without capitals is left as it is by snake_casing. */
  lemma {:induction false} CamelToSnakeIdentity(s: string)
    requires NoUpper(s)
    ensures CamelToSnake(s) == s
    decreases |s|
  {
    if |s| > 0 {
      var t := s[1..];
      assert s == [s[0]] + t;
      assert !IsAsciiUpper(s[0]);
      NoUpperDrop(s, 1);
      CamelToSnakeIdentity(t);
      CamelToSnakeCons(s[0], t);
    }
  }

  /** snake_casing lengthens a key exactly when the key holds a capital. */
  lemma {:induction false} CamelToSnakeGrows(s: string)
    ensures |CamelToSnake(s)| == |s| <==> NoUpper(s)
    decreases |s|
  {
    if |s| > 0 {
      CamelToSnakeGrows(s[1..]);
      assert NoUpper(s) <==> !IsAsciiUpper(s[0]) && NoUpper(s[1..]) by {
        assert forall i :: 1 <= i < |s| ==> s[i] == s[1..][i - 1];
      }
    }
  }

  /** A lower-case letter at the head of a camelCased key was already there. */
  lemma SnakeToCamelHead(s: string)
    requires |SnakeToCamel(s)| > 0 && IsAsciiLower(SnakeToCamel(s)[0])
    ensures |s| > 0 && SnakeToCamel(s)[0] == s[0]
  {
  }

  /** After camelCasing no underscore is followed by a lower-case letter: every merge was made. */
  lemma {:induction false} SnakeToCamelMergesAll(s: string)
    ensures var r := SnakeToCamel(s);
      forall i :: 0 <= i < |r| - 1 && r[i] == '_' ==> !IsAsciiLower(r[i + 1])
    decreases |s|
  {
    var r := SnakeToCamel(s);
    if |s| >= 2 && s[0] == '_' && IsAsciiLower(s[1]) {
      var rest := SnakeToCamel(s[2..]);
      SnakeToCamelMergesAll(s[2..]);
      assert r == [UpperChar(s[1])] + rest;
      assert forall i :: 1 <= i < |r| ==> r[i] == rest[i - 1];
    } else if |s| > 0 {
      var rest := SnakeToCamel(s[1..]);
      SnakeToCamelMergesAll(s[1..]);
      assert r == [s[0]] + rest;
      assert forall i :: 1 <= i < |r| ==> r[i] == rest[i - 1];
      if |rest| > 0 && IsAsciiLower(rest[0]) {
        SnakeToCamelHead(s[1..]);
      }
    }
  }

  /** A merged underscore and letter come back from camelCase as they were. */
  lemma SnakeCamelMergeStep(c: char, t: string)
    requires IsAsciiLower(c)
    ensures CamelToSnake(SnakeToCamel(['_', c] + t)) == ['_', c] + CamelToSnake(SnakeToCamel(t))
  {
    SnakeToCamelMerge(c, t);
    CamelToSnakeCons(UpperChar(c), SnakeToCamel(t));
    assert LowerChar(UpperChar(c)) == c;
  }

  /** A leading character that starts no merge and is no capital comes back unchanged. */
  lemma SnakeCamelPlainStep(s: string)
    requires |s| > 0 && !IsAsciiUpper(s[0])
    requires !(s[0] == '_' && |s| >= 2 && IsAsciiLower(s[1]))
    ensures CamelToSnake(SnakeToCamel(s)) == [s[0]] + CamelToSnake(SnakeToCamel(s[1..]))
  {
    assert SnakeToCamel(s) == [s[0]] + SnakeToCamel(s[1..]);
    CamelToSnakeCons(s[0], SnakeToCamel(s[1..]));
  }

  /** A suffix of a capital-free key is capital-free. */
  lemma NoUpperDrop(s: string, k: int)
    requires NoUpper(s) && 0 <= k <= |s|
    ensures NoUpper(s[k..])
  {
    forall i | 0 <= i < |s| - k ensures !IsAsciiUpper(s[k..][i]) {
      assert s[k..][i] == s[i + k];
    }
  }

  /** A key without capitals survives the round trip through camelCase. */
  lemma {:induction false} SnakeCamelRoundTrip(s: string)
    requires NoUpper(s)
    ensures CamelToSnake(SnakeToCamel(s)) == s
    decreases |s|
  {
    if |s| > 0 {
      if s[0] == '_' && |s| >= 2 && IsAsciiLower(s[1]) {
        NoUpperDrop(s, 2);
        SnakeCamelRoundTrip(s[2..]);
        SnakeCamelMergeStep(s[1], s[2..]);
        assert s == ['_', s[1]] + s[2..];
      } else {
        assert !IsAsciiUpper(s[0]);
        NoUpperDrop(s, 1);
        SnakeCamelRoundTrip(s[1..]);
        SnakeCamelPlainStep(s);
        assert s == [s[0]] + s[1..];
      }
    }
  }

  /** One leading character other than an underscore comes back unchanged from snake_case. */
  lemma CamelSnakeStep(c: char, t: string)
    requires c != '_'
    ensures SnakeToCamel(CamelToSnake([c] + t)) == [c] + SnakeToCamel(CamelToSnake(t))
  {
    CamelToSnakeCons(c, t);
    var ct := CamelToSnake(t);
    if IsAsciiUpper(c) {
      SnakeToCamelMerge(LowerChar(c), ct);
      assert UpperChar(LowerChar(c)) == c;
    } else {
      SnakeToCamelCons(c, ct);
    }
  }

  /** A key without underscores survives the round trip through snake_case. */
  lemma {:induction false} CamelSnakeRoundTrip(k: string)
    requires '_' !in k
    ensures SnakeToCamel(CamelToSnake(k)) == k
    decreases |k|
  {
    if |k| > 0 {
      var t := k[1..];
      assert '_' !in t by {
        forall i | 0 <= i < |t| ensures t[i] != '_' { assert t[i] == k[i + 1]; }
      }
      assert k == [k[0]] + t;
      assert k[0] != '_' by { assert k[0] in k; }
      CamelSnakeRoundTrip(t);
      CamelSnakeStep(k[0], t);
    }
  }

  /** Distinct capital-free keys stay distinct in camelCase. */
  lemma SnakeToCamelInjective(a: string, b: string)
    requires NoUpper(a) && NoUpper(b) && SnakeToCamel(a) == SnakeToCamel(b)
    ensures a == b
  {
    SnakeCamelRoundTrip(a);
    SnakeCamelRoundTrip(b);
  }

  /** Examples of both renamings, including an underscore that has no letter after it. */
  lemma RenamingExamples()
    ensures SnakeToCamel("a_b") == "aB"
    ensures CamelToSnake("aB") == "a_b"
    ensures SnakeToCamel("a_1") == "a_1"
  {
    SnakeToCamelCons('b', []);
    SnakeToCamelMerge('b', []);
    SnakeToCamelCons('a', "_b");
    assert "a_b" == ['a'] + "_b";
    assert "_b" == ['_', 'b'] + [];
    CamelToSnakeCons('B', []);
    CamelToSnakeCons('a', "B");
    assert "aB" == ['a'] + "B";
    SnakeToCamelCons('1', []);
    assert SnakeToCamel("_1") == "_1" by {
      var s := "_1";
      assert s[1..] == "1";
      assert "1" == ['1'] + [];
    }
    SnakeToCamelCons('a', "_1");
    assert "a_1" == ['a'] + "_1";
  }

  // ---------------------------------------------------------------------
  // JSON values
  // ---------------------------------------------------------------------

  datatype Json =
    | JNull
    | JBool(b: bool)
    | JNum(n: int)
    | JStr(s: string)
    | JArr(items: seq<Json>)
    | JObj(fields: seq<Field>)

  datatype Field = Field(key: string, value: Json)

  predicate UniqueKeys(fs: seq<Field>) {
    forall i, j :: 0 <= i < j < |fs| ==> fs[i].key != fs[j].key
  }

  function KeySet(fs: seq<Field>): set<string> {
    set i | 0 <= i < |fs| :: fs[i].key
  }

  /** The position of key `k` among the entries, or -1. */
  function KeyIndex(fs: seq<Field>, k: string): (i: int)
    ensures -1 <= i < |fs|
    ensures i >= 0 ==> fs[i].key == k
    ensures i == -1 ==> forall j :: 0 <= j < |fs| ==> fs[j].key != k
  {
    if |fs| == 0 then -1
    else if fs[|fs| - 1].key == k then |fs| - 1
    else KeyIndex(fs[..|fs| - 1], k)
  }

  lemma KeySetAppend(fs: seq<Field>, e: Field)
    ensures KeySet(fs + [e]) == KeySet(fs) + {e.key}
  {
    var r := fs + [e];
    assert forall i :: 0 <= i < |fs| ==> r[i] == fs[i];
    assert r[|fs|] == e;
  }

  lemma KeySetUpdate(fs: seq<Field>, i: int, e: Field)
    requires 0 <= i < |fs| && fs[i].key == e.key
    ensures KeySet(fs[i := e]) == KeySet(fs)
  {
    var r := fs[i := e];
    assert forall j :: 0 <= j < |fs| ==> r[j].key == fs[j].key;
  }

  /** Setting an entry: an existing key keeps its place and takes the new value; a new key goes last. */
  function SetEntry(fs: seq<Field>, e: Field): (r: seq<Field>)
    requires UniqueKeys(fs)
    ensures UniqueKeys(r)
    ensures KeySet(r) == KeySet(fs) + {e.key}
    ensures e in r
    ensures forall f :: f in r ==> f == e || f in fs
  {
    var i := KeyIndex(fs, e.key);
    if i >= 0 then
      var r := fs[i := e];
      KeySetUpdate(fs, i, e);
      assert fs[i].key in KeySet(fs);
      assert forall j :: 0 <= j < |r| ==> r[j].key == fs[j].key;
      assert forall j :: 0 <= j < |fs| && j != i ==> r[j] == fs[j];
      r
    else
      var r := fs + [e];
      KeySetAppend(fs, e);
      assert forall j :: 0 <= j < |fs| ==> r[j] == fs[j];
      r
  }

  /** `Object.fromEntries`: entries set in order, so a repeated key keeps its first place and its last value. */
  function FromEntries(es: seq<Field>): (r: seq<Field>)
    ensures UniqueKeys(r)
    ensures KeySet(r) == KeySet(es)
    ensures forall f :: f in r ==> f in es
  {
    if |es| == 0 then []
    else
      var init := FromEntries(es[..|es| - 1]);
      assert es == es[..|es| - 1] + [es[|es| - 1]];
      KeySetAppend(es[..|es| - 1], es[|es| - 1]);
      SetEntry(init, es[|es| - 1])
  }

  /** Entries with distinct keys are already an object: `fromEntries` keeps them as they are. */
  lemma {:induction false} FromEntriesUnique(es: seq<Field>)
    requires UniqueKeys(es)
    ensures FromEntries(es) == es
  {
    if |es| > 0 {
      var n := |es|;
      var init := es[..n - 1];
      var e := es[n - 1];
      assert init + [e] == es;
      UniqueKeysSplit(init, e);
      FromEntriesUnique(init);
      FromEntriesLast(es);
      SetEntryNew(init, e);
    }
  }

  /** Without its last entry an object keeps distinct keys, none of them the last entry's. */
  lemma UniqueKeysSplit(init: seq<Field>, e: Field)
    requires UniqueKeys(init + [e])
    ensures UniqueKeys(init)
    ensures forall j :: 0 <= j < |init| ==> init[j].key != e.key
  {
    var es := init + [e];
    forall a, b | 0 <= a < b < |init| ensures init[a].key != init[b].key {
      assert init[a] == es[a] && init[b] == es[b];
    }
    forall j | 0 <= j < |init| ensures init[j].key != e.key {
      assert init[j] == es[j] && e == es[|init|];
    }
  }

  /** `fromEntries` sets the last entry on the object built from the ones before it. */
  lemma FromEntriesLast(es: seq<Field>)
    requires |es| > 0
    ensures FromEntries(es) == SetEntry(FromEntries(es[..|es| - 1]), es[|es| - 1])
  {
  }

  /** Setting an entry under a new key appends it. */
  lemma SetEntryNew(fs: seq<Field>, e: Field)
    requires UniqueKeys(fs)
    requires forall j :: 0 <= j < |fs| ==> fs[j].key != e.key
    ensures SetEntry(fs, e) == fs + [e]
  {
    assert KeyIndex(fs, e.key) == -1;
  }

  /** The entries of an object, each key renamed and each value transformed. */
  function TransformKeys(j: Json, f: string -> string): (r: Json)
    ensures j.JArr? ==> r.JArr? && |r.items| == |j.items|
    ensures !j.JArr? && !j.JObj? ==> r == j
    ensures j.JObj? ==>
      r.JObj? && UniqueKeys(r.fields) && KeySet(r.fields) == set i | 0 <= i < |j.fields| :: f(j.fields[i].key)
    decreases j
  {
    match j
    case JArr(items) => JArr(seq(|items|, i requires 0 <= i < |items| => TransformKeys(items[i], f)))
    case JObj(fields) =>
      var renamed := seq(|fields|, i requires 0 <= i < |fields| => Field(f(fields[i].key), TransformKeys(fields[i].value, f)));
      assert KeySet(renamed) == set i | 0 <= i < |fields| :: f(fields[i].key) by {
        assert forall i :: 0 <= i < |fields| ==> renamed[i].key == f(fields[i].key);
      }
      JObj(FromEntries(renamed))
    case _ => j
  }

  /** Arrays are transformed element by element, in order. */
  lemma TransformArray(items: seq<Json>, f: string -> string)
    ensures var r := TransformKeys(JArr(items), f);
      forall i :: 0 <= i < |items| ==> r.items[i] == TransformKeys(items[i], f)
  {
  }

  /** Renaming keeps the keys of these entries apart. */
  predicate KeysStayDistinct(fields: seq<Field>, f: string -> string) {
    forall a, b :: 0 <= a < b < |fields| ==> f(fields[a].key) != f(fields[b].key)
  }

  /** When no two keys collide after renaming, the object keeps its entries in place, each renamed and transformed. */
  lemma TransformObject(fields: seq<Field>, f: string -> string)
    requires KeysStayDistinct(fields, f)
    ensures var r := TransformKeys(JObj(fields), f);
      |r.fields| == |fields|
      && forall i :: 0 <= i < |fields| ==> r.fields[i] == Field(f(fields[i].key), TransformKeys(fields[i].value, f))
  {
    var renamed := seq(|fields|, i requires 0 <= i < |fields| => Field(f(fields[i].key), TransformKeys(fields[i].value, f)));
    assert UniqueKeys(renamed);
    FromEntriesUnique(renamed);
    assert TransformKeys(JObj(fields), f) == JObj(FromEntries(renamed));
  }

  /** Every object key is capital-free and unique within its object, at every depth. */
  predicate SnakeKeyed(j: Json)
    decreases j
  {
    match j
    case JArr(items) => forall i :: 0 <= i < |items| ==> SnakeKeyed(items[i])
    case JObj(fields) =>
      UniqueKeys(fields)
        && forall i :: 0 <= i < |fields| ==> NoUpper(fields[i].key) && SnakeKeyed(fields[i].value)
    case _ => true
  }

  /**
   * What the response interceptor produces, the request interceptor turns
   * back into the original value, as long as the keys are snake_case.
   */
  lemma {:induction false} TransformKeysRoundTrip(j: Json)
    requires SnakeKeyed(j)
    ensures TransformKeys(TransformKeys(j, SnakeToCamel), CamelToSnake) == j
    decreases j
  {
    match j
    case JArr(items) =>
      var c := TransformKeys(j, SnakeToCamel);
      var back := TransformKeys(c, CamelToSnake);
      TransformArray(items, SnakeToCamel);
      TransformArray(c.items, CamelToSnake);
      forall i | 0 <= i < |items| ensures back.items[i] == items[i] {
        TransformKeysRoundTrip(items[i]);
      }
    case JObj(fields) =>
      assert KeysStayDistinct(fields, SnakeToCamel) by {
        forall a, b | 0 <= a < b < |fields| ensures SnakeToCamel(fields[a].key) != SnakeToCamel(fields[b].key) {
          if SnakeToCamel(fields[a].key) == SnakeToCamel(fields[b].key) {
            SnakeToCamelInjective(fields[a].key, fields[b].key);
          }
        }
      }
      TransformObject(fields, SnakeToCamel);
      var c := TransformKeys(j, SnakeToCamel).fields;
      forall i | 0 <= i < |fields| ensures CamelToSnake(c[i].key) == fields[i].key {
        SnakeCamelRoundTrip(fields[i].key);
      }
      TransformObject(c, CamelToSnake);
      var back := TransformKeys(JObj(c), CamelToSnake).fields;
      forall i | 0 <= i < |fields| ensures back[i] == fields[i] {
        TransformKeysRoundTrip(fields[i].value);
      }
    case _ =>
  }

  /** Two keys that collide after renaming leave one entry, in the first one's place with the last one's value. */
  lemma CollidingKeysMerge()
    ensures FromEntries([Field("aB", JNum(1)), Field("aB", JNum(2))]) == [Field("aB", JNum(2))]
  {
    var es := [Field("aB", JNum(1)), Field("aB", JNum(2))];
    var first := [Field("aB", JNum(1))];
    assert es[..1] == first;
    assert FromEntries(first) == first by { FromEntriesUnique(first); }
    assert FromEntries(es) == SetEntry(first, es[1]);
    assert KeyIndex(first, "aB") == 0;
    assert SetEntry(first, es[1]) == first[0 := es[1]];
  }

  // ---------------------------------------------------------------------
  // Request bodies
  // ---------------------------------------------------------------------

  /** One `FormData` field: its name and its text (a file part stands as its content). */
  datatype Part = Part(name: string, text: string)

  /**
   * What a caller hands the client as `data`: a plain JSON value, or a
   * `FormData` instance. The fields of a `FormData` instance are not own
   * enumerable properties, so `Object.entries` finds none of them.
   */
  datatype Body = JsonBody(data: Json) | FormBody(parts: seq<Part>)

  /**
   * The request interceptor as written. A `FormData` instance passes the
   * `typeof data === "object"` test, so `transformKeys` rebuilds it from its
   * (empty) own entries: it leaves as the plain object `{}`.
   */
  function RequestBodyAsWritten(b: Body): (r: Body)
    ensures r.JsonBody?
    ensures b.JsonBody? ==> r.data == TransformKeys(b.data, CamelToSnake)
  {
    match b
    case JsonBody(d) => JsonBody(TransformKeys(d, CamelToSnake))
    case FormBody(_) => JsonBody(TransformKeys(JObj([]), CamelToSnake))
  }

  /** As written, an upload's fields never reach the server: whatever was appended, the body sent is `{}`. */
  lemma FormDataArrivesEmpty(parts: seq<Part>)
    ensures RequestBodyAsWritten(FormBody(parts)) == JsonBody(JObj([]))
    ensures RequestBodyAsWritten(FormBody(parts)) != FormBody(parts)
  {
    assert FromEntries([]) == [];
  }

  /** The request interceptor as the upload helpers rely on it: `FormData` goes through untouched, JSON keys are snake_cased. */
  function RequestBody(b: Body): (r: Body)
    ensures r.FormBody? <==> b.FormBody?
    ensures b.FormBody? ==> r.parts == b.parts
    ensures b.JsonBody? && !b.data.JArr? && !b.data.JObj? ==> r == b
  {
    match b
    case JsonBody(d) => JsonBody(TransformKeys(d, CamelToSnake))
    case FormBody(_) => b
  }

  /** On JSON bodies the two interceptors agree; they differ only on `FormData`. */
  lemma RequestBodiesAgreeOnJson(b: Body)
    ensures RequestBody(b) == RequestBodyAsWritten(b) <==> b.JsonBody?
  {
  }

  /** A snake_case value the client read as camelCase and sends back reaches the server as it was. */
  lemma {:induction false} RequestBodyRoundTrip(d: Json)
    requires SnakeKeyed(d)
    ensures RequestBody(JsonBody(TransformKeys(d, SnakeToCamel))) == JsonBody(d)
  {
    TransformKeysRoundTrip(d);
  }
}

=== FILE: calendar.dfy ===
/** Calendar dates as day numbers: days since 1970-01-01 in the proleptic Gregorian calendar. */
module Calendar {

  predicate IsLeapYear(y: int) {
    y % 4 == 0 && (y % 100 != 0 || y % 400 == 0)
  }

  function DaysInMonth(y: int, m: int): int
    requires 1 <= m <= 12
  {
    if m == 2 then (if IsLeapYear(y) then 29 else 28)
    else if m == 4 || m == 6 || m == 9 || m == 11 then 30
    else 31
  }

  /** The day number of year `y`, month `m`, day `d` (days-from-civil, with floor division). */
  function Civil(y: int, m: int, d: int): int
    requires 1 <= m <= 12 && 1 <= d <= DaysInMonth(y, m)
  {
    var y' := if m <= 2 then y - 1 else y;
    var era := y' / 400;
    var yoe := y' - era * 400;
    var mp := if m > 2 then m - 3 else m + 9;
    var doy := (153 * mp + 2) / 5 + d - 1;
    var doe := yoe * 365 + yoe / 4 - yoe / 100 + doy;
    era * 146097 + doe - 719468
  }

  /** The anchor and a month boundary, as a check on the day numbering. */
  lemma CivilAnchors()
    ensures Civil(1970, 1, 1) == 0
    ensures Civil(2026, 3, 1) == Civil(2026, 2, 28) + 1
    ensures Civil(2024, 3, 1) == Civil(2024, 2, 29) + 1
  {
    CivilQuotients();
    assert 1969 / 400 == 4 && 369 / 4 == 92 && 369 / 100 == 3;
  }

  /** The quotients the day numbers of 2023 to 2026 are made of. */
  lemma CivilQuotients()
    ensures 2023 / 400 == 5 && 2024 / 400 == 5 && 2025 / 400 == 5 && 2026 / 400 == 5
    ensures 23 / 4 == 5 && 24 / 4 == 6 && 25 / 4 == 6 && 26 / 4 == 6
    ensures 23 / 100 == 0 && 24 / 100 == 0 && 25 / 100 == 0 && 26 / 100 == 0
    ensures (153 * 0 + 2) / 5 == 0 && (153 * 4 + 2) / 5 == 122 && (153 * 5 + 2) / 5 == 153
    ensures (153 * 6 + 2) / 5 == 184 && (153 * 7 + 2) / 5 == 214 && (153 * 8 + 2) / 5 == 245
    ensures (153 * 9 + 2) / 5 == 275 && (153 * 10 + 2) / 5 == 306 && (153 * 11 + 2) / 5 == 337
  {
  }
}

=== FILE: clockify_sync.dfy ===
/**
 * The Clockify synchronisation rules: reading an ISO 8601 duration with
 * designators (the time-only subset, "PT1H30M"), resolving the hourly rate,
 * costing an entry, mapping tags to a phase, and the upsert loop over the
 * fetched entries. Durations are ten-thousandths of an hour, money is
 * hundredths, dates are day numbers.
 */
module ClockifySync {
  import opened Wrappers
  import opened Fixed
  import opened Text

  // ---------------------------------------------------------------------
  // Duration parsing
  // ---------------------------------------------------------------------

  datatype ParseError = BadNumber | RepeatedDesignator

  /** A component number: a non-empty run of decimal digits. */
  function ParseNumber(s: string): (r: Result<nat, ParseError>)
    ensures r.Ok? <==> |s| > 0 && AllDigits(s)
    ensures r.Ok? ==> r.value == DigitsValue(s)
  {
    if |s| > 0 && AllDigits(s) then Ok(DigitsValue(s)) else Err(BadNumber)
  }

  /**
   * One `if c in text: part, text = text.split(c)` step: an absent designator
   * reads as 0 and leaves the text alone; a repeated one fails the unpacking.
   */
  function Designator(t: string, c: char): (r: Result<(nat, string), ParseError>)
    ensures c !in t ==> r == Ok((0, t))
    ensures CountChar(t, c) > 1 ==> r == Err(RepeatedDesignator)
    ensures r.Ok? ==> c !in r.value.1
  {
    if c !in t then
      CountCharAbsent(t, c);
      Ok((0, t))
    else if CountChar(t, c) != 1 then Err(RepeatedDesignator)
    else
      var i := IndexOf(t, c);
      assert t[i] in t;
      SplitAtOnly(t, c, i);
      match ParseNumber(t[..i])
      case Err(e) => Err(e)
      case Ok(v) => Ok((v, t[i + 1..]))
  }

  /** When `c` occurs exactly once, nothing after its first occurrence is `c`. */
  lemma SplitAtOnly(t: string, c: char, i: int)
    requires 0 <= i < |t| && t[i] == c && CountChar(t, c) == 1
    requires forall j :: 0 <= j < i ==> t[j] != c
    ensures c !in t[i + 1..]
  {
    assert t == t[..i] + ([t[i]] + t[i + 1..]);
    CountCharAbsent(t[..i], c);
    CountCharAppend(t[..i], [t[i]] + t[i + 1..], c);
    CountCharAppend([t[i]], t[i + 1..], c);
    if c in t[i + 1..] {
      var k :| 0 <= k < |t[i + 1..]| && t[i + 1..][k] == c;
      CountCharPositive(t[i + 1..], k, c);
    }
  }

  lemma {:induction false} CountCharPositive(s: string, k: int, c: char)
    requires 0 <= k < |s| && s[k] == c
    ensures CountChar(s, c) >= 1
    decreases |s|
  {
    if k > 0 {
      CountCharPositive(s[1..], k - 1, c);
    }
  }

  /** Seconds to ten-thousandths of an hour, quantized half to even. */
  function HoursFromSeconds(seconds: nat): (h: int)
    ensures 2 * Abs(seconds * 10000 - h * 3600) <= 3600
    ensures h >= 0
  {
    RoundHalfEvenNonNegative(seconds * 10000, 3600);
    RoundHalfEven(seconds * 10000, 3600)
  }

  /**
   * `_parse_duration_to_hours`: an empty string is 0; otherwise every "PT" is
   * removed and the H, M and S parts are read in that order. Text after the
   * last designator that has no "S" is ignored.
   */
  function ParseDuration(s: string): (r: Result<int, ParseError>)
    ensures s == [] ==> r == Ok(0)
    ensures r.Ok? ==> r.value >= 0
  {
    if s == [] then Ok(0) else ParseDesignated(ReplaceAll(s, "PT", ""))
  }

  /** The H, M and S parts of the text left once "PT" is removed. */
  function ParseDesignated(t: string): (r: Result<int, ParseError>)
    ensures r.Ok? ==> r.value >= 0
  {
    match Designator(t, 'H')
    case Err(e) => Err(e)
    case Ok((h, t1)) =>
      match Designator(t1, 'M')
      case Err(e) => Err(e)
      case Ok((m, t2)) =>
        match Seconds(t2)
        case Err(e) => Err(e)
        case Ok(sv) => Ok(HoursFromSeconds(h * 3600 + m * 60 + sv))
  }

  /** `if "S" in text`: every "S" is removed and the rest read as a number; no "S" reads as 0. */
  function Seconds(t: string): (r: Result<nat, ParseError>)
    ensures 'S' !in t ==> r == Ok(0)
  {
    if 'S' in t then ParseNumber(ReplaceAll(t, "S", "")) else Ok(0)
  }

  /** A component as Clockify writes it: omitted when zero. */
  function Part(n: nat, c: char): (s: string)
    ensures n == 0 <==> s == []
  {
    if n == 0 then [] else NatToString(n) + [c]
  }

  /** Clockify's rendering of a duration: non-zero parts only, and "PT0S" for nothing. */
  function FormatDuration(h: nat, m: nat, sec: nat): string {
    if h == 0 && m == 0 && sec == 0 then "PT0S"
    else "PT" + Part(h, 'H') + Part(m, 'M') + Part(sec, 'S')
  }

  lemma DigitsAreNotDesignators(n: nat)
    ensures 'H' !in NatToString(n) && 'M' !in NatToString(n) && 'S' !in NatToString(n)
    ensures 'P' !in NatToString(n)
  {
    var s := NatToString(n);
    forall i | 0 <= i < |s| ensures IsDigit(s[i]) { }
  }

  /** Reading a part designated by `c` off the front returns its number and the rest. */
  lemma DesignatorReadsPart(n: nat, c: char, rest: string)
    requires c == 'H' || c == 'M' || c == 'S'
    requires c !in rest
    ensures Designator(Part(n, c) + rest, c) == Ok((n, rest))
  {
    var t := Part(n, c) + rest;
    if n == 0 {
      assert t == rest;
    } else {
      var d := NatToString(n);
      DigitsAreNotDesignators(n);
      assert t == d + ([c] + rest);
      assert c in t by { assert t[|d|] == c; }
      CountCharAbsent(d, c);
      CountCharAbsent(rest, c);
      CountCharAppend(d, [c] + rest, c);
      CountCharAppend([c], rest, c);
      var i := IndexOf(t, c);
      assert i == |d| by {
        assert t[|d|] == c;
        assert forall j :: 0 <= j < |d| ==> t[j] == d[j] && d[j] in d;
      }
      assert t[..i] == d;
      assert t[i + 1..] == rest;
      NatToStringRoundTrip(n);
    }
  }

  /** Removing "PT" from a rendered duration leaves exactly its parts. */
  lemma StripPrefix(body: string)
    requires 'P' !in body
    ensures ReplaceAll("PT" + body, "PT", "") == body
  {
    var s := "PT" + body;
    assert StartsWith(s, "PT");
    assert s[2..] == body;
    ReplaceAllAbsent(body, "PT", "");
  }

  lemma PartHasNoForeignLetters(n: nat, c: char, d: char)
    requires c != d && (d == 'H' || d == 'M' || d == 'S' || d == 'P')
    ensures d !in Part(n, c)
  {
    if n > 0 {
      DigitsAreNotDesignators(n);
      assert Part(n, c) == NatToString(n) + [c];
    }
  }

  /** Reading the seconds part: the digits before "S", or 0 when there is none. */
  lemma SecondsReadsPart(sec: nat)
    ensures Seconds(Part(sec, 'S')) == Ok(sec)
  {
    if sec > 0 {
      var d := NatToString(sec);
      DigitsAreNotDesignators(sec);
      ReplaceAllPrefixAbsent(d, "S", "S", "");
      assert ReplaceAll("S", "S", "") == "" + ReplaceAll([], "S", "");
      assert d + "" == d;
      NatToStringRoundTrip(sec);
    }
  }

  /**
   * Every duration Clockify renders parses back to its length in hours,
   * quantized to four places: the parser inverts the renderer.
   */
  lemma ParseFormatRoundTrip(h: nat, m: nat, sec: nat)
    ensures ParseDuration(FormatDuration(h, m, sec)) == Ok(HoursFromSeconds(h * 3600 + m * 60 + sec))
  {
    if h == 0 && m == 0 && sec == 0 {
      ZeroRoundTrip();
    } else {
      var ph, pm, ps := Part(h, 'H'), Part(m, 'M'), Part(sec, 'S');
      var body := ph + (pm + ps);
      assert FormatDuration(h, m, sec) == "PT" + body;
      PartHasNoForeignLetters(h, 'H', 'P');
      PartHasNoForeignLetters(m, 'M', 'P');
      PartHasNoForeignLetters(sec, 'S', 'P');
      PartHasNoForeignLetters(m, 'M', 'H');
      PartHasNoForeignLetters(sec, 'S', 'H');
      PartHasNoForeignLetters(sec, 'S', 'M');
      assert 'P' !in body;
      assert 'H' !in pm + ps;
      StripPrefix(body);
      DesignatorReadsPart(h, 'H', pm + ps);
      DesignatorReadsPart(m, 'M', ps);
      SecondsReadsPart(sec);
      DesignatedSteps(body, h, pm + ps, m, ps, sec);
    }
  }

  /** `ParseDesignated` once the outcome of each of its steps is known. */
  lemma DesignatedSteps(t: string, h: nat, t1: string, m: nat, t2: string, sec: nat)
    requires Designator(t, 'H') == Ok((h, t1)) && Designator(t1, 'M') == Ok((m, t2))
    requires Seconds(t2) == Ok(sec)
    ensures ParseDesignated(t) == Ok(HoursFromSeconds(h * 3600 + m * 60 + sec))
  {
  }

  /** "PT0S", Clockify's empty duration, reads as zero hours. */
  lemma ZeroRoundTrip()
    ensures ParseDuration("PT0S") == Ok(0)
  {
    assert "PT0S" == "PT" + "0S";
    StripPrefix("0S");
    ZeroDesignated();
  }

  lemma ZeroDesignated()
    ensures ParseDesignated("0S") == Ok(0)
  {
    ZeroSeconds();
    assert 'H' !in "0S" && 'M' !in "0S";
    DesignatedSteps("0S", 0, "0S", 0, "0S", 0);
    RoundHalfEvenExact(0, 3600);
  }

  lemma ZeroSeconds()
    ensures Seconds("0S") == Ok(0)
  {
    assert "0S" == "0" + "S";
    ReplaceAllPrefixAbsent("0", "S", "S", "");
    assert ReplaceAll("S", "S", "") == "" + ReplaceAll([], "S", "");
    assert "0S"[1] == 'S';
    assert DigitsValue("0") == 0 by { assert "0"[..0] == []; }
  }

  /** The documented example: an hour and a half is 1.5000 hours. */
  lemma OneAndAHalfHours()
    ensures ParseDuration("PT1H30M") == Ok(15000)
  {
    ParseFormatRoundTrip(1, 30, 0);
    OneAndAHalfRendered();
    assert 1 * 3600 + 30 * 60 + 0 == 5400;
    FifteenThousand();
  }

  lemma OneAndAHalfRendered()
    ensures FormatDuration(1, 30, 0) == "PT1H30M"
  {
    assert NatToString(1) == "1";
    assert NatToString(30) == NatToString(3) + [DigitChar(0)] == "30";
    assert Part(1, 'H') == "1H" && Part(30, 'M') == "30M" && Part(0, 'S') == [];
  }

  lemma FifteenThousand()
    ensures HoursFromSeconds(5400) == 15000
  {
    assert 5400 * 10000 == 15000 * 3600;
    RoundHalfEvenExact(15000, 3600);
  }

  /** A designator given twice cannot be unpacked. */
  lemma RepeatedHoursRejected()
    ensures ParseDuration("PT1H2H") == Err(RepeatedDesignator)
  {
    assert "PT1H2H" == "PT" + "1H2H";
    StripPrefix("1H2H");
    RepeatedHoursDesignated();
  }

  lemma RepeatedHoursDesignated()
    ensures ParseDesignated("1H2H") == Err(RepeatedDesignator)
  {
    TwoHours();
  }

  lemma TwoHours()
    ensures CountChar("1H2H", 'H') == 2
  {
    assert "1H2H"[1..] == "H2H" && "H2H"[1..] == "2H" && "2H"[1..] == "H" && "H"[1..] == [];
  }

  // ---------------------------------------------------------------------
  // Rates, cost and phase
  // ---------------------------------------------------------------------

  /** A billing role and its default hourly rate in hundredths. */
  datatype BillingRole = BillingRole(id: int, defaultRate: int)

  /** A project's override of a role's rate. */
  datatype RoleRate = RoleRate(roleId: int, rate: int)

  /** The first override for `roleId`, if any. */
  function FirstRateFor(rates: seq<RoleRate>, roleId: int): (r: Option<int>)
    ensures r.None? <==> forall i :: 0 <= i < |rates| ==> rates[i].roleId != roleId
    ensures r.Some? ==>
      exists i :: 0 <= i < |rates| && rates[i].roleId == roleId && rates[i].rate == r.value
        && forall j :: 0 <= j < i ==> rates[j].roleId != roleId
  {
    if |rates| == 0 then None
    else if rates[0].roleId == roleId then Some(rates[0].rate)
    else
      var r := FirstRateFor(rates[1..], roleId);
      assert r.Some? ==>
        exists i :: 1 <= i < |rates| && rates[i].roleId == roleId && rates[i].rate == r.value
          && forall j :: 0 <= j < i ==> rates[j].roleId != roleId by {
        if r.Some? {
          var i :| 0 <= i < |rates[1..]| && rates[1..][i].roleId == roleId && rates[1..][i].rate == r.value
            && forall j :: 0 <= j < i ==> rates[1..][j].roleId != roleId;
          assert rates[i + 1] == rates[1..][i];
          assert forall j :: 1 <= j < i + 1 ==> rates[j] == rates[1..][j - 1];
        }
      }
      r
  }

  /** `_get_hourly_rate`: 0 without a role, else the project's override, else the role's default. */
  function HourlyRate(role: Option<BillingRole>, rates: seq<RoleRate>): (r: int)
    ensures role.None? ==> r == 0
    ensures role.Some? && FirstRateFor(rates, role.value.id).Some? ==> r == FirstRateFor(rates, role.value.id).value
    ensures role.Some? && (forall i :: 0 <= i < |rates| ==> rates[i].roleId != role.value.id) ==>
      r == role.value.defaultRate
  {
    match role
    case None => 0
    case Some(br) =>
      match FirstRateFor(rates, br.id)
      case Some(rate) => rate
      case None => br.defaultRate
  }

  /** `_map_user_to_role`: the first billing role, whoever the user is. */
  function RoleForUser(roles: seq<BillingRole>): (r: Option<BillingRole>)
    ensures r.None? <==> |roles| == 0
    ensures r.Some? ==> r.value == roles[0]
  {
    if |roles| == 0 then None else Some(roles[0])
  }

  /** Duration (ten-thousandths of an hour) times rate (hundredths per hour), quantized to hundredths. */
  function EntryCost(hours: int, rate: int): (c: int)
    ensures 2 * Abs(hours * rate - c * 10000) <= 10000
    ensures 2 * Abs(hours * rate - c * 10000) == 10000 ==> c % 2 == 0
  {
    RoundHalfEven(hours * rate, 10000)
  }

  /** An hour and a half at 500.00 costs 750.00. */
  lemma EntryCostExample()
    ensures EntryCost(15000, 50000) == 75000
  {
    RoundHalfEvenExact(75000, 10000);
  }

  datatype Phase = Phase(id: int, name: string)

  /** The first of the project's phases whose name equals `tag` ignoring case. */
  function PhaseNamed(phases: seq<Phase>, tag: string): (r: Option<Phase>)
    ensures r.None? <==> forall i :: 0 <= i < |phases| ==> !EqualsIgnoreCase(phases[i].name, tag)
    ensures r.Some? ==> r.value in phases && EqualsIgnoreCase(r.value.name, tag)
  {
    if |phases| == 0 then None
    else if EqualsIgnoreCase(phases[0].name, tag) then Some(phases[0])
    else
      var r := PhaseNamed(phases[1..], tag);
      assert forall i :: 1 <= i < |phases| ==> phases[i] == phases[1..][i - 1];
      r
  }

  /** `_map_tags_to_phase`: the phase named by the first tag, in tag order, that names one. */
  function MapTagsToPhase(tags: seq<string>, phases: seq<Phase>): (r: Option<Phase>)
    ensures r.None? <==> forall i :: 0 <= i < |tags| ==> PhaseNamed(phases, tags[i]).None?
    ensures r.Some? ==>
      exists i :: 0 <= i < |tags| && r == PhaseNamed(phases, tags[i])
        && forall j :: 0 <= j < i ==> PhaseNamed(phases, tags[j]).None?
  {
    if |tags| == 0 then None
    else if PhaseNamed(phases, tags[0]).Some? then PhaseNamed(phases, tags[0])
    else
      var r := MapTagsToPhase(tags[1..], phases);
      MapTagsShift(tags, phases, r);
      r
  }

  /** A phase found among the later tags, none named by the first, is the first tag-named phase of the whole list. */
  lemma MapTagsShift(tags: seq<string>, phases: seq<Phase>, r: Option<Phase>)
    requires |tags| > 0 && PhaseNamed(phases, tags[0]).None?
    requires r.None? <==> forall i :: 0 <= i < |tags[1..]| ==> PhaseNamed(phases, tags[1..][i]).None?
    requires r.Some? ==>
      exists i :: 0 <= i < |tags[1..]| && r == PhaseNamed(phases, tags[1..][i])
        && forall j :: 0 <= j < i ==> PhaseNamed(phases, tags[1..][j]).None?
    ensures r.None? <==> forall i :: 0 <= i < |tags| ==> PhaseNamed(phases, tags[i]).None?
    ensures r.Some? ==>
      exists i :: 0 <= i < |tags| && r == PhaseNamed(phases, tags[i])
        && forall j :: 0 <= j < i ==> PhaseNamed(phases, tags[j]).None?
  {
    assert forall i :: 1 <= i < |tags| ==> tags[i] == tags[1..][i - 1];
    if r.Some? {
      var i :| 0 <= i < |tags[1..]| && r == PhaseNamed(phases, tags[1..][i])
        && forall j :: 0 <= j < i ==> PhaseNamed(phases, tags[1..][j]).None?;
      FirstNamingShift(tags, phases, i);
    }
  }

  lemma FirstNamingShift(tags: seq<string>, phases: seq<Phase>, i: int)
    requires |tags| > 0 && PhaseNamed(phases, tags[0]).None? && 0 <= i < |tags| - 1
    requires forall j :: 0 <= j < i ==> PhaseNamed(phases, tags[1..][j]).None?
    ensures tags[i + 1] == tags[1..][i]
    ensures forall j :: 0 <= j < i + 1 ==> PhaseNamed(phases, tags[j]).None?
  {
    forall j | 0 <= j < i + 1 ensures PhaseNamed(phases, tags[j]).None? {
      if j > 0 {
        assert tags[j] == tags[1..][j - 1];
      }
    }
  }

  // ---------------------------------------------------------------------
  // The synchronisation loop
  // ---------------------------------------------------------------------

  /** A local project: its id, its Clockify project id ("" when unlinked), phases and rate overrides. */
  datatype LocalProject = LocalProject(id: int, clockifyId: string, phases: seq<Phase>, rates: seq<RoleRate>)

  /** A fetched entry; a missing or null project id is `None`; a missing start date is `None`. */
  datatype ClockifyEntry = ClockifyEntry(
    id: string,
    projectId: Option<string>,
    tags: seq<string>,
    duration: string,
    description: string,
    date: Option<int>)

  /** The stored time entry, keyed by its Clockify id. */
  datatype StoredEntry = StoredEntry(
    projectId: int,
    phase: Option<int>,
    roleId: Option<int>,
    userName: string,
    description: string,
    hours: int,
    cost: int,
    date: int)

  /** `{p.clockify_project_id: p for p in linked projects}`: linked projects by Clockify id, the last one winning. */
  function ProjectMap(projects: seq<LocalProject>): (m: map<string, LocalProject>)
    ensures forall k :: k in m ==> k != ""
    ensures forall k :: k in m <==> exists i :: 0 <= i < |projects| && projects[i].clockifyId == k && k != ""
    ensures forall k :: k in m ==> m[k].clockifyId == k
  {
    if |projects| == 0 then map[]
    else
      var m := ProjectMap(projects[..|projects| - 1]);
      var p := projects[|projects| - 1];
      if p.clockifyId == "" then m else m[p.clockifyId := p]
  }

  /** Whether the loop processes an entry rather than skipping it. */
  predicate Linked(e: ClockifyEntry, pm: map<string, LocalProject>) {
    e.projectId.Some? && e.projectId.value in pm
  }

  /** What one user's entries leave behind: the store, how many were synced, and whether a parse failed. */
  datatype SyncRun = SyncRun(store: map<string, StoredEntry>, synced: nat, failed: bool)

  function CountLinked(entries: seq<ClockifyEntry>, pm: map<string, LocalProject>): (n: nat)
    ensures n <= |entries|
  {
    if |entries| == 0 then 0 else (if Linked(entries[0], pm) then 1 else 0) + CountLinked(entries[1..], pm)
  }

  /** The row `update_or_create` writes for a linked entry whose duration parsed to `hours`. */
  function StoredFor(e: ClockifyEntry, p: LocalProject, role: Option<BillingRole>, userName: string, hours: int, today: int): (s: StoredEntry)
    ensures s.projectId == p.id && s.hours == hours
    ensures s.cost == EntryCost(hours, HourlyRate(role, p.rates))
    ensures s.date == e.date.GetOr(today)
  {
    var phase := MapTagsToPhase(e.tags, p.phases);
    StoredEntry(p.id, if phase.Some? then Some(phase.value.id) else None,
      if role.Some? then Some(role.value.id) else None,
      userName, e.description, hours, EntryCost(hours, HourlyRate(role, p.rates)), e.date.GetOr(today))
  }

  /** Some linked entry has a duration that does not parse. */
  predicate SomeLinkedUnparsable(entries: seq<ClockifyEntry>, pm: map<string, LocalProject>) {
    exists i :: 0 <= i < |entries| && Linked(entries[i], pm) && ParseDuration(entries[i].duration).Err?
  }

  /** Some linked entry carries Clockify id `k`. */
  predicate WritesKey(entries: seq<ClockifyEntry>, pm: map<string, LocalProject>, k: string) {
    exists i :: 0 <= i < |entries| && entries[i].id == k && Linked(entries[i], pm)
  }

  /**
   * The inner loop of `sync_all_projects` for one user: unlinked entries are
   * skipped, linked ones are upserted by Clockify id, and a duration that
   * does not parse aborts the run, keeping what was written before it.
   */
  function SyncEntries(store: map<string, StoredEntry>, entries: seq<ClockifyEntry>, pm: map<string, LocalProject>,
                       role: Option<BillingRole>, userName: string, today: int): (r: SyncRun)
    ensures r.failed <==> SomeLinkedUnparsable(entries, pm)
    ensures r.synced <= CountLinked(entries, pm)
    ensures !r.failed ==> r.synced == CountLinked(entries, pm)
    ensures forall k :: k in store ==> k in r.store
    ensures forall k :: k in r.store ==> k in store || WritesKey(entries, pm, k)
    ensures forall k :: k in store && !WritesKey(entries, pm, k) ==> r.store[k] == store[k]
    decreases |entries|
  {
    if |entries| == 0 then SyncRun(store, 0, false)
    else
      var e := entries[0];
      HeadAndTail(entries, pm);
      if !Linked(e, pm) then SyncEntries(store, entries[1..], pm, role, userName, today)
      else
        match ParseDuration(e.duration)
        case Err(_) => SyncRun(store, 0, true)
        case Ok(hours) =>
          var p := pm[e.projectId.value];
          var rest := SyncEntries(store[e.id := StoredFor(e, p, role, userName, hours, today)], entries[1..], pm, role, userName, today);
          SyncRun(rest.store, rest.synced + 1, rest.failed)
  }

  /** The run-wide predicates split into the first entry and the rest. */
  lemma HeadAndTail(entries: seq<ClockifyEntry>, pm: map<string, LocalProject>)
    requires |entries| > 0
    ensures SomeLinkedUnparsable(entries, pm)
      <==> (Linked(entries[0], pm) && ParseDuration(entries[0].duration).Err?) || SomeLinkedUnparsable(entries[1..], pm)
    ensures forall k :: WritesKey(entries, pm, k) <==> (entries[0].id == k && Linked(entries[0], pm)) || WritesKey(entries[1..], pm, k)
  {
    assert forall i :: 1 <= i < |entries| ==> entries[i] == entries[1..][i - 1];
    if SomeLinkedUnparsable(entries[1..], pm) {
      var i :| 0 <= i < |entries[1..]| && Linked(entries[1..][i], pm) && ParseDuration(entries[1..][i].duration).Err?;
      assert entries[i + 1] == entries[1..][i];
    }
    forall k | WritesKey(entries[1..], pm, k) ensures WritesKey(entries, pm, k) {
      var i :| 0 <= i < |entries[1..]| && entries[1..][i].id == k && Linked(entries[1..][i], pm);
      assert entries[i + 1] == entries[1..][i];
    }
  }

  /** The rows a successful run writes, a later entry overwriting an earlier one with the same id. */
  function Writes(entries: seq<ClockifyEntry>, pm: map<string, LocalProject>,
                  role: Option<BillingRole>, userName: string, today: int): map<string, StoredEntry>
    requires !SomeLinkedUnparsable(entries, pm)
    decreases |entries|
  {
    if |entries| == 0 then map[]
    else
      var e := entries[0];
      assert forall i :: 1 <= i < |entries| ==> entries[i] == entries[1..][i - 1];
      var first := if Linked(e, pm)
        then map[e.id := StoredFor(e, pm[e.projectId.value], role, userName, ParseDuration(e.duration).value, today)]
        else map[];
      first + Writes(entries[1..], pm, role, userName, today)
  }

  /** A successful run overlays its writes on the store it started from. */
  lemma {:induction false} SyncIsOverlay(store: map<string, StoredEntry>, entries: seq<ClockifyEntry>,
                                        pm: map<string, LocalProject>, role: Option<BillingRole>, userName: string, today: int)
    requires !SomeLinkedUnparsable(entries, pm)
    ensures SyncEntries(store, entries, pm, role, userName, today).store == store + Writes(entries, pm, role, userName, today)
    decreases |entries|
  {
    if |entries| == 0 {
      assert store + map[] == store;
    } else {
      var e := entries[0];
      var rest := entries[1..];
      ParsableTail(entries, pm);
      var w := Writes(rest, pm, role, userName, today);
      var first := FirstWrite(entries, pm, role, userName, today);
      var store' := store + first;
      SyncIsOverlay(store', rest, pm, role, userName, today);
      SyncUnfold(store, entries, pm, role, userName, today);
      OverlayAssoc(store, first, w);
    }
  }

  lemma ParsableTail(entries: seq<ClockifyEntry>, pm: map<string, LocalProject>)
    requires |entries| > 0 && !SomeLinkedUnparsable(entries, pm)
    ensures !SomeLinkedUnparsable(entries[1..], pm)
  {
    var rest := entries[1..];
    forall i | 0 <= i < |rest| ensures !(Linked(rest[i], pm) && ParseDuration(rest[i].duration).Err?) {
      assert rest[i] == entries[i + 1];
    }
  }

  /** The row the first entry writes, as a one-key map, or the empty map when it is skipped. */
  function FirstWrite(entries: seq<ClockifyEntry>, pm: map<string, LocalProject>,
                      role: Option<BillingRole>, userName: string, today: int): map<string, StoredEntry>
    requires |entries| > 0 && !SomeLinkedUnparsable(entries, pm)
  {
    var e := entries[0];
    if Linked(e, pm)
    then map[e.id := StoredFor(e, pm[e.projectId.value], role, userName, ParseDuration(e.duration).value, today)]
    else map[]
  }

  /** One step of a successful run: write the first entry's row, then run over the rest. */
  lemma SyncUnfold(store: map<string, StoredEntry>, entries: seq<ClockifyEntry>,
                   pm: map<string, LocalProject>, role: Option<BillingRole>, userName: string, today: int)
    requires |entries| > 0 && !SomeLinkedUnparsable(entries, pm)
    ensures !SomeLinkedUnparsable(entries[1..], pm)
    ensures SyncEntries(store, entries, pm, role, userName, today).store
      == SyncEntries(store + FirstWrite(entries, pm, role, userName, today), entries[1..], pm, role, userName, today).store
    ensures Writes(entries, pm, role, userName, today)
      == FirstWrite(entries, pm, role, userName, today) + Writes(entries[1..], pm, role, userName, today)
  {
    ParsableTail(entries, pm);
    SyncStep(store, entries, pm, role, userName, today);
  }

  lemma SyncStep(store: map<string, StoredEntry>, entries: seq<ClockifyEntry>,
                 pm: map<string, LocalProject>, role: Option<BillingRole>, userName: string, today: int)
    requires |entries| > 0 && !SomeLinkedUnparsable(entries, pm)
    ensures SyncEntries(store, entries, pm, role, userName, today).store
      == SyncEntries(store + FirstWrite(entries, pm, role, userName, today), entries[1..], pm, role, userName, today).store
  {
    if Linked(entries[0], pm) {
      assert ParseDuration(entries[0].duration).Ok?;
      SyncStepLinked(store, entries, pm, role, userName, today);
    } else {
      assert store + map[] == store;
    }
  }

  lemma SyncStepLinked(store: map<string, StoredEntry>, entries: seq<ClockifyEntry>,
                       pm: map<string, LocalProject>, role: Option<BillingRole>, userName: string, today: int)
    requires |entries| > 0 && Linked(entries[0], pm) && ParseDuration(entries[0].duration).Ok?
    ensures var e := entries[0];
      var row := StoredFor(e, pm[e.projectId.value], role, userName, ParseDuration(e.duration).value, today);
      SyncEntries(store, entries, pm, role, userName, today).store
        == SyncEntries(store + map[e.id := row], entries[1..], pm, role, userName, today).store
  {
    var e := entries[0];
    var row := StoredFor(e, pm[e.projectId.value], role, userName, ParseDuration(e.duration).value, today);
    assert store + map[e.id := row] == store[e.id := row];
  }

  lemma OverlayAssoc<K, V>(a: map<K, V>, b: map<K, V>, c: map<K, V>)
    ensures (a + b) + c == a + (b + c)
  {
  }

  /** With no linked entry, the store is untouched and nothing is synced. */
  lemma {:induction false} UnlinkedEntriesSkipped(store: map<string, StoredEntry>, entries: seq<ClockifyEntry>,
                                                 pm: map<string, LocalProject>, role: Option<BillingRole>, userName: string, today: int)
    requires forall i :: 0 <= i < |entries| ==> !Linked(entries[i], pm)
    ensures SyncEntries(store, entries, pm, role, userName, today) == SyncRun(store, 0, false)
  {
    if |entries| > 0 {
      assert forall i :: 1 <= i < |entries| ==> entries[i] == entries[1..][i - 1];
      UnlinkedEntriesSkipped(store, entries[1..], pm, role, userName, today);
    }
  }

  /** Syncing the same entries again over the result changes nothing: the upsert is idempotent. */
  lemma SyncIdempotent(store: map<string, StoredEntry>, entries: seq<ClockifyEntry>,
                       pm: map<string, LocalProject>, role: Option<BillingRole>, userName: string, today: int)
    requires !SomeLinkedUnparsable(entries, pm)
    ensures var once := SyncEntries(store, entries, pm, role, userName, today).store;
      SyncEntries(once, entries, pm, role, userName, today).store == once
  {
    var w := Writes(entries, pm, role, userName, today);
    SyncIsOverlay(store, entries, pm, role, userName, today);
    SyncIsOverlay(store + w, entries, pm, role, userName, today);
    assert (store + w) + w == store + w;
  }
}

=== FILE: csv_load.dfy ===
/**
 * The assignment rules of the CSV loader once file reading is removed:
 * date-to-sprint tables, the Colorado entry classifier and task matcher, the
 * two CSV joins, and sprint/phase assignment of CAP-MX time entries.
 *
 * Rows arrive already stripped and parsed; `date` fields are day numbers
 * (see `Calendar.Civil`), hours and amounts are hundredths.
 */
module CsvLoad {
  import opened Wrappers
  import opened Text
  import opened Calendar
  import opened Seqs

  /** A sprint and the inclusive day range it covers. */
  datatype SprintRange = SprintRange(sprint: int, start: int, end: int)

  predicate InRange(r: SprintRange, d: int) { r.start <= d <= r.end }

  /** CAP-MX ranges, in the loader's list order (not date order); see `CapmxBoundaries` for the dates. */
  const SprintDateRanges: seq<SprintRange> := [
    SprintRange(4, 20486, 20492),
    SprintRange(2, 20493, 20512),
    SprintRange(3, 20472, 20485)
  ]

  /** Colorado ranges, in list order; the three Colorado boundary lemmas give their dates. */
  const ColoradoSprintDateRanges: seq<SprintRange> := [
    SprintRange(1, 20270, 20300),
    SprintRange(2, 20301, 20361),
    SprintRange(3, 20362, 20422),
    SprintRange(4, 20423, 20484),
    SprintRange(5, 20485, 20512)
  ]

  /** The day numbers in the CAP-MX table are the loader's calendar dates. */
  lemma CapmxBoundaries()
    ensures Civil(2026, 1, 19) == 20472 && Civil(2026, 2, 1) == 20485
    ensures Civil(2026, 2, 2) == 20486 && Civil(2026, 2, 8) == 20492
    ensures Civil(2026, 2, 9) == 20493 && Civil(2026, 2, 28) == 20512
  {
    CivilQuotients();
  }

  /** The day numbers in the Colorado table for 2025 are the loader's calendar dates. */
  lemma ColoradoBoundaries2025()
    ensures Civil(2025, 7, 1) == 20270 && Civil(2025, 7, 31) == 20300
    ensures Civil(2025, 8, 1) == 20301 && Civil(2025, 9, 30) == 20361
  {
    CivilQuotients();
  }

  /** The Colorado table for the autumn of 2025. */
  lemma ColoradoBoundariesAutumn()
    ensures Civil(2025, 10, 1) == 20362 && Civil(2025, 11, 30) == 20422
  {
    CivilQuotients();
  }

  /** The Colorado table from December 2025. */
  lemma ColoradoBoundariesLate()
    ensures Civil(2025, 12, 1) == 20423 && Civil(2026, 1, 31) == 20484
    ensures Civil(2026, 2, 1) == 20485 && Civil(2026, 2, 28) == 20512
  {
    CivilQuotients();
  }

  /** The sprint of the first range, in list order, containing `d`. */
  function FirstContaining(ranges: seq<SprintRange>, d: int): (r: Option<int>)
    ensures r.None? <==> forall i :: 0 <= i < |ranges| ==> !InRange(ranges[i], d)
    ensures r.Some? ==>
      exists i :: 0 <= i < |ranges| && InRange(ranges[i], d) && ranges[i].sprint == r.value
        && forall j :: 0 <= j < i ==> !InRange(ranges[j], d)
  {
    if |ranges| == 0 then None
    else if InRange(ranges[0], d) then Some(ranges[0].sprint)
    else
      var r := FirstContaining(ranges[1..], d);
      if r.Some? then
        ghost var i :| 0 <= i < |ranges| - 1 && InRange(ranges[1..][i], d)
          && ranges[1..][i].sprint == r.value && forall j :: 0 <= j < i ==> !InRange(ranges[1..][j], d);
        assert InRange(ranges[i + 1], d) && forall j :: 0 <= j < i + 1 ==> !InRange(ranges[j], d) by {
          forall j | 0 <= j < i + 1 ensures !InRange(ranges[j], d) {
            if j > 0 { assert ranges[j] == ranges[1..][j - 1]; }
          }
        }
        r
      else r
  }

  /** `_get_sprint_num_for_date`: the first containing range's sprint, else sprint 1. */
  function SprintNumForDate(d: int): (r: int)
    ensures (forall i :: 0 <= i < |SprintDateRanges| ==> !InRange(SprintDateRanges[i], d)) ==> r == 1
    ensures (exists i :: 0 <= i < |SprintDateRanges| && InRange(SprintDateRanges[i], d)) ==>
      exists i :: 0 <= i < |SprintDateRanges| && InRange(SprintDateRanges[i], d) && SprintDateRanges[i].sprint == r
  {
    FirstContaining(SprintDateRanges, d).GetOr(1)
  }

  /**
   * The table lookup agrees with the calendar reading of the ranges: Jan 19 to
   * Feb 1 2026 is sprint 3, Feb 2 to 8 is sprint 4, Feb 9 to 28 is sprint 2,
   * and every other day, later ones included, falls back to sprint 1.
   */
  lemma SprintNumForDateByCalendar(d: int)
    ensures SprintNumForDate(d) == (
      if Civil(2026, 1, 19) <= d <= Civil(2026, 2, 1) then 3
      else if Civil(2026, 2, 2) <= d <= Civil(2026, 2, 8) then 4
      else if Civil(2026, 2, 9) <= d <= Civil(2026, 2, 28) then 2
      else 1)
    ensures 1 <= SprintNumForDate(d) <= 4
  {
    CapmxBoundaries();
    var r := FirstContaining(SprintDateRanges, d);
    if r.Some? {
      var i :| 0 <= i < |SprintDateRanges| && InRange(SprintDateRanges[i], d)
        && SprintDateRanges[i].sprint == r.value;
      assert i == 0 || i == 1 || i == 2;
    } else {
      assert !InRange(SprintDateRanges[0], d) && !InRange(SprintDateRanges[1], d)
        && !InRange(SprintDateRanges[2], d);
    }
  }

  /** `_get_colorado_sprint_num_for_date`: the containing range's sprint, else 1 before July 2025, else 5. */
  function ColoradoSprintNumForDate(d: int): (r: int)
    ensures (forall i :: 0 <= i < |ColoradoSprintDateRanges| ==> !InRange(ColoradoSprintDateRanges[i], d)) ==>
      r == (if d < ColoradoSprintDateRanges[0].start then 1 else 5)
    ensures (exists i :: 0 <= i < |ColoradoSprintDateRanges| && InRange(ColoradoSprintDateRanges[i], d)) ==>
      exists i :: 0 <= i < |ColoradoSprintDateRanges| && InRange(ColoradoSprintDateRanges[i], d)
        && ColoradoSprintDateRanges[i].sprint == r
  {
    match FirstContaining(ColoradoSprintDateRanges, d)
    case Some(s) => s
    case None => if d < 20270 then 1 else 5
  }

  /** Colorado sprint numbers lie in 1..5 and never decrease as the date advances. */
  lemma ColoradoSprintMonotone(d1: int, d2: int)
    requires d1 <= d2
    ensures 1 <= ColoradoSprintNumForDate(d1) <= ColoradoSprintNumForDate(d2) <= 5
  {
    ColoradoSprintByCalendar(d1);
    ColoradoSprintByCalendar(d2);
  }

  lemma ColoradoSprintByCalendar(d: int)
    ensures ColoradoSprintNumForDate(d) == (
      if d < Civil(2025, 8, 1) then 1
      else if d < Civil(2025, 10, 1) then 2
      else if d < Civil(2025, 12, 1) then 3
      else if d < Civil(2026, 2, 1) then 4
      else 5)
  {
    ColoradoBoundaries2025();
    ColoradoBoundariesAutumn();
    ColoradoBoundariesLate();
    var rs := ColoradoSprintDateRanges;
    var r := FirstContaining(rs, d);
    if r.Some? {
      var i :| 0 <= i < |rs| && InRange(rs[i], d) && rs[i].sprint == r.value;
      assert i == 0 || i == 1 || i == 2 || i == 3 || i == 4;
    } else {
      assert !InRange(rs[0], d) && !InRange(rs[1], d) && !InRange(rs[2], d)
        && !InRange(rs[3], d) && !InRange(rs[4], d);
    }
  }

  // ---------------------------------------------------------------------
  // Colorado entry classification and task matching
  // ---------------------------------------------------------------------

  /** A Colorado row of the task CSV, as grouped under its (user, date) key. */
  datatype ColoradoTask = ColoradoTask(task: string, hours: int, amount: int)

  const NonColoradoPrefixes: seq<string> := ["[AP-", "[DA-", "[LM-", "[CPTRN-"]

  predicate Matches(e: ColoradoTask, hours: int, amount: int) {
    amount == e.amount || hours == e.hours
  }

  predicate HasNonColoradoPrefix(upper: string) {
    exists i :: 0 <= i < |NonColoradoPrefixes| && Contains(upper, NonColoradoPrefixes[i])
  }

  predicate TaskAmong(t: string, entries: seq<ColoradoTask>) {
    exists i :: 0 <= i < |entries| && entries[i].task == t
  }

  /** Index of the first entry matching on amount or hours, or `|entries|` when none does. */
  function FirstMatch(entries: seq<ColoradoTask>, hours: int, amount: int): (k: nat)
    ensures k <= |entries|
    ensures k < |entries| ==> Matches(entries[k], hours, amount)
    ensures forall j :: 0 <= j < k ==> !Matches(entries[j], hours, amount)
  {
    if |entries| == 0 then 0
    else if Matches(entries[0], hours, amount) then 0
    else 1 + FirstMatch(entries[1..], hours, amount)
  }

  /**
   * `_is_colorado_desc_entry`, case-insensitive and in priority order: a
   * "[CL-" key wins, another project's key loses, and otherwise a match on
   * amount or hours against the day's Colorado rows decides.
   */
  function IsColoradoDescEntry(desc: string, hours: int, amount: int, entries: seq<ColoradoTask>): (r: bool)
    ensures Contains(Upper(desc), "[CL-") ==> r
    ensures !Contains(Upper(desc), "[CL-") && HasNonColoradoPrefix(Upper(desc)) ==> !r
    ensures !Contains(Upper(desc), "[CL-") && !HasNonColoradoPrefix(Upper(desc)) ==>
      (r <==> exists i :: 0 <= i < |entries| && Matches(entries[i], hours, amount))
  {
    var upper := Upper(desc);
    if Contains(upper, "[CL-") then true
    else if Contains(upper, "[AP-") || Contains(upper, "[DA-") || Contains(upper, "[LM-")
      || Contains(upper, "[CPTRN-") then
      assert Contains(upper, NonColoradoPrefixes[0]) || Contains(upper, NonColoradoPrefixes[1])
        || Contains(upper, NonColoradoPrefixes[2]) || Contains(upper, NonColoradoPrefixes[3]);
      false
    else
      assert !HasNonColoradoPrefix(upper) by {
        forall i | 0 <= i < |NonColoradoPrefixes| ensures !Contains(upper, NonColoradoPrefixes[i]) {
          assert i == 0 || i == 1 || i == 2 || i == 3;
        }
      }
      FirstMatch(entries, hours, amount) < |entries|
  }

  /**
   * `_match_colorado_task`: a lone entry's task; else the first entry matching
   * on amount or hours; else the first entry. The day's rows are never empty
   * here, since a key is only grouped once a row has been added under it.
   */
  function MatchColoradoTask(hours: int, amount: int, entries: seq<ColoradoTask>): (t: string)
    requires |entries| > 0
    ensures TaskAmong(t, entries)
    ensures |entries| == 1 ==> t == entries[0].task
    ensures |entries| > 1 && FirstMatch(entries, hours, amount) < |entries| ==>
      t == entries[FirstMatch(entries, hours, amount)].task
    ensures (forall i :: 0 <= i < |entries| ==> !Matches(entries[i], hours, amount)) ==>
      t == entries[0].task
  {
    if |entries| == 1 then entries[0].task
    else
      var k := FirstMatch(entries, hours, amount);
      if k < |entries| then entries[k].task else entries[0].task
  }

  /**
   * On a mixed date, an entry kept by the amount/hours rule is given the task
   * of a Colorado row it matches, whenever the day has several Colorado rows.
   */
  lemma MatchedEntryGetsMatchingTask(desc: string, hours: int, amount: int, entries: seq<ColoradoTask>)
    requires |entries| > 1
    requires !Contains(Upper(desc), "[CL-")
    requires IsColoradoDescEntry(desc, hours, amount, entries)
    ensures
      exists i :: 0 <= i < |entries| && Matches(entries[i], hours, amount)
        && entries[i].task == MatchColoradoTask(hours, amount, entries)
  {
  }

  // ---------------------------------------------------------------------
  // The CAP-MX raw join on (date, description)
  // ---------------------------------------------------------------------

  datatype TaskRow = TaskRow(dateStr: string, description: string, task: string)

  datatype UserRow = UserRow(dateStr: string, date: int, user: string, description: string, hours: int, amount: int)

  datatype MergedRow = MergedRow(date: int, dateStr: string, user: string, task: string,
                                 description: string, hours: int, amount: int)

  function TaskKey(r: TaskRow): (string, string) { (r.dateStr, r.description) }

  const WithoutTask := "(Without task)"

  /** The index of the last row carrying key `k`, or -1 when none does. */
  function LastIndexWithKey(rows: seq<TaskRow>, k: (string, string)): (i: int)
    ensures -1 <= i < |rows|
    ensures i >= 0 ==> TaskKey(rows[i]) == k
    ensures forall j :: i < j < |rows| ==> TaskKey(rows[j]) != k
  {
    if |rows| == 0 then -1
    else if TaskKey(rows[|rows| - 1]) == k then |rows| - 1
    else LastIndexWithKey(rows[..|rows| - 1], k)
  }

  /** The task lookup built row by row, a later row overwriting an earlier one with the same key. */
  function TaskLookup(rows: seq<TaskRow>): map<(string, string), string> {
    if |rows| == 0 then map[]
    else TaskLookup(rows[..|rows| - 1])[TaskKey(rows[|rows| - 1]) := rows[|rows| - 1].task]
  }

  /** The lookup holds exactly the keys of the task rows, each mapped to the task of its LAST row. */
  lemma {:induction false} TaskLookupLastWins(rows: seq<TaskRow>, k: (string, string))
    ensures k in TaskLookup(rows) <==> LastIndexWithKey(rows, k) >= 0
    ensures k in TaskLookup(rows) ==> TaskLookup(rows)[k] == rows[LastIndexWithKey(rows, k)].task
  {
    if |rows| > 0 {
      var init := rows[..|rows| - 1];
      TaskLookupLastWins(init, k);
      if TaskKey(rows[|rows| - 1]) != k && LastIndexWithKey(init, k) >= 0 {
        assert rows[LastIndexWithKey(init, k)] == init[LastIndexWithKey(init, k)];
      }
    }
  }

  /**
   * `_parse_and_merge_raw_csvs`: one record per user row, in order, carrying
   * the looked-up task or "(Without task)".
   */
  function RawMerge(taskRows: seq<TaskRow>, userRows: seq<UserRow>): (r: seq<MergedRow>)
    ensures |r| == |userRows|
    ensures forall i :: 0 <= i < |r| ==>
      var u := userRows[i];
      && r[i].date == u.date && r[i].dateStr == u.dateStr && r[i].user == u.user
      && r[i].description == u.description && r[i].hours == u.hours && r[i].amount == u.amount
      && var last := LastIndexWithKey(taskRows, (u.dateStr, u.description));
         r[i].task == (if last >= 0 then taskRows[last].task else WithoutTask)
  {
    var lookup := TaskLookup(taskRows);
    assert forall k ::
      (k in lookup <==> LastIndexWithKey(taskRows, k) >= 0)
        && (k in lookup ==> lookup[k] == taskRows[LastIndexWithKey(taskRows, k)].task) by {
      forall k { TaskLookupLastWins(taskRows, k); }
    }
    seq(|userRows|, i requires 0 <= i < |userRows| =>
      var u := userRows[i];
      var key := (u.dateStr, u.description);
      MergedRow(u.date, u.dateStr, u.user, if key in lookup then lookup[key] else WithoutTask,
                u.description, u.hours, u.amount))
  }

  // ---------------------------------------------------------------------
  // The Colorado join on (normalized user, date)
  // ---------------------------------------------------------------------

  datatype ColoradoTaskRow = ColoradoTaskRow(user: string, dateStr: string, task: string,
                                             project: string, hours: int, amount: int)

  datatype DescRow = DescRow(user: string, dateStr: string, date: int, description: string,
                             hours: int, amount: int)

  /** Accent-less spellings mapped to the canonical user names. */
  const NameNormalize: map<string, string> := map[
    "Natalia Rio" := "Natalia Río",
    "Rafael Castillo Lopez" := "Rafael Castillo López"
  ]

  function Normalize(user: string): string {
    if user in NameNormalize then NameNormalize[user] else user
  }

  function TaskRowKey(r: ColoradoTaskRow): (string, string) { (Normalize(r.user), r.dateStr) }

  /** The Colorado rows carrying key `k`, in file order. */
  function GroupFor(rows: seq<ColoradoTaskRow>, k: (string, string)): seq<ColoradoTask> {
    if |rows| == 0 then []
    else
      var last := rows[|rows| - 1];
      GroupFor(rows[..|rows| - 1], k)
        + (if last.project == "Colorado" && TaskRowKey(last) == k
           then [ColoradoTask(last.task, last.hours, last.amount)] else [])
  }

  /** `colorado_tasks.setdefault(key, []).append(...)` over the task CSV. */
  function ColoradoGroups(rows: seq<ColoradoTaskRow>): map<(string, string), seq<ColoradoTask>> {
    if |rows| == 0 then map[]
    else
      var m := ColoradoGroups(rows[..|rows| - 1]);
      var last := rows[|rows| - 1];
      if last.project != "Colorado" then m
      else
        var k := TaskRowKey(last);
        m[k := (if k in m then m[k] else []) + [ColoradoTask(last.task, last.hours, last.amount)]]
  }

  /** The grouping holds a key exactly when some Colorado row carries it, with that key's rows in order. */
  lemma {:induction false} ColoradoGroupsAreGroups(rows: seq<ColoradoTaskRow>, k: (string, string))
    ensures k in ColoradoGroups(rows) <==> |GroupFor(rows, k)| > 0
    ensures k in ColoradoGroups(rows) ==> ColoradoGroups(rows)[k] == GroupFor(rows, k)
  {
    if |rows| > 0 {
      ColoradoGroupsAreGroups(rows[..|rows| - 1], k);
    }
  }

  /** Keys on which the user also logged work for another project. */
  function MixedKeys(rows: seq<ColoradoTaskRow>): (s: set<(string, string)>)
    ensures forall k :: k in s <==>
      exists i :: 0 <= i < |rows| && rows[i].project != "Colorado" && TaskRowKey(rows[i]) == k
  {
    set i | 0 <= i < |rows| && rows[i].project != "Colorado" :: TaskRowKey(rows[i])
  }

  function DescKey(r: DescRow): (string, string) { (Normalize(r.user), r.dateStr) }

  /** Whether the Colorado join keeps a description row. */
  predicate KeepDescRow(groups: map<(string, string), seq<ColoradoTask>>, mixed: set<(string, string)>,
                        r: DescRow)
  {
    DescKey(r) in groups &&
    (DescKey(r) in mixed ==> IsColoradoDescEntry(r.description, r.hours, r.amount, groups[DescKey(r)]))
  }

  /**
   * The row the join emits for a kept description row: the row's date, text,
   * hours and amount, the normalized user, and the task matched among the
   * day's Colorado rows.
   */
  function MergeOne(groups: map<(string, string), seq<ColoradoTask>>, d: DescRow): (m: MergedRow)
    requires DescKey(d) in groups && |groups[DescKey(d)]| > 0
    ensures m.date == d.date && m.dateStr == d.dateStr && m.description == d.description
    ensures m.hours == d.hours && m.amount == d.amount && m.user == Normalize(d.user)
    ensures m.task == MatchColoradoTask(d.hours, d.amount, groups[DescKey(d)])
  {
    MergedRow(d.date, d.dateStr, DescKey(d).0, MatchColoradoTask(d.hours, d.amount, groups[DescKey(d)]),
              d.description, d.hours, d.amount)
  }

  /** One mark per description row: whether the join keeps it. */
  function KeepMarks(groups: map<(string, string), seq<ColoradoTask>>, mixed: set<(string, string)>,
                     rows: seq<DescRow>): (m: seq<bool>)
    ensures |m| == |rows| && forall i :: 0 <= i < |rows| ==> m[i] == KeepDescRow(groups, mixed, rows[i])
  {
    seq(|rows|, i requires 0 <= i < |rows| => KeepDescRow(groups, mixed, rows[i]))
  }

  /** The loop over the description rows, in file order. */
  function MergeDescRows(groups: map<(string, string), seq<ColoradoTask>>, mixed: set<(string, string)>,
                         rows: seq<DescRow>): (r: seq<MergedRow>)
    requires forall k :: k in groups ==> |groups[k]| > 0
    ensures |r| <= |rows|
    ensures forall i :: 0 <= i < |r| ==>
      (r[i].user, r[i].dateStr) in groups && TaskAmong(r[i].task, groups[(r[i].user, r[i].dateStr)])
    ensures (forall i :: 0 <= i < |rows| ==> KeepDescRow(groups, mixed, rows[i])) ==> |r| == |rows|
    ensures (forall i :: 0 <= i < |rows| ==> DescKey(rows[i]) !in groups) ==> r == []
  {
    if |rows| == 0 then []
    else
      var init := rows[..|rows| - 1];
      var d := rows[|rows| - 1];
      assert forall i :: 0 <= i < |init| ==> init[i] == rows[i];
      MergeDescRows(groups, mixed, init) + (if KeepDescRow(groups, mixed, d) then [MergeOne(groups, d)] else [])
  }

  /**
   * The merged rows are exactly the kept description rows, each once and in
   * file order, each merged by `MergeOne`: the j-th merged row comes from the
   * j-th kept row.
   */
  lemma {:induction false} MergeDescRowsFilter(groups: map<(string, string), seq<ColoradoTask>>,
                                               mixed: set<(string, string)>, rows: seq<DescRow>)
    requires forall k :: k in groups ==> |groups[k]| > 0
    ensures var idx := Positions(KeepMarks(groups, mixed, rows));
      |MergeDescRows(groups, mixed, rows)| == |idx|
        && forall j :: 0 <= j < |idx| ==>
          KeepDescRow(groups, mixed, rows[idx[j]])
            && MergeDescRows(groups, mixed, rows)[j] == MergeOne(groups, rows[idx[j]])
  {
    if |rows| > 0 {
      var n := |rows| - 1;
      var init := rows[..n];
      var d := rows[n];
      MergeDescRowsFilter(groups, mixed, init);
      var marks := KeepMarks(groups, mixed, rows);
      assert marks[..n] == KeepMarks(groups, mixed, init);
      var idx0 := Positions(KeepMarks(groups, mixed, init));
      var idx := Positions(marks);
      var r0 := MergeDescRows(groups, mixed, init);
      var r := MergeDescRows(groups, mixed, rows);
      assert idx == idx0 + (if marks[n] then [n] else []);
      assert r == r0 + (if KeepDescRow(groups, mixed, d) then [MergeOne(groups, d)] else []);
      forall j | 0 <= j < |idx0| ensures idx0[j] < n && init[idx0[j]] == rows[idx0[j]] { }
      MergeFilterStep(groups, mixed, rows, r0, idx0, r, idx);
    }
  }

  /** The filter property of the rows before the last one, extended by the last one. */
  lemma MergeFilterStep(groups: map<(string, string), seq<ColoradoTask>>, mixed: set<(string, string)>,
                        rows: seq<DescRow>, r0: seq<MergedRow>, idx0: seq<nat>, r: seq<MergedRow>, idx: seq<nat>)
    requires forall k :: k in groups ==> |groups[k]| > 0
    requires |rows| > 0
    requires |r0| == |idx0|
    requires forall j :: 0 <= j < |idx0| ==>
      idx0[j] < |rows| - 1 && KeepDescRow(groups, mixed, rows[idx0[j]]) && r0[j] == MergeOne(groups, rows[idx0[j]])
    requires idx == idx0 + (if KeepDescRow(groups, mixed, rows[|rows| - 1]) then [|rows| - 1] else [])
    requires r == r0 + (if KeepDescRow(groups, mixed, rows[|rows| - 1]) then [MergeOne(groups, rows[|rows| - 1])] else [])
    ensures |r| == |idx|
    ensures forall j :: 0 <= j < |idx| ==> KeepDescRow(groups, mixed, rows[idx[j]]) && r[j] == MergeOne(groups, rows[idx[j]])
  {
    forall j | 0 <= j < |idx|
      ensures KeepDescRow(groups, mixed, rows[idx[j]]) && r[j] == MergeOne(groups, rows[idx[j]])
    {
      if j < |idx0| {
        assert idx[j] == idx0[j] && r[j] == r0[j];
      }
    }
  }

  /** The grouping's keys are exactly the keys with Colorado rows, each mapped to those rows. */
  lemma GroupsMatchGroupFor(taskRows: seq<ColoradoTaskRow>)
    ensures forall k ::
      (k in ColoradoGroups(taskRows) <==> |GroupFor(taskRows, k)| > 0)
        && (k in ColoradoGroups(taskRows) ==> ColoradoGroups(taskRows)[k] == GroupFor(taskRows, k))
  {
    forall k { ColoradoGroupsAreGroups(taskRows, k); }
  }

  /**
   * `_parse_and_merge_colorado_csvs`: description rows are kept only on
   * (normalized user, date) keys with Colorado work, and on mixed dates only
   * when the classifier accepts them; each kept row gets one of that key's tasks.
   */
  function ColoradoMerge(taskRows: seq<ColoradoTaskRow>, descRows: seq<DescRow>): (r: seq<MergedRow>)
    ensures |r| <= |descRows|
    ensures forall i :: 0 <= i < |r| ==> TaskAmong(r[i].task, GroupFor(taskRows, (r[i].user, r[i].dateStr)))
    ensures (forall i :: 0 <= i < |descRows| ==>
      KeepDescRow(ColoradoGroups(taskRows), MixedKeys(taskRows), descRows[i])) ==> |r| == |descRows|
    ensures (forall i :: 0 <= i < |descRows| ==> |GroupFor(taskRows, DescKey(descRows[i]))| == 0) ==> r == []
  {
    GroupsMatchGroupFor(taskRows);
    MergeDescRows(ColoradoGroups(taskRows), MixedKeys(taskRows), descRows)
  }

  /**
   * The rule the join applies to one description row, in terms of the task
   * file: kept exactly when its key has Colorado rows and, if the user also
   * logged other projects that day, the classifier accepts it against them.
   */
  lemma KeepDescRowMeaning(taskRows: seq<ColoradoTaskRow>, d: DescRow)
    ensures KeepDescRow(ColoradoGroups(taskRows), MixedKeys(taskRows), d) <==>
      |GroupFor(taskRows, DescKey(d))| > 0
        && ((exists i :: 0 <= i < |taskRows| && taskRows[i].project != "Colorado" && TaskRowKey(taskRows[i]) == DescKey(d))
            ==> IsColoradoDescEntry(d.description, d.hours, d.amount, GroupFor(taskRows, DescKey(d))))
  {
    ColoradoGroupsAreGroups(taskRows, DescKey(d));
  }

  /**
   * The Colorado join as a whole: its rows are the kept description rows, in
   * file order, each with the normalized user, its own fields and the task
   * matched among its day's Colorado rows.
   */
  lemma ColoradoMergeFilter(taskRows: seq<ColoradoTaskRow>, descRows: seq<DescRow>)
    ensures var idx := Positions(KeepMarks(ColoradoGroups(taskRows), MixedKeys(taskRows), descRows));
      var r := ColoradoMerge(taskRows, descRows);
      |r| == |idx|
        && forall j :: 0 <= j < |idx| ==>
          |GroupFor(taskRows, DescKey(descRows[idx[j]]))| > 0
            && r[j].user == Normalize(descRows[idx[j]].user) && r[j].date == descRows[idx[j]].date
            && r[j].dateStr == descRows[idx[j]].dateStr && r[j].description == descRows[idx[j]].description
            && r[j].hours == descRows[idx[j]].hours && r[j].amount == descRows[idx[j]].amount
            && r[j].task == MatchColoradoTask(descRows[idx[j]].hours, descRows[idx[j]].amount,
                                              GroupFor(taskRows, DescKey(descRows[idx[j]])))
  {
    GroupsMatchGroupFor(taskRows);
    MergeDescRowsFilter(ColoradoGroups(taskRows), MixedKeys(taskRows), descRows);
  }

  /**
   * On a date where the user also logged another project, a description row
   * the classifier rejects yields no merged row, while every row the rule
   * keeps yields one.
   */
  lemma MixedDateRowsFiltered(taskRows: seq<ColoradoTaskRow>, descRows: seq<DescRow>, i: int)
    requires 0 <= i < |descRows|
    ensures var idx := Positions(KeepMarks(ColoradoGroups(taskRows), MixedKeys(taskRows), descRows));
      var d := descRows[i];
      (i in idx <==> KeepDescRow(ColoradoGroups(taskRows), MixedKeys(taskRows), d))
        && (DescKey(d) in MixedKeys(taskRows)
            && !IsColoradoDescEntry(d.description, d.hours, d.amount, GroupFor(taskRows, DescKey(d)))
            ==> i !in idx)
  {
    PositionsComplete(KeepMarks(ColoradoGroups(taskRows), MixedKeys(taskRows), descRows));
    ColoradoGroupsAreGroups(taskRows, DescKey(descRows[i]));
  }

  // ---------------------------------------------------------------------
  // CAP-MX time entries: sprint and phase assignment
  // ---------------------------------------------------------------------

  const UserProfiles: set<string> := {
    "Ana Gabriela Cedeño", "Camila Veliz", "Christian Luna", "Natalia Río", "Rafael Castillo López"
  }

  const TaskSprintMap: map<string, int> := map[
    "CAP-8" := 1,
    "Ajustes de amelia" := 2,
    "Subir tour a Amelia" := 2,
    "CAP-17" := 2,
    "CAP-9" := 3,
    "RESPONSIVE" := 4
  ]

  const SprintPhaseNames: map<int, string> := map[
    1 := "Cimentacion y Prototipado",
    2 := "Carga de Contenido y Ajustes",
    3 := "Desarrollo de Interfaz y Secciones",
    4 := "Responsive y Ajustes",
    5 := "Capacitacion, Entrega y Video"
  ]

  /** A created CAP-MX entry; `rowNumber` is the 1-based position of its merged row. */
  datatype CsvTimeEntry = CsvTimeEntry(rowNumber: nat, user: string, sprint: int, phaseName: string,
                                       description: string, hours: int, cost: int, date: int)

  predicate Eligible(row: MergedRow) { row.user in UserProfiles && row.hours > 0 }

  function CountEligible(rows: seq<MergedRow>): nat {
    if |rows| == 0 then 0 else CountEligible(rows[..|rows| - 1]) + (if Eligible(rows[|rows| - 1]) then 1 else 0)
  }

  /** The sprint of a row: from the task map, falling back to the date table. */
  function RowSprint(row: MergedRow): (s: int)
    ensures 1 <= s <= 4
    ensures row.task in TaskSprintMap ==> s == TaskSprintMap[row.task]
    ensures row.task !in TaskSprintMap ==> s == SprintNumForDate(row.date)
  {
    SprintNumForDateByCalendar(row.date);
    if row.task in TaskSprintMap then TaskSprintMap[row.task] else SprintNumForDate(row.date)
  }

  /**
   * `e` was created from the eligible row it numbers: the row's user, hours,
   * amount, date and description, the row's sprint and that sprint's phase.
   */
  predicate FromRow(rows: seq<MergedRow>, e: CsvTimeEntry) {
    1 <= e.rowNumber <= |rows| && var row := rows[e.rowNumber - 1];
    && Eligible(row) && e.user == row.user && e.hours == row.hours && e.cost == row.amount
    && e.date == row.date && e.description == row.description
    && e.sprint == RowSprint(row) && e.phaseName == SprintPhaseNames[e.sprint]
  }

  /** The entry created from the eligible row at index `i`, numbered from 1. */
  function EntryFor(rows: seq<MergedRow>, i: nat): (e: CsvTimeEntry)
    requires i < |rows| && Eligible(rows[i])
    ensures FromRow(rows, e) && e.rowNumber == i + 1
  {
    var row := rows[i];
    var sprint := RowSprint(row);
    CsvTimeEntry(i + 1, row.user, sprint, SprintPhaseNames[sprint], row.description, row.hours, row.amount, row.date)
  }

  /** Appending an entry numbered after every earlier one keeps the entries in row order. */
  lemma EntriesExtend(entries: seq<CsvTimeEntry>, e: CsvTimeEntry)
    requires forall a, b :: 0 <= a < b < |entries| ==> entries[a].rowNumber < entries[b].rowNumber
    requires forall x :: x in entries ==> x.rowNumber < e.rowNumber
    ensures forall a, b :: 0 <= a < b < |entries| + 1 ==> (entries + [e])[a].rowNumber < (entries + [e])[b].rowNumber
  {
    var r := entries + [e];
    forall a, b | 0 <= a < b < |r| ensures r[a].rowNumber < r[b].rowNumber {
      assert r[a] == entries[a];
      if b < |entries| {
        assert r[b] == entries[b];
      } else {
        assert entries[a] in entries;
      }
    }
  }

  /**
   * `_create_capmx_time_entries`: rows with an unknown user or non-positive
   * hours are skipped; every other row becomes one entry, in order, whose
   * phase is the one named for its sprint and whose cost is the row's amount.
   */
  method CreateCapmxTimeEntries(rows: seq<MergedRow>) returns (entries: seq<CsvTimeEntry>)
    ensures |entries| == CountEligible(rows)
    ensures forall e :: e in entries ==> FromRow(rows, e)
    ensures forall i, j :: 0 <= i < j < |entries| ==> entries[i].rowNumber < entries[j].rowNumber
  {
    entries := [];
    var i := 0;
    while i < |rows|
      invariant 0 <= i <= |rows|
      invariant |entries| == CountEligible(rows[..i])
      invariant forall e :: e in entries ==> FromRow(rows, e) && e.rowNumber <= i
      invariant forall a, b :: 0 <= a < b < |entries| ==> entries[a].rowNumber < entries[b].rowNumber
    {
      var row := rows[i];
      assert rows[..i + 1][..i] == rows[..i];
      if Eligible(row) {
        var e := EntryFor(rows, i);
        EntriesExtend(entries, e);
        entries := entries + [e];
      }
      i := i + 1;
    }
    assert rows[..i] == rows;
  }
}

=== FILE: finance_views.dfy ===
/**
 * The finance endpoints' decision logic: who counts as a client, the
 * financial burndown series, and the status checks of the two review
 * actions. Requests and responses are reduced to the fields these read.
 */
module FinanceViews {
  import opened Wrappers
  import opened Fixed
  import opened Profiles
  import opened TripleAxis
  import opened Serializers

  /** `_is_client`: the CLIENT role, not the organization type, decides. */
  function IsClientUser(u: User): (r: bool)
    ensures u.isSuperuser && u.profile.None? ==> !r
    ensures r <==> u.profile.Some? && u.profile.value.role == ClientRole
  {
    if u.isSuperuser && u.profile.None? then false
    else u.profile.Some? && u.profile.value.role == ClientRole
  }

  /**
   * The view check and the profile's `is_client` flag answer different
   * questions: a CLIENT-role profile in the internal organization is a client
   * here, and an ADMIN of an external organization is not.
   */
  lemma ClientRoleIsNotClientOrg()
    ensures var p := UserProfile(Organization(1, Internal), ClientRole, true, {});
      IsClientUser(User(true, false, Some(p))) && !IsClient(p)
    ensures var p := UserProfile(Organization(2, External), Admin, true, {});
      !IsClientUser(User(true, false, Some(p))) && IsClient(p)
  {
  }

  // ---------------------------------------------------------------------
  // Burndown
  // ---------------------------------------------------------------------

  datatype HttpError = Forbidden | BadRequest

  /** One day of the series: budget line, cumulative cost and earned value, all hundredths. */
  datatype Point = Point(date: int, budgetLine: int, actualCost: int, earnedValue: int)

  /** The date of the earliest entry. */
  function FirstDate(entries: seq<TimeEntry>): (d: int)
    requires |entries| > 0
    ensures exists i :: 0 <= i < |entries| && entries[i].date == d
    ensures forall i :: 0 <= i < |entries| ==> d <= entries[i].date
  {
    if |entries| == 1 then entries[0].date
    else Min(FirstDate(entries[..|entries| - 1]), entries[|entries| - 1].date)
  }

  /** Cost of the entries dated exactly `d`. */
  function CostOn(entries: seq<TimeEntry>, d: int): int {
    if |entries| == 0 then 0
    else CostOn(entries[..|entries| - 1], d) + (if entries[|entries| - 1].date == d then entries[|entries| - 1].cost else 0)
  }

  /** Cost of the entries dated on or before `d`. */
  function CostThrough(entries: seq<TimeEntry>, d: int): int {
    if |entries| == 0 then 0
    else CostThrough(entries[..|entries| - 1], d) + (if entries[|entries| - 1].date <= d then entries[|entries| - 1].cost else 0)
  }

  /** With non-negative costs the cost through any day lies between nothing and the project's whole actual cost. */
  lemma {:induction false} CostThroughBounds(entries: seq<TimeEntry>, d: int)
    requires forall i :: 0 <= i < |entries| ==> entries[i].cost >= 0
    ensures 0 <= CostThrough(entries, d) <= ActualCost(entries)
  {
    if |entries| > 0 {
      CostThroughBounds(entries[..|entries| - 1], d);
    }
  }

  /** Moving one day forward adds exactly that day's cost. */
  lemma {:induction false} CostThroughStep(entries: seq<TimeEntry>, d: int)
    ensures CostThrough(entries, d) == CostThrough(entries, d - 1) + CostOn(entries, d)
  {
    if |entries| > 0 {
      CostThroughStep(entries[..|entries| - 1], d);
    }
  }

  /** Nothing is logged before the first entry's date. */
  lemma {:induction false} CostBeforeFirst(entries: seq<TimeEntry>, d: int)
    requires forall i :: 0 <= i < |entries| ==> d < entries[i].date
    ensures CostThrough(entries, d) == 0
  {
    if |entries| > 0 {
      CostBeforeFirst(entries[..|entries| - 1], d);
    }
  }

  /** Once every entry is dated on or before `d`, the cumulative cost is the project's actual cost. */
  lemma {:induction false} CostThroughAll(entries: seq<TimeEntry>, d: int)
    requires forall i :: 0 <= i < |entries| ==> entries[i].date <= d
    ensures CostThrough(entries, d) == ActualCost(entries)
  {
    if |entries| > 0 {
      CostThroughAll(entries[..|entries| - 1], d);
    }
  }

  /** With non-negative costs the cumulative cost never decreases. */
  lemma {:induction false} CostThroughMonotone(entries: seq<TimeEntry>, d1: int, d2: int)
    requires forall i :: 0 <= i < |entries| ==> entries[i].cost >= 0
    requires d1 <= d2
    ensures CostThrough(entries, d1) <= CostThrough(entries, d2)
  {
    if |entries| > 0 {
      CostThroughMonotone(entries[..|entries| - 1], d1, d2);
    }
  }

  const SecondsPerDay: int := 86400

  /** The calendar day (UTC) of a snapshot's timestamp in seconds. */
  function SnapshotDay(s: Snapshot): int {
    s.timestamp / SecondsPerDay
  }

  /** The snapshots taken on or before day `d`, in order. */
  function SnapshotsThrough(snaps: seq<Snapshot>, d: int): (r: seq<Snapshot>)
    ensures forall s :: s in r <==> s in snaps && SnapshotDay(s) <= d
  {
    if |snaps| == 0 then []
    else
      var last := snaps[|snaps| - 1];
      SnapshotsThrough(snaps[..|snaps| - 1], d) + (if SnapshotDay(last) <= d then [last] else [])
  }

  /** Earned value of the latest snapshot taken on or before day `d`, or 0. */
  function EarnedValueThrough(snaps: seq<Snapshot>, d: int): int {
    match Latest(SnapshotsThrough(snaps, d))
    case None => 0
    case Some(s) => s.earnedValue
  }

  /**
   * Before the first snapshot the earned value is 0; afterwards it is that of
   * a snapshot taken by `d` with no later-stamped snapshot taken by `d`.
   */
  lemma EarnedValueThroughMeaning(snaps: seq<Snapshot>, d: int)
    ensures (forall i :: 0 <= i < |snaps| ==> SnapshotDay(snaps[i]) > d) ==> EarnedValueThrough(snaps, d) == 0
    ensures (exists i :: 0 <= i < |snaps| && SnapshotDay(snaps[i]) <= d) ==>
      exists s :: s in snaps && SnapshotDay(s) <= d && EarnedValueThrough(snaps, d) == s.earnedValue
        && forall t :: t in snaps && SnapshotDay(t) <= d ==> t.timestamp <= s.timestamp
  {
    var through := SnapshotsThrough(snaps, d);
    match Latest(through)
    case None =>
      assert forall i :: 0 <= i < |snaps| ==> snaps[i] in snaps;
    case Some(s) =>
  }

  /**
   * The planned spend after `k` days of a `totalDays`-day plan, as written:
   * the plan spans the days between the first entry and today, with 1 in
   * place of 0, while `k` counts the first day as 1.
   */
  function AsWrittenTotalDays(start: int, today: int): (n: int)
    ensures n != 0
    ensures start < today ==> n == today - start
  {
    if today - start == 0 then 1 else today - start
  }

  /**
   * The daily budget `invoice / totalDays` times the days elapsed, quantized
   * half to even: over a span of several days `totalDays` is the span, and a
   * series of one day divides by 1.
   */
  function BudgetLineAsWritten(invoice: int, start: int, today: int, d: int): int {
    RoundHalfEven(invoice * (d - start + 1), AsWrittenTotalDays(start, today))
  }

  /**
   * The as-written line is the nearest integer, ties to even, to the invoice
   * share of the days elapsed over the span; a one-day series plans the
   * invoice times the days elapsed.
   */
  lemma BudgetLineAsWrittenRounds(invoice: int, start: int, today: int, d: int)
    ensures var b := BudgetLineAsWritten(invoice, start, today, d);
      start < today ==>
        2 * Abs(invoice * (d - start + 1) - b * (today - start)) <= today - start
          && (2 * Abs(invoice * (d - start + 1) - b * (today - start)) == today - start ==> b % 2 == 0)
    ensures start == today ==> BudgetLineAsWritten(invoice, start, today, d) == invoice * (d - start + 1)
  {
    if start == today {
      RoundHalfEvenExact(invoice * (d - start + 1), 1);
      assert invoice * (d - start + 1) * 1 == invoice * (d - start + 1);
    }
  }

  /** As written, the last point of a two-day series plans twice the invoice. */
  lemma BudgetLineOvershoots()
    ensures BudgetLineAsWritten(100000, 0, 1, 1) == 200000
  {
    RoundHalfEvenExact(200000, 1);
  }

  /** As written, the last point never plans less than the invoice, for any span. */
  lemma BudgetLineAsWrittenEndsAbove(invoice: int, start: int, today: int)
    requires invoice >= 0 && start <= today
    ensures BudgetLineAsWritten(invoice, start, today, today) >= invoice
  {
    var n := AsWrittenTotalDays(start, today);
    var k := today - start + 1;
    var q := BudgetLineAsWritten(invoice, start, today, today);
    BudgetLineAsWrittenRounds(invoice, start, today, today);
    assert n > 0 && k >= n;
    MulMonotone(n, k, invoice);
    assert invoice * k >= invoice * n;
    assert (invoice - 1) * n == invoice * n - n;
    if q < invoice {
      MulMonotone(q, invoice - 1, n);
    }
  }

  /**
   * The corrected budget line: planned spend after `k` of `n` days, where the
   * plan spans every day of the series, first and last included.
   */
  function BudgetLine(invoice: int, n: int, k: int): (b: int)
    requires n > 0
    ensures 2 * Abs(invoice * k - b * n) <= n
    ensures 2 * Abs(invoice * k - b * n) == n ==> b % 2 == 0
  {
    RoundHalfEven(invoice * k, n)
  }

  /** The corrected plan never exceeds the invoice, and its last day plans exactly the invoice. */
  lemma BudgetLineWithinInvoice(invoice: int, n: int, k: int)
    requires invoice >= 0 && 1 <= k <= n
    ensures 0 <= BudgetLine(invoice, n, k) <= invoice
    ensures k == n ==> BudgetLine(invoice, n, k) == invoice
  {
    MulMonotone(k, n, invoice);
    MulMonotone(0, k, invoice);
    assert invoice * k == k * invoice && invoice * n == n * invoice;
    RoundHalfEvenWithin(invoice * k, n, 0, invoice);
    if k == n {
      RoundHalfEvenExact(invoice, n);
    }
  }

  /**
   * The point the series reports for day `d`: the budget line divides the
   * invoice by the as-written day count (the span, or 1 for a one-day
   * series) and multiplies by the days elapsed, the first day counting as 1.
   */
  function PointAt(invoice: int, entries: seq<TimeEntry>, snaps: seq<Snapshot>, start: int, today: int, d: int): (p: Point)
    requires start <= d <= today
    ensures p.date == d
  {
    Point(d, BudgetLineAsWritten(invoice, start, today, d), CostThrough(entries, d), EarnedValueThrough(snaps, d))
  }

  /**
   * The point's budget is the invoice share of the days elapsed over the
   * as-written day count (1 for a one-day series), rounded half to even.
   */
  lemma PointAtBudget(invoice: int, entries: seq<TimeEntry>, snaps: seq<Snapshot>, start: int, today: int, d: int)
    requires start <= d <= today
    ensures var b := PointAt(invoice, entries, snaps, start, today, d).budgetLine;
      var n := if start == today then 1 else today - start;
      2 * Abs(invoice * (d - start + 1) - b * n) <= n
        && (2 * Abs(invoice * (d - start + 1) - b * n) == n ==> b % 2 == 0)
  {
    var b := BudgetLineAsWritten(invoice, start, today, d);
    assert PointAt(invoice, entries, snaps, start, today, d).budgetLine == b;
    BudgetLineAsWrittenRounds(invoice, start, today, d);
    if start == today {
      assert invoice * (d - start + 1) - b * 1 == 0;
    }
  }

  /** The point's cost is everything logged up to `d`: all of it once every entry is dated by `d`, none before. */
  lemma PointAtCost(invoice: int, entries: seq<TimeEntry>, snaps: seq<Snapshot>, start: int, today: int, d: int)
    requires start <= d <= today
    ensures var c := PointAt(invoice, entries, snaps, start, today, d).actualCost;
      ((forall i :: 0 <= i < |entries| ==> entries[i].date <= d) ==> c == ActualCost(entries))
        && ((forall i :: 0 <= i < |entries| ==> entries[i].date > d) ==> c == 0)
  {
    if forall i :: 0 <= i < |entries| ==> entries[i].date <= d {
      CostThroughAll(entries, d);
    }
    if forall i :: 0 <= i < |entries| ==> entries[i].date > d {
      CostBeforeFirst(entries, d);
    }
  }

  /** The point's earned value is that of the latest snapshot taken by `d`, or 0 before the first. */
  lemma PointAtEarnedValue(invoice: int, entries: seq<TimeEntry>, snaps: seq<Snapshot>, start: int, today: int, d: int)
    requires start <= d <= today
    ensures var ev := PointAt(invoice, entries, snaps, start, today, d).earnedValue;
      ((forall i :: 0 <= i < |snaps| ==> SnapshotDay(snaps[i]) > d) ==> ev == 0)
        && ((exists i :: 0 <= i < |snaps| && SnapshotDay(snaps[i]) <= d) ==>
          exists s :: s in snaps && SnapshotDay(s) <= d && ev == s.earnedValue
            && forall t :: t in snaps && SnapshotDay(t) <= d ==> t.timestamp <= s.timestamp)
  {
    EarnedValueThroughMeaning(snaps, d);
  }

  /** The series so far, followed by the point of the next day. */
  lemma SeriesExtends(points: seq<Point>, point: Point, invoice: int, entries: seq<TimeEntry>, snaps: seq<Snapshot>,
                      start: int, today: int)
    requires start + |points| <= today
    requires forall i :: 0 <= i < |points| ==> points[i] == PointAt(invoice, entries, snaps, start, today, start + i)
    requires point == PointAt(invoice, entries, snaps, start, today, start + |points|)
    ensures forall i :: 0 <= i < |points| + 1 ==> (points + [point])[i] == PointAt(invoice, entries, snaps, start, today, start + i)
  {
    forall i | 0 <= i < |points| + 1
      ensures (points + [point])[i] == PointAt(invoice, entries, snaps, start, today, start + i)
    {
      if i < |points| {
        assert (points + [point])[i] == points[i];
      } else {
        assert (points + [point])[i] == point;
      }
    }
  }

  /** The number of days the series covers: from `start` to `today`, both included. */
  function SeriesLength(start: int, today: int): nat {
    if start <= today then today - start + 1 else 0
  }

  /** `points` holds one point per day from `start` to `today`, the `i`-th being that of day `start + i`. */
  predicate IsSeries(points: seq<Point>, invoice: int, entries: seq<TimeEntry>, snaps: seq<Snapshot>, start: int, today: int) {
    |points| == SeriesLength(start, today)
      && forall i :: 0 <= i < |points| ==> points[i] == PointAt(invoice, entries, snaps, start, today, start + i)
  }

  /**
   * The burndown endpoint: forbidden for clients, empty without entries,
   * otherwise one point per day from the first entry's date to today.
   */
  method Burndown(user: User, invoice: int, entries: seq<TimeEntry>, snaps: seq<Snapshot>, today: int)
    returns (r: Result<seq<Point>, HttpError>)
    ensures r == Err(Forbidden) <==> IsClientUser(user)
    ensures r.Err? ==> r == Err(Forbidden)
    ensures !IsClientUser(user) && |entries| == 0 ==> r == Ok([])
    ensures r.Ok? && |entries| > 0 ==> IsSeries(r.value, invoice, entries, snaps, FirstDate(entries), today)
  {
    if IsClientUser(user) {
      return Err(Forbidden);
    }
    if |entries| == 0 {
      return Ok([]);
    }
    var start := FirstDate(entries);
    assert forall i :: 0 <= i < |entries| ==> start <= entries[i].date;
    var points := Series(invoice, entries, snaps, start, today);
    r := Ok(points);
  }

  /** One day of the loop: the spend logged that day is added, and the day's point is built. */
  method SeriesDay(invoice: int, entries: seq<TimeEntry>, snaps: seq<Snapshot>, start: int, today: int, d: int, cumulative0: int)
    returns (point: Point, cumulative: int)
    requires start <= d <= today
    requires cumulative0 == CostThrough(entries, d - 1)
    ensures cumulative == CostThrough(entries, d)
    ensures point == PointAt(invoice, entries, snaps, start, today, d)
  {
    CostThroughStep(entries, d);
    cumulative := cumulative0 + CostOn(entries, d);
    point := Point(d, BudgetLineAsWritten(invoice, start, today, d), cumulative, EarnedValueThrough(snaps, d));
  }

  /** The day-by-day loop: one point per day from `start` to `today`, the spend accumulated as it goes. */
  method Series(invoice: int, entries: seq<TimeEntry>, snaps: seq<Snapshot>, start: int, today: int)
    returns (points: seq<Point>)
    requires forall i :: 0 <= i < |entries| ==> start <= entries[i].date
    ensures IsSeries(points, invoice, entries, snaps, start, today)
  {
    points := [];
    var d := start;
    var cumulative := 0;
    CostBeforeFirst(entries, start - 1);
    while d <= today
      invariant start <= d <= (if start <= today then today + 1 else start)
      invariant |points| == d - start
      invariant cumulative == CostThrough(entries, d - 1)
      invariant forall i :: 0 <= i < |points| ==> points[i] == PointAt(invoice, entries, snaps, start, today, start + i)
      decreases today - d
    {
      var point;
      point, cumulative := SeriesDay(invoice, entries, snaps, start, today, d, cumulative);
      SeriesExtends(points, point, invoice, entries, snaps, start, today);
      points := points + [point];
      d := d + 1;
    }
  }

  // ---------------------------------------------------------------------
  // Review actions
  // ---------------------------------------------------------------------

  /** What a review stores and answers: the HTTP status code and the record afterwards. */
  datatype Reply<T> = Reply(code: int, stored: T)

  datatype Advance = Advance(taskKey: string, description: string, status: string, observations: string)

  predicate ValidAdvanceStatus(s: string) {
    s == "pending" || s == "accepted"
  }

  /**
   * `AdvanceViewSet.review`: the new status must be one of the two advance
   * statuses; observations keep their old value unless the request sends them.
   */
  function ReviewAdvance(a: Advance, status: Option<string>, observations: Option<string>): (r: Reply<Advance>)
    ensures r.code == 200 || r.code == 400
    ensures r.code == 200 <==> status.Some? && ValidAdvanceStatus(status.value)
    ensures r.code == 400 ==> r.stored == a
    ensures r.code == 200 ==>
      r.stored.status == status.value
        && r.stored.observations == (if observations.Some? then observations.value else a.observations)
        && r.stored.taskKey == a.taskKey && r.stored.description == a.description
  {
    if status.None? || !ValidAdvanceStatus(status.value) then Reply(400, a)
    else Reply(200, a.(status := status.value, observations := observations.GetOr(a.observations)))
  }

  /** A review never leaves an advance in a status outside its choices. */
  lemma ReviewAdvanceKeepsStatusValid(a: Advance, status: Option<string>, observations: Option<string>)
    requires ValidAdvanceStatus(a.status)
    ensures ValidAdvanceStatus(ReviewAdvance(a, status, observations).stored.status)
  {
  }

  /** Repeating the same review request changes nothing further. */
  lemma ReviewAdvanceIdempotent(a: Advance, status: Option<string>, observations: Option<string>)
    ensures var once := ReviewAdvance(a, status, observations).stored;
      ReviewAdvance(once, status, observations).stored == once
  {
  }

  datatype SimpleChange = SimpleChange(taskKey: string, description: string, status: string, reviewComments: string)

  predicate ValidSimpleChangeStatus(s: string) {
    s == "in_process" || s == "pending_review" || s == "accepted" || s == "rejected"
  }

  /** `SimpleChangeViewSet.review`: the same shape as the advance review over four statuses. */
  function ReviewSimpleChange(c: SimpleChange, status: Option<string>, comments: Option<string>): (r: Reply<SimpleChange>)
    ensures r.code == 200 || r.code == 400
    ensures r.code == 200 <==> status.Some? && ValidSimpleChangeStatus(status.value)
    ensures r.code == 400 ==> r.stored == c
    ensures r.code == 200 ==>
      r.stored.status == status.value
        && r.stored.reviewComments == (if comments.Some? then comments.value else c.reviewComments)
        && r.stored.taskKey == c.taskKey && r.stored.description == c.description
  {
    if status.None? || !ValidSimpleChangeStatus(status.value) then Reply(400, c)
    else Reply(200, c.(status := status.value, reviewComments := comments.GetOr(c.reviewComments)))
  }

  /** A simple-change review never leaves a status outside its choices. */
  lemma ReviewSimpleChangeKeepsStatusValid(c: SimpleChange, status: Option<string>, comments: Option<string>)
    requires ValidSimpleChangeStatus(c.status)
    ensures ValidSimpleChangeStatus(ReviewSimpleChange(c, status, comments).stored.status)
  {
  }

  /** The two reviews accept different vocabularies: "rejected" is not an advance status. */
  lemma ReviewVocabularies()
    ensures ReviewAdvance(Advance("K", "d", "pending", ""), Some("rejected"), None).code == 400
    ensures ReviewSimpleChange(SimpleChange("K", "d", "in_process", ""), Some("rejected"), None).code == 200
    ensures ReviewSimpleChange(SimpleChange("K", "d", "in_process", ""), Some("pending"), None).code == 400
  {
  }
}

=== FILE: fixed.dfy ===
/**
 * Fixed-point arithmetic on exact rationals.
 *
 * A Python `Decimal` with two places is an `int` counting hundredths; `quantize`
 * of an exact quotient `n / d` to the integer grid is `RoundHalfEven(n, d)`,
 * because Python's default decimal context rounds half to even.
 */
module Fixed {

  function Abs(x: int): (r: nat)
    ensures r == x || r == -x
  {
    if x < 0 then -x else x
  }

  function Max(a: int, b: int): (r: int)
    ensures r >= a && r >= b && (r == a || r == b)
  {
    if a < b then b else a
  }

  function Min(a: int, b: int): (r: int)
    ensures r <= a && r <= b && (r == a || r == b)
  {
    if a < b then a else b
  }

  /** The integer nearest to `n / d`, ties going to the even neighbour. */
  function RoundHalfEven(n: int, d: int): (q: int)
    requires d != 0
    ensures 2 * Abs(n - q * d) <= Abs(d)
    ensures 2 * Abs(n - q * d) == Abs(d) ==> q % 2 == 0
  {
    if d < 0 then
      var q := RoundHalfEvenPositive(-n, -d);
      assert -n - q * -d == -(n - q * d);
      q
    else RoundHalfEvenPositive(n, d)
  }

  function RoundHalfEvenPositive(n: int, d: int): (q: int)
    requires d > 0
    ensures 2 * Abs(n - q * d) <= d
    ensures 2 * Abs(n - q * d) == d ==> q % 2 == 0
  {
    var f := n / d;
    DivMod(n, d);
    MulAddOne(f, d);
    NearestOfTwo(n, d, f, f * d, (f + 1) * d)
  }

  /** Picks `f` or `f + 1` for `n` lying between `f * d` and `(f + 1) * d`, on the products given. */
  function NearestOfTwo(n: int, d: int, f: int, fd: int, f1d: int): (q: int)
    requires d > 0 && fd <= n < fd + d && f1d == fd + d
    ensures q == f || q == f + 1
    ensures 2 * Abs(n - (if q == f then fd else f1d)) <= d
    ensures 2 * Abs(n - (if q == f then fd else f1d)) == d ==> q % 2 == 0
  {
    var r := n - fd;
    if 2 * r < d then f
    else if 2 * r > d then f + 1
    else if f % 2 == 0 then f
    else f + 1
  }

  lemma DivMod(n: int, d: int)
    requires d > 0
    ensures (n / d) * d <= n < (n / d) * d + d
  {
  }

  lemma MulAddOne(a: int, d: int)
    ensures (a + 1) * d == a * d + d
  {
  }

  lemma MulSub(a: int, b: int, d: int)
    ensures (a - b) * d == a * d - b * d
  {
  }

  /** Any integer strictly closer than half a unit to `n / d` is the rounded quotient. */
  lemma RoundHalfEvenUnique(n: int, d: int, k: int)
    requires d != 0
    requires 2 * Abs(n - k * d) < Abs(d)
    ensures RoundHalfEven(n, d) == k
  {
    var q := RoundHalfEven(n, d);
    MulSub(q, k, d);
    CloseProducts(n, d, q * d, k * d, (q - k) * d);
    if q != k {
      AbsProductAtLeast(q - k, d);
    }
  }

  /** Two products both within half of `d` of `n` are less than `d` apart. */
  lemma CloseProducts(n: int, d: int, qd: int, kd: int, x: int)
    requires 2 * Abs(n - qd) <= Abs(d) && 2 * Abs(n - kd) < Abs(d) && x == qd - kd
    ensures Abs(x) < Abs(d)
  {
  }

  lemma AbsProductAtLeast(a: int, d: int)
    requires a != 0
    ensures Abs(a * d) >= Abs(d)
  {
    if a > 0 {
      if d >= 0 {
        assert a * d >= d;
      } else {
        assert a * d <= d;
      }
    } else {
      if d >= 0 {
        assert a * d <= -d;
      } else {
        assert a * d >= -d;
      }
    }
  }

  /** Quantizing a value already on the grid leaves it unchanged. */
  lemma RoundHalfEvenExact(k: int, d: int)
    requires d != 0
    ensures RoundHalfEven(k * d, d) == k
  {
    RoundHalfEvenUnique(k * d, d, k);
  }

  /** Quantizing a non-negative quotient never goes below zero. */
  lemma RoundHalfEvenNonNegative(n: int, d: int)
    requires n >= 0 && d > 0
    ensures RoundHalfEven(n, d) >= 0
  {
    var q := RoundHalfEven(n, d);
    if q < 0 {
      MulMonotone(q, -1, d);
    }
  }

  /** A quotient between two integers rounds to a value between them. */
  lemma RoundHalfEvenWithin(n: int, d: int, lo: int, hi: int)
    requires d > 0 && lo * d <= n <= hi * d
    ensures lo <= RoundHalfEven(n, d) <= hi
  {
    var q := RoundHalfEven(n, d);
    assert (hi + 1) * d == hi * d + d;
    assert (lo - 1) * d == lo * d - d;
    if q > hi {
      MulMonotone(hi + 1, q, d);
    }
    if q < lo {
      MulMonotone(q, lo - 1, d);
    }
  }

  /**
   * Rounding `a / b` first and then taking the distance to `p`, versus
   * rounding the exact distance once: the two results differ by at most one.
   */
  lemma DoubleRoundingNear(a: int, b: int, p: int, q: int, r: int)
    requires b > 0
    requires 2 * Abs(a - q * b) <= b
    requires 2 * Abs(Abs(a - p * b) - r * b) <= b
    ensures Abs(r - Abs(q - p)) <= 1
  {
    var y := Abs(q - p);
    ScaledDistance(q, p, b);
    TriangleStep(a, q * b, p * b, r * b, y * b, b);
    ScaledDistance(r, y, b);
    UnitBound(Abs(r - y), b);
  }

  /** The distance of two scaled integers is their scaled distance. */
  lemma ScaledDistance(x: int, y: int, b: int)
    requires b > 0
    ensures Abs(x - y) * b == Abs(x * b - y * b)
  {
    assert (x - y) * b == x * b - y * b;
    AbsScale(x - y, b);
  }

  lemma UnitBound(x: nat, b: int)
    requires b > 0 && x * b <= b
    ensures x <= 1
  {
    if x >= 2 {
      MulMonotone(2, x, b);
    }
  }

  /** The linear core of `DoubleRoundingNear`, on the scaled quantities. */
  lemma TriangleStep(a: int, qb: int, pb: int, rb: int, yb: int, b: int)
    requires 2 * Abs(a - qb) <= b
    requires 2 * Abs(Abs(a - pb) - rb) <= b
    requires yb == Abs(qb - pb)
    ensures Abs(rb - yb) <= b
  {
  }

  /** Scaling by a positive factor commutes with the absolute value. */
  lemma AbsScale(x: int, b: int)
    requires b > 0
    ensures Abs(x) * b == Abs(x * b)
  {
    if x < 0 {
      assert x * b == -((-x) * b);
    }
  }

  /** Python's `int()` on a quotient: truncation toward zero. */
  function TruncDiv(n: int, d: int): (q: int)
    requires d > 0
    ensures n >= 0 ==> 0 <= q && q * d <= n < (q + 1) * d
    ensures n < 0 ==> q <= 0 && (q - 1) * d < n <= q * d
  {
    if n >= 0 then FloorDiv(n, d) else -FloorDiv(-n, d)
  }

  function FloorDiv(n: int, d: int): (q: int)
    requires n >= 0 && d > 0
    ensures 0 <= q && q * d <= n < (q + 1) * d
    ensures (-q) * d == -(q * d) && (-q - 1) * d == -(q * d) - d
  {
    DivMod(n, d);
    MulAddOne(n / d, d);
    MulSub(0, n / d, d);
    MulSub(-(n / d), 1, d);
    n / d
  }

  /** Truncation preserves order. */
  lemma TruncDivMonotone(a: int, b: int, d: int)
    requires d > 0 && a <= b
    ensures TruncDiv(a, d) <= TruncDiv(b, d)
  {
    var qa, qb := TruncDiv(a, d), TruncDiv(b, d);
    if qa > qb {
      if b >= 0 {
        assert (qb + 1) * d <= qa * d by { MulMonotone(qb + 1, qa, d); }
      } else {
        assert qb * d <= (qa - 1) * d by { MulMonotone(qb, qa - 1, d); }
      }
    }
  }

  lemma MulMonotone(a: int, b: int, d: int)
    requires a <= b && d >= 0
    ensures a * d <= b * d
  {
    assert b * d - a * d == (b - a) * d;
  }
}

=== FILE: formatters.dfy ===
/**
 * Display helpers of the dashboard: decimal hours shown as hours and
 * minutes, and the label and colour of each health status.
 * Hours arrive as hundredths of an hour (the two decimals the API sends).
 */
module Formatters {
  import opened Wrappers
  import opened Text
  import opened TripleAxis

  /** `Math.round(hours * 60)`: the nearest whole minute, a half rounding up. */
  function RoundMinutes(h2: int): (t: int)
    ensures -5 < 6 * h2 - 10 * t <= 5
  {
    var x := 6 * h2 + 5;
    var t := x / 10;
    var m := x % 10;
    assert x == 10 * t + m && 0 <= m < 10;
    // 6 * h2 is even, so x is odd and never a multiple of 10
    assert m - 5 == 2 * (3 * h2 - 5 * t);
    t
  }

  /** "30min", "8h" or "1h 20min" for a count of minutes. */
  function RenderMinutes(total: nat): (s: string)
    ensures |s| > 0
  {
    var h := total / 60;
    var m := total % 60;
    if h == 0 then NatToString(m) + "min"
    else if m == 0 then NatToString(h) + "h"
    else NatToString(h) + "h " + NatToString(m) + "min"
  }

  /** Decimal hours as hours and minutes; nothing positive shows as "0min". */
  function FormatHoursMinutes(h2: int): (s: string)
    ensures h2 <= 0 ==> s == "0min"
    ensures |s| > 0
  {
    if h2 <= 0 then "0min" else RenderMinutes(RoundMinutes(h2))
  }

  /** Reads a rendering back into minutes: "{m}min", "{h}h" or "{h}h {m}min" with decimal digits. */
  function ReadHoursMinutes(s: string): Option<nat> {
    if EndsWith(s, "min") then
      var body := s[..|s| - 3];
      var k := IndexOf(body, 'h');
      if k < 0 then
        if |body| > 0 && AllDigits(body) then Some(DigitsValue(body)) else None
      else
        var hs := body[..k];
        if k + 1 < |body| && body[k + 1] == ' ' && |hs| > 0 && AllDigits(hs)
          && |body[k + 2..]| > 0 && AllDigits(body[k + 2..])
        then Some(60 * DigitsValue(hs) + DigitsValue(body[k + 2..]))
        else None
    else if |s| > 1 && s[|s| - 1] == 'h' && AllDigits(s[..|s| - 1]) then
      Some(60 * DigitsValue(s[..|s| - 1]))
    else None
  }

  lemma DigitsHaveNoH(d: string)
    requires AllDigits(d)
    ensures IndexOf(d, 'h') == -1
  {
    assert forall i :: 0 <= i < |d| ==> d[i] != 'h' by {
      forall i | 0 <= i < |d| ensures d[i] != 'h' { assert IsDigit(d[i]); }
    }
  }

  lemma ReadMinutesOnly(m: nat)
    ensures ReadHoursMinutes(NatToString(m) + "min") == Some(m)
  {
    var d := NatToString(m);
    var s := d + "min";
    assert s[|s| - 3..] == "min";
    assert s[..|s| - 3] == d;
    DigitsHaveNoH(d);
    NatToStringRoundTrip(m);
  }

  lemma ReadHoursOnly(h: nat)
    ensures ReadHoursMinutes(NatToString(h) + "h") == Some(60 * h)
  {
    var d := NatToString(h);
    var s := d + "h";
    assert s[|s| - 1] == 'h';
    assert !EndsWith(s, "min") by {
      assert |s| >= 3 ==> s[|s| - 3..][2] == 'h';
    }
    assert s[..|s| - 1] == d;
    NatToStringRoundTrip(h);
  }

  lemma ReadHoursAndMinutes(h: nat, m: nat)
    ensures ReadHoursMinutes(NatToString(h) + "h " + NatToString(m) + "min") == Some(60 * h + m)
  {
    var dh := NatToString(h);
    var dm := NatToString(m);
    var s := dh + "h " + dm + "min";
    var body := dh + "h " + dm;
    assert s == body + "min";
    assert s[|s| - 3..] == "min";
    assert s[..|s| - 3] == body;
    HoursBodySplits(dh, dm);
    NatToStringRoundTrip(h);
    NatToStringRoundTrip(m);
  }

  /** In "<digits>h <rest>" the first `h` ends the hour digits and the rest follows the space. */
  lemma HoursBodySplits(dh: string, dm: string)
    requires AllDigits(dh)
    ensures var body := dh + "h " + dm;
      IndexOf(body, 'h') == |dh| && body[..|dh|] == dh && body[|dh| + 1] == ' ' && body[|dh| + 2..] == dm
  {
    var body := dh + "h " + dm;
    DigitsHaveNoH(dh);
    assert body[|dh|] == 'h';
    forall j | 0 <= j < |dh| ensures body[j] != 'h' { assert body[j] == dh[j]; }
    assert body[..|dh|] == dh;
    assert body[|dh| + 2..] == dm;
  }

  /** A minute count rendered and read back is the same count. */
  lemma RenderMinutesRoundTrip(total: nat)
    ensures ReadHoursMinutes(RenderMinutes(total)) == Some(total)
  {
    var h := total / 60;
    var m := total % 60;
    assert total == 60 * h + m;
    if h == 0 {
      ReadMinutesOnly(m);
    } else if m == 0 {
      ReadHoursOnly(h);
    } else {
      ReadHoursAndMinutes(h, m);
    }
  }

  /**
   * The rendering loses nothing beyond the rounding to minutes: reading it
   * back gives exactly the rounded minute count (zero for no hours).
   */
  lemma FormatHoursMinutesRoundTrip(h2: int)
    ensures ReadHoursMinutes(FormatHoursMinutes(h2)) == Some(if h2 <= 0 then 0 else RoundMinutes(h2))
  {
    if h2 <= 0 {
      ReadMinutesOnly(0);
      assert NatToString(0) == "0";
    } else {
      RenderMinutesRoundTrip(RoundMinutes(h2));
    }
  }

  /** The examples in the helper's documentation. */
  lemma FormatHoursMinutesExamples()
    ensures FormatHoursMinutes(50) == "30min"
    ensures FormatHoursMinutes(133) == "1h 20min"
    ensures FormatHoursMinutes(387) == "3h 52min"
    ensures FormatHoursMinutes(800) == "8h"
  {
    assert RoundMinutes(50) == 30 && RoundMinutes(133) == 80;
    assert RoundMinutes(387) == 232 && RoundMinutes(800) == 480;
    RenderMinutesExamples();
  }

  /** The rendered minute counts behind the examples above. */
  lemma RenderMinutesExamples()
    ensures RenderMinutes(30) == "30min"
    ensures RenderMinutes(80) == "1h 20min"
    ensures RenderMinutes(232) == "3h 52min"
    ensures RenderMinutes(480) == "8h"
  {
    assert NatToString(3) == "3";
    assert NatToString(30) == "30";
    assert NatToString(1) == "1";
    assert NatToString(2) == "2";
    assert NatToString(20) == "20";
    assert NatToString(5) == "5";
    assert NatToString(52) == "52";
    assert NatToString(8) == "8";
  }

  /** `getHealthLabel`: each status has a Spanish label of its own. */
  function HealthLabel(h: Health): (r: string)
    ensures r == "Critico" <==> h == Critical
    ensures r == "En Riesgo" <==> h == Warning
    ensures r == "En Camino" <==> h == Healthy
  {
    match h
    case Critical => "Critico"
    case Warning => "En Riesgo"
    case Healthy => "En Camino"
  }

  predicate IsHexDigit(c: char) {
    IsDigit(c) || 'A' <= c <= 'F'
  }

  /** `getHealthColor`: each status has a CSS colour `#RRGGBB` of its own. */
  function HealthColor(h: Health): (r: string)
    ensures |r| == 7 && r[0] == '#' && forall i :: 1 <= i < 7 ==> IsHexDigit(r[i])
    ensures r == "#EF4444" <==> h == Critical
    ensures r == "#F59E0B" <==> h == Warning
    ensures r == "#10B981" <==> h == Healthy
  {
    match h
    case Critical => "#EF4444"
    case Warning => "#F59E0B"
    case Healthy => "#10B981"
  }
}

=== FILE: jira.dfy ===
/**
 * Jira story-point progress: the issue search is read page by page (100
 * issues a page) until the page end reaches the total the server reports,
 * and the story points of the fetched issues are folded into a done/total
 * percentage. Story points are hundredths; the percentage is hundredths.
 */
module Jira {
  import opened Wrappers
  import opened Fixed

  /** An issue's story points (absent when unestimated) and its status category key. */
  datatype Issue = Issue(points: Option<int>, statusCategory: string)

  const PageSize := 100

  /** Points of the estimated issues; an issue without an estimate adds nothing. */
  function TotalPoints(issues: seq<Issue>): int {
    if |issues| == 0 then 0
    else TotalPoints(issues[..|issues| - 1]) + issues[|issues| - 1].points.GetOr(0)
  }

  /** Points of the estimated issues whose status category is "done". */
  function DonePoints(issues: seq<Issue>): int {
    if |issues| == 0 then 0
    else
      var last := issues[|issues| - 1];
      DonePoints(issues[..|issues| - 1]) + (if last.statusCategory == "done" then last.points.GetOr(0) else 0)
  }

  predicate NonNegativePoints(issues: seq<Issue>) {
    forall i :: 0 <= i < |issues| ==> issues[i].points.GetOr(0) >= 0
  }

  /**
   * Issues without estimates add no points; with no issue done nothing is
   * done, and with every issue done all the points are.
   */
  lemma {:induction false} PointsMeaning(issues: seq<Issue>)
    ensures (forall i :: 0 <= i < |issues| ==> issues[i].points.None?) ==> TotalPoints(issues) == 0
    ensures (forall i :: 0 <= i < |issues| ==> issues[i].statusCategory != "done") ==> DonePoints(issues) == 0
    ensures (forall i :: 0 <= i < |issues| ==> issues[i].statusCategory == "done") ==> DonePoints(issues) == TotalPoints(issues)
  {
    if |issues| > 0 {
      var init := issues[..|issues| - 1];
      PointsMeaning(init);
      assert forall i :: 0 <= i < |init| ==> init[i] == issues[i];
    }
  }

  /** Done points never exceed total points, and neither is negative, when no issue has negative points. */
  lemma {:induction false} DoneWithinTotal(issues: seq<Issue>)
    requires NonNegativePoints(issues)
    ensures 0 <= DonePoints(issues) <= TotalPoints(issues)
  {
    if |issues| > 0 {
      DoneWithinTotal(issues[..|issues| - 1]);
    }
  }

  /** Both folds split over concatenation. */
  lemma {:induction false} PointsAppend(a: seq<Issue>, b: seq<Issue>)
    ensures TotalPoints(a + b) == TotalPoints(a) + TotalPoints(b)
    ensures DonePoints(a + b) == DonePoints(a) + DonePoints(b)
    decreases |b|
  {
    if |b| == 0 {
      assert a + b == a;
    } else {
      assert (a + b)[..|a + b| - 1] == a + b[..|b| - 1];
      assert (a + b)[|a + b| - 1] == b[|b| - 1];
      PointsAppend(a, b[..|b| - 1]);
    }
  }

  /** Done over total as a percentage in hundredths, quantized; 0 when nothing is estimated. */
  function Progress(done: int, total: int): (r: int)
    ensures total == 0 ==> r == 0
    ensures total != 0 ==> 2 * Abs(done * 10000 - r * total) <= Abs(total)
    ensures total != 0 && 2 * Abs(done * 10000 - r * total) == Abs(total) ==> r % 2 == 0
  {
    if total == 0 then 0 else RoundHalfEven(done * 10000, total)
  }

  /** With non-negative points, progress lies between 0 and 100 %. */
  lemma ProgressInRange(issues: seq<Issue>)
    requires NonNegativePoints(issues)
    ensures 0 <= Progress(DonePoints(issues), TotalPoints(issues)) <= 10000
  {
    var done, total := DonePoints(issues), TotalPoints(issues);
    DoneWithinTotal(issues);
    if total != 0 {
      MulMonotone(done, total, 10000);
      RoundHalfEvenWithin(done * 10000, total, 0, 10000);
    }
  }

  /** The first `n` issues, or all of them. */
  function Take(issues: seq<Issue>, n: int): (r: seq<Issue>)
    ensures |r| == if n <= 0 then 0 else Min(n, |issues|)
  {
    if n <= 0 then [] else if n >= |issues| then issues else issues[..n]
  }

  /** The page the search returns for `startAt`. */
  function Page(issues: seq<Issue>, start: int): seq<Issue>
    requires start >= 0
  {
    if start >= |issues| then [] else issues[start..Min(start + PageSize, |issues|)]
  }

  lemma TakeThenPage(issues: seq<Issue>, start: int)
    requires start >= 0
    ensures Take(issues, start) + Page(issues, start) == Take(issues, start + PageSize)
  {
    if start < |issues| && start + PageSize < |issues| {
      assert issues[..start] + issues[start..start + PageSize] == issues[..start + PageSize];
    } else if start < |issues| {
      assert issues[..start] + issues[start..] == issues;
    }
  }

  /** How many pages the loop requests: at least one, then until the page end reaches the total. */
  function PagesRequested(reportedTotal: int): (p: int)
    ensures p >= 1
    ensures p * PageSize >= reportedTotal
    ensures p == 1 || (p - 1) * PageSize < reportedTotal
  {
    if reportedTotal <= PageSize then 1 else (reportedTotal + PageSize - 1) / PageSize
  }

  /** The loop's page count is the only one meeting the stopping rule. */
  lemma PagesRequestedUnique(p: int, reportedTotal: int)
    requires p >= 1 && p * PageSize >= reportedTotal
    requires p == 1 || (p - 1) * PageSize < reportedTotal
    ensures p == PagesRequested(reportedTotal)
  {
  }

  /** Reading the page at `start` extends the sums over the issues before it to those before the next page. */
  lemma FetchStep(issues: seq<Issue>, start: int)
    requires start >= 0
    ensures TotalPoints(Take(issues, start + PageSize)) == TotalPoints(Take(issues, start)) + TotalPoints(Page(issues, start))
    ensures DonePoints(Take(issues, start + PageSize)) == DonePoints(Take(issues, start)) + DonePoints(Page(issues, start))
  {
    PointsAppend(Take(issues, start), Page(issues, start));
    TakeThenPage(issues, start);
  }

  /** Adds one page's points to the running sums, issue by issue. */
  method AddPage(page: seq<Issue>, total0: int, done0: int) returns (total: int, done: int)
    ensures total == total0 + TotalPoints(page) && done == done0 + DonePoints(page)
  {
    total, done := total0, done0;
    var i := 0;
    assert page[..0] == [];
    while i < |page|
      invariant 0 <= i <= |page|
      invariant total == total0 + TotalPoints(page[..i]) && done == done0 + DonePoints(page[..i])
    {
      assert page[..i + 1][..i] == page[..i];
      match page[i].points {
        case Some(sp) =>
          total := total + sp;
          if page[i].statusCategory == "done" {
            done := done + sp;
          }
        case None =>
      }
      i := i + 1;
    }
    assert page[..|page|] == page;
  }

  /** The paging loop: the sums over the issues of every page it requested. */
  method FetchPages(issues: seq<Issue>, reportedTotal: int) returns (total: int, done: int, pages: int)
    ensures pages == PagesRequested(reportedTotal)
    ensures total == TotalPoints(Take(issues, pages * PageSize))
    ensures done == DonePoints(Take(issues, pages * PageSize))
  {
    total, done := 0, 0;
    var start := 0;
    pages := 0;
    while true
      invariant start == pages * PageSize && pages >= 0
      invariant pages == 0 || start < reportedTotal
      invariant total == TotalPoints(Take(issues, start)) && done == DonePoints(Take(issues, start))
      decreases reportedTotal - start
    {
      total, done := FetchPage(issues, start, total, done);
      MulAddOne(pages, PageSize);
      pages := pages + 1;
      assert pages * PageSize == start + PageSize;
      if start + PageSize >= reportedTotal {
        assert Take(issues, pages * PageSize) == Take(issues, start + PageSize);
        break;
      }
      start := start + PageSize;
    }
    PagesRequestedUnique(pages, reportedTotal);
  }

  /** One request: the page at `start` added to the sums over the issues before it. */
  method FetchPage(issues: seq<Issue>, start: int, total0: int, done0: int) returns (total: int, done: int)
    requires start >= 0
    requires total0 == TotalPoints(Take(issues, start)) && done0 == DonePoints(Take(issues, start))
    ensures total == TotalPoints(Take(issues, start + PageSize)) && done == DonePoints(Take(issues, start + PageSize))
  {
    FetchStep(issues, start);
    total, done := AddPage(Page(issues, start), total0, done0);
  }

  /**
   * `fetch_project_progress` against a server holding `issues` and reporting
   * `reportedTotal`: the progress of the issues it actually fetched.
   */
  method FetchProjectProgress(issues: seq<Issue>, reportedTotal: int) returns (progress: int, pages: int)
    ensures pages == PagesRequested(reportedTotal)
    ensures var fetched := Take(issues, pages * PageSize);
      progress == Progress(DonePoints(fetched), TotalPoints(fetched))
  {
    var total, done;
    total, done, pages := FetchPages(issues, reportedTotal);
    progress := Progress(done, total);
  }

  /** When the reported total is the number of issues, every issue is fetched. */
  lemma FetchCoversAll(issues: seq<Issue>)
    ensures Take(issues, PagesRequested(|issues|) * PageSize) == issues
  {
  }

  /** A search that reports no issues still costs one request. */
  lemma EmptySearchOnePage()
    ensures PagesRequested(0) == 1
    ensures Progress(DonePoints([]), TotalPoints([])) == 0
  {
  }

  /** Unestimated issues count on neither side: 8 of 10 estimated points done is 80 %. */
  lemma ProgressExample()
    ensures var issues := [Issue(Some(800), "done"), Issue(None, "done"), Issue(Some(200), "indeterminate")];
      Progress(DonePoints(issues), TotalPoints(issues)) == 8000
  {
    var issues := [Issue(Some(800), "done"), Issue(None, "done"), Issue(Some(200), "indeterminate")];
    var one, two := [issues[0]], [issues[0], issues[1]];
    assert one[..0] == [];
    assert two[..1] == one;
    assert issues[..2] == two;
    assert TotalPoints(one) == 800 && DonePoints(one) == 800;
    assert TotalPoints(two) == 800 && DonePoints(two) == 800;
    assert TotalPoints(issues) == 1000;
    assert DonePoints(issues) == 800;
    RoundHalfEvenExact(8000, 1000);
  }
}

=== FILE: seqs.dfy ===
/**
 * Order-preserving filters, described by the positions they keep: a filter
 * of `s` under marks `m` (one per element) is the sequence of the marked
 * elements, in their order.
 */
module Seqs {

  /** The indices `i` with `marks[i]`, in increasing order and each exactly once. */
  function Positions(marks: seq<bool>): (idx: seq<nat>)
    ensures forall j :: 0 <= j < |idx| ==> idx[j] < |marks| && marks[idx[j]]
    ensures forall j, k :: 0 <= j < k < |idx| ==> idx[j] < idx[k]
  {
    if |marks| == 0 then []
    else
      var n := |marks| - 1;
      var init := Positions(marks[..n]);
      assert forall j :: 0 <= j < |init| ==> marks[..n][init[j]] == marks[init[j]];
      init + (if marks[n] then [n] else [])
  }

  /** No marked index is left out. */
  lemma {:induction false} PositionsComplete(marks: seq<bool>)
    ensures forall i :: 0 <= i < |marks| && marks[i] ==> i in Positions(marks)
  {
    if |marks| > 0 {
      var n := |marks| - 1;
      PositionsComplete(marks[..n]);
      assert forall i :: 0 <= i < n && marks[i] ==> marks[..n][i];
    }
  }

  /** The set of marked indices. */
  function Marked(marks: seq<bool>): set<int> {
    set i | 0 <= i < |marks| && marks[i]
  }

  /** The last mark adds its own index, if set, to the marks before it. */
  lemma MarkedSnoc(marks: seq<bool>)
    requires |marks| > 0
    ensures var n := |marks| - 1;
      Marked(marks) == Marked(marks[..n]) + (if marks[n] then {n} else {}) && n !in Marked(marks[..n])
  {
    var n := |marks| - 1;
    var init := marks[..n];
    var a := Marked(init);
    var c := if marks[n] then {n} else {};
    forall i | i in Marked(marks) ensures i in a + c {
      if i < n {
        assert init[i] == marks[i];
      }
    }
    forall i | i in a + c ensures i in Marked(marks) {
      if i in a {
        assert init[i] == marks[i];
      }
    }
  }

  /** A filter keeps exactly as many elements as there are marks. */
  lemma {:induction false} PositionsCount(marks: seq<bool>)
    ensures |Positions(marks)| == |Marked(marks)|
  {
    if |marks| > 0 {
      var n := |marks| - 1;
      PositionsCount(marks[..n]);
      MarkedSnoc(marks);
    }
  }

  /** `r` is the filter of `s` under `marks`: the marked elements of `s`, in order. */
  ghost predicate Keeps<T>(r: seq<T>, s: seq<T>, marks: seq<bool>) {
    |marks| == |s| && |r| == |Positions(marks)|
      && forall j :: 0 <= j < |r| ==> r[j] == s[Positions(marks)[j]]
  }

  /** Appending one element extends the filter by that element exactly when it is marked. */
  lemma KeepsSnoc<T>(r: seq<T>, s: seq<T>, marks: seq<bool>, x: T, b: bool)
    requires Keeps(r, s, marks)
    ensures Keeps(r + (if b then [x] else []), s + [x], marks + [b])
  {
    var m := marks + [b];
    assert m[..|marks|] == marks;
    var r' := r + (if b then [x] else []);
    forall j | 0 <= j < |r'|
      ensures r'[j] == (s + [x])[Positions(m)[j]]
    {
      if j < |r| {
        assert Positions(m)[j] == Positions(marks)[j];
      }
    }
  }

  /** `KeepsSnoc` restated for a sequence and marks already split at their last element. */
  lemma KeepsLast<T>(r: seq<T>, s: seq<T>, marks: seq<bool>, r0: seq<T>)
    requires |s| > 0 && |marks| == |s|
    requires Keeps(r0, s[..|s| - 1], marks[..|s| - 1])
    requires r == r0 + (if marks[|s| - 1] then [s[|s| - 1]] else [])
    ensures Keeps(r, s, marks)
  {
    var n := |s| - 1;
    KeepsSnoc(r0, s[..n], marks[..n], s[n], marks[n]);
    assert s[..n] + [s[n]] == s;
    assert marks[..n] + [marks[n]] == marks;
  }

  /** Every element of a filter is a marked element of the source, and every marked element is kept. */
  lemma KeepsMembers<T>(r: seq<T>, s: seq<T>, marks: seq<bool>)
    requires Keeps(r, s, marks)
    ensures forall x :: x in r ==> exists i :: 0 <= i < |s| && marks[i] && s[i] == x
    ensures forall i :: 0 <= i < |s| && marks[i] ==> s[i] in r
  {
    var idx := Positions(marks);
    PositionsComplete(marks);
    forall x | x in r
      ensures exists i :: 0 <= i < |s| && marks[i] && s[i] == x
    {
      var j :| 0 <= j < |r| && r[j] == x;
      var i := idx[j];
      assert 0 <= i < |s| && marks[i] && s[i] == x;
    }
    forall i | 0 <= i < |s| && marks[i]
      ensures s[i] in r
    {
      var j :| 0 <= j < |idx| && idx[j] == i;
      assert r[j] == s[i];
    }
  }
}

=== FILE: serializers.dfy ===
/**
 * Derived project metrics the API computes on read: the consumption and
 * progress getters, the portfolio deviation, the change-request impact of a
 * phase, and the write validators for anticipo and invoice uploads.
 *
 * Units follow the engine: percentages and money in hundredths, logged hours
 * in ten-thousandths, change-request hours in hundredths.
 */
module Serializers {
  import opened Wrappers
  import opened Fixed
  import opened Text
  import opened TripleAxis
  import opened Seqs

  // ---------------------------------------------------------------------
  // Getters
  // ---------------------------------------------------------------------

  /** `get_consumption_percent`: the same guarded, quantized ratio the engine records. */
  function ConsumptionGetter(p: Project): (r: int)
    ensures r == ConsumptionPercent(p.budgetHours, p.entries)
    ensures p.budgetHours == 0 ==> r == 0
  {
    if p.budgetHours == 0 then 0
    else RoundHalfEven(ConsumedHours(p.entries) * 100, p.budgetHours)
  }

  /** A snapshot with the greatest timestamp; on ties the earliest listed one. */
  function Latest(snaps: seq<Snapshot>): (r: Option<Snapshot>)
    ensures r.None? <==> |snaps| == 0
    ensures r.Some? ==> r.value in snaps
    ensures r.Some? ==> forall i :: 0 <= i < |snaps| ==> snaps[i].timestamp <= r.value.timestamp
  {
    if |snaps| == 0 then None
    else
      match Latest(snaps[..|snaps| - 1])
      case None => Some(snaps[|snaps| - 1])
      case Some(s) =>
        if snaps[|snaps| - 1].timestamp > s.timestamp then Some(snaps[|snaps| - 1]) else Some(s)
  }

  /** `get_progress_percent`: the latest snapshot's progress, or 0 when there is none. */
  function ProgressGetter(snaps: seq<Snapshot>): (r: int)
    ensures |snaps| == 0 ==> r == 0
    ensures |snaps| > 0 ==>
      exists i :: 0 <= i < |snaps| && r == snaps[i].progressPercent
        && forall j :: 0 <= j < |snaps| ==> snaps[j].timestamp <= snaps[i].timestamp
  {
    match Latest(snaps)
    case None => 0
    case Some(s) => s.progressPercent
  }

  /**
   * `get_deviation`: the distance between consumption and progress, quantized
   * once at the end. The consumption here is the unquantized ratio, and it is
   * taken as 0 unless the budget is positive.
   */
  function Deviation(p: Project, snaps: seq<Snapshot>): (r: int)
    ensures r >= 0
    ensures p.budgetHours <= 0 ==> r == Abs(ProgressGetter(snaps))
    ensures p.budgetHours > 0 ==>
      2 * Abs(Abs(ConsumedHours(p.entries) * 100 - ProgressGetter(snaps) * p.budgetHours) - r * p.budgetHours)
        <= p.budgetHours
    ensures p.budgetHours > 0 ==>
      var dist := 2 * Abs(Abs(ConsumedHours(p.entries) * 100 - ProgressGetter(snaps) * p.budgetHours) - r * p.budgetHours);
      dist == p.budgetHours ==> r % 2 == 0
  {
    var progress := ProgressGetter(snaps);
    if p.budgetHours > 0 then
      var n := Abs(ConsumedHours(p.entries) * 100 - progress * p.budgetHours);
      RoundHalfEvenNonNegative(n, p.budgetHours);
      RoundHalfEven(n, p.budgetHours)
    else Abs(progress)
  }

  /**
   * Rounding once (the deviation) and rounding first (the engine's quantized
   * consumption) differ by at most one hundredth.
   */
  lemma DeviationNearEngine(p: Project, snaps: seq<Snapshot>)
    requires p.budgetHours > 0
    ensures Abs(Deviation(p, snaps) - Abs(ConsumptionPercent(p.budgetHours, p.entries) - ProgressGetter(snaps))) <= 1
  {
    DoubleRoundingNear(ConsumedHours(p.entries) * 100, p.budgetHours, ProgressGetter(snaps),
      ConsumptionPercent(p.budgetHours, p.entries), Deviation(p, snaps));
  }

  /** The portfolio deviation of the engine's two axes; 60 % against 40 % yields 20.00. */
  lemma DeviationExample()
    ensures Deviation(
      Project("P", 10000, 0, [TimeEntry(600000, 0, 0)], Healthy),
      [Snapshot(1, 0, 4000, 0, 0, Warning, 70)]) == 2000
  {
    var p := Project("P", 10000, 0, [TimeEntry(600000, 0, 0)], Healthy);
    var snaps := [Snapshot(1, 0, 4000, 0, 0, Warning, 70)];
    assert ConsumedHours(p.entries) == 600000 by {
      assert p.entries[..0] == [];
    }
    assert Latest(snaps) == Some(snaps[0]) by {
      assert snaps[..0] == [];
    }
    RoundHalfEvenExact(2000, 10000);
  }

  // ---------------------------------------------------------------------
  // Change-request impact of a phase
  // ---------------------------------------------------------------------

  datatype CrStatus = InReview | Accepted | ToStart | InProcess | PendingAcceptance | Completed

  /** The statuses whose impacts count; a change request still in review does not. */
  predicate Counts(s: CrStatus) {
    s != InReview
  }

  /** One change request's impact on a phase, with the change request's billing fields. */
  datatype Impact = Impact(status: CrStatus, hours: int, isCharged: bool, chargedAmount: Option<int>)

  /**
   * The hourly rate as the exact fraction `num / den` of hundredths of money
   * per hundredth of an hour (that is, money per hour); `den` is positive.
   */
  datatype Rate = Rate(num: int, den: int)

  /** Cost per hour from the project's aggregates, or 500 when nothing has been logged. */
  function HourlyRate(consumed: int, actualCost: int): (r: Rate)
    ensures r.den > 0
    ensures consumed > 0 ==> r.num * consumed == 100 * actualCost * r.den
    ensures consumed <= 0 ==> r.num == 500 * r.den
  {
    if consumed > 0 then Rate(actualCost * 100, consumed) else Rate(500, 1)
  }

  /** A charged amount stands in for the computed cost only when it is set and non-zero. */
  predicate HasChargedAmount(imp: Impact) {
    imp.chargedAmount.Some? && imp.chargedAmount.value != 0
  }

  /** One mark per impact: whether its change request's status counts. */
  function CountingMarks(impacts: seq<Impact>): (m: seq<bool>)
    ensures |m| == |impacts| && forall i :: 0 <= i < |impacts| ==> m[i] == Counts(impacts[i].status)
  {
    seq(|impacts|, i requires 0 <= i < |impacts| => Counts(impacts[i].status))
  }

  /** The impacts that count, all of them and only them, in their order. */
  function CountedImpacts(impacts: seq<Impact>): (r: seq<Impact>)
    ensures |r| <= |impacts|
    ensures forall i :: 0 <= i < |r| ==> Counts(r[i].status) && r[i] in impacts
    ensures (forall i :: 0 <= i < |impacts| ==> Counts(impacts[i].status)) ==> r == impacts
  {
    if |impacts| == 0 then []
    else
      var init := impacts[..|impacts| - 1];
      var last := impacts[|impacts| - 1];
      CountedImpacts(init) + (if Counts(last.status) then [last] else [])
  }

  /** The counted impacts are exactly the impacts whose status counts, in their order. */
  lemma {:induction false} CountedImpactsFilter(impacts: seq<Impact>)
    ensures Keeps(CountedImpacts(impacts), impacts, CountingMarks(impacts))
  {
    if |impacts| > 0 {
      var init := impacts[..|impacts| - 1];
      var last := impacts[|impacts| - 1];
      CountedImpactsFilter(init);
      KeepsSnoc(CountedImpacts(init), init, CountingMarks(init), last, Counts(last.status));
      assert init + [last] == impacts;
      assert CountingMarks(init) + [Counts(last.status)] == CountingMarks(impacts);
    }
  }

  /** The count of counted impacts is the number of impacts whose status counts. */
  lemma CountedImpactsCount(impacts: seq<Impact>)
    ensures |CountedImpacts(impacts)| == |set i | 0 <= i < |impacts| && Counts(impacts[i].status)|
  {
    var m := CountingMarks(impacts);
    CountedImpactsFilter(impacts);
    PositionsCount(m);
    assert Marked(m) == set i | 0 <= i < |impacts| && Counts(impacts[i].status);
  }

  /** Running totals: hours, then the charged and absorbed money scaled by the rate's denominator. */
  datatype Totals = Totals(hours: int, charged: int, absorbed: int)

  function Plus(a: Totals, b: Totals): Totals {
    Totals(a.hours + b.hours, a.charged + b.charged, a.absorbed + b.absorbed)
  }

  /**
   * What one impact adds: nothing unless its status counts; otherwise its
   * hours, and its cost (hours times rate) to the absorbed total, or, for a
   * charged change request, to the charged total, where a set, non-zero
   * charged amount replaces the cost.
   */
  function Contribution(imp: Impact, rate: Rate): (t: Totals)
    ensures !Counts(imp.status) ==> t == Totals(0, 0, 0)
    ensures Counts(imp.status) ==> t.hours == imp.hours
    ensures Counts(imp.status) && !imp.isCharged ==> t.charged == 0 && t.absorbed == imp.hours * rate.num
    ensures Counts(imp.status) && imp.isCharged ==> t.absorbed == 0
    ensures Counts(imp.status) && imp.isCharged && HasChargedAmount(imp) ==> t.charged == imp.chargedAmount.value * rate.den
    ensures Counts(imp.status) && imp.isCharged && !HasChargedAmount(imp) ==> t.charged == imp.hours * rate.num
  {
    if !Counts(imp.status) then Totals(0, 0, 0)
    else if imp.isCharged then
      Totals(imp.hours, if HasChargedAmount(imp) then imp.chargedAmount.value * rate.den else imp.hours * rate.num, 0)
    else Totals(imp.hours, 0, imp.hours * rate.num)
  }

  /** The loop over the impacts: each contributes once, in order. */
  function ImpactTotals(impacts: seq<Impact>, rate: Rate): (t: Totals)
    ensures (forall i :: 0 <= i < |impacts| ==> !impacts[i].isCharged) ==> t.charged == 0
    ensures (forall i :: 0 <= i < |impacts| ==> impacts[i].isCharged) ==> t.absorbed == 0
  {
    if |impacts| == 0 then Totals(0, 0, 0)
    else Plus(ImpactTotals(impacts[..|impacts| - 1], rate), Contribution(impacts[|impacts| - 1], rate))
  }

  /** Appending an impact adds exactly its contribution to the totals so far. */
  lemma ImpactTotalsStep(impacts: seq<Impact>, imp: Impact, rate: Rate)
    ensures ImpactTotals(impacts + [imp], rate) == Plus(ImpactTotals(impacts, rate), Contribution(imp, rate))
  {
    assert (impacts + [imp])[..|impacts|] == impacts;
  }

  /** The totals split over any concatenation: the order of the impacts does not matter to them. */
  lemma {:induction false} ImpactTotalsAppend(a: seq<Impact>, b: seq<Impact>, rate: Rate)
    ensures ImpactTotals(a + b, rate) == Plus(ImpactTotals(a, rate), ImpactTotals(b, rate))
    decreases |b|
  {
    if |b| == 0 {
      assert a + b == a;
    } else {
      var init := b[..|b| - 1];
      var last := b[|b| - 1];
      assert a + b == (a + init) + [last];
      assert b == init + [last];
      ImpactTotalsAppend(a, init, rate);
      ImpactTotalsStep(a + init, last, rate);
      ImpactTotalsStep(init, last, rate);
    }
  }

  /** The sum of hours over a sequence of impacts. */
  function SumHours(impacts: seq<Impact>): int {
    if |impacts| == 0 then 0 else SumHours(impacts[..|impacts| - 1]) + impacts[|impacts| - 1].hours
  }

  /** Without charged-amount overrides, the two money totals split the total cost and nothing is lost. */
  lemma {:induction false} TotalsConserveCost(impacts: seq<Impact>, rate: Rate)
    requires forall i :: 0 <= i < |impacts| ==> !HasChargedAmount(impacts[i])
    ensures ImpactTotals(impacts, rate).charged + ImpactTotals(impacts, rate).absorbed
      == ImpactTotals(impacts, rate).hours * rate.num
  {
    if |impacts| > 0 {
      var init := impacts[..|impacts| - 1];
      var imp := impacts[|impacts| - 1];
      assert forall i :: 0 <= i < |init| ==> init[i] == impacts[i];
      TotalsConserveCost(init, rate);
      var t := ImpactTotals(init, rate);
      var c := Contribution(imp, rate);
      assert !HasChargedAmount(imp) by {
        assert impacts[|impacts| - 1] == imp;
      }
      if Counts(imp.status) {
        assert c.charged + c.absorbed == c.hours * rate.num;
      } else {
        assert c == Totals(0, 0, 0);
      }
      assert (t.hours + c.hours) * rate.num == t.hours * rate.num + c.hours * rate.num;
    }
  }

  /** The hours total is the sum over the counted impacts. */
  lemma {:induction false} TotalHoursAreCounted(impacts: seq<Impact>, rate: Rate)
    ensures ImpactTotals(impacts, rate).hours == SumHours(CountedImpacts(impacts))
  {
    if |impacts| > 0 {
      var init := impacts[..|impacts| - 1];
      var last := impacts[|impacts| - 1];
      TotalHoursAreCounted(init, rate);
      var c := CountedImpacts(init);
      if Counts(last.status) {
        assert (c + [last])[..|c + [last]| - 1] == c;
      } else {
        assert c + [] == c;
      }
    }
  }

  /** What the phase serializer reports: items, quantized totals and the item count. */
  datatype CrImpact = CrImpact(items: seq<Impact>, totalHours: int, totalCharged: int, totalAbsorbed: int, count: int)

  /** `get_cr_impact` over the phase's impacts and the project's time-entry aggregates. */
  function CrImpactOf(impacts: seq<Impact>, consumed: int, actualCost: int): (r: CrImpact)
    ensures r.items == CountedImpacts(impacts) && r.count == |r.items|
    ensures r.totalHours == SumHours(r.items)
    ensures var rate := HourlyRate(consumed, actualCost);
      var t := ImpactTotals(impacts, rate);
      2 * Abs(t.charged - r.totalCharged * rate.den) <= rate.den
        && 2 * Abs(t.absorbed - r.totalAbsorbed * rate.den) <= rate.den
    ensures var rate := HourlyRate(consumed, actualCost);
      var t := ImpactTotals(impacts, rate);
      (2 * Abs(t.charged - r.totalCharged * rate.den) == rate.den ==> r.totalCharged % 2 == 0)
        && (2 * Abs(t.absorbed - r.totalAbsorbed * rate.den) == rate.den ==> r.totalAbsorbed % 2 == 0)
  {
    var rate := HourlyRate(consumed, actualCost);
    var t := ImpactTotals(impacts, rate);
    TotalHoursAreCounted(impacts, rate);
    CrImpact(CountedImpacts(impacts), t.hours,
      RoundHalfEven(t.charged, rate.den), RoundHalfEven(t.absorbed, rate.den),
      |CountedImpacts(impacts)|)
  }

  /** Adding an impact of a change request still in review changes nothing. */
  lemma InReviewIgnored(impacts: seq<Impact>, imp: Impact, consumed: int, actualCost: int)
    requires imp.status == InReview
    ensures CrImpactOf(impacts + [imp], consumed, actualCost) == CrImpactOf(impacts, consumed, actualCost)
  {
    var s := impacts + [imp];
    assert s[..|s| - 1] == impacts;
    assert CountedImpacts(s) == CountedImpacts(impacts) + [];
  }

  /** With no time logged, 4 absorbed hours cost 500 each: 2000.00. */
  lemma DefaultRateExample()
    ensures CrImpactOf([Impact(Accepted, 400, false, None)], 0, 0).totalAbsorbed == 200000
  {
    var s := [Impact(Accepted, 400, false, None)];
    OneAbsorbedImpact();
    RoundHalfEvenExact(200000, 1);
    assert CrImpactOf(s, 0, 0).totalAbsorbed == RoundHalfEven(200000, 1);
  }

  /** The totals behind the example above: 4 hours at the default 500 per hour. */
  lemma OneAbsorbedImpact()
    ensures HourlyRate(0, 0) == Rate(500, 1)
    ensures ImpactTotals([Impact(Accepted, 400, false, None)], Rate(500, 1)) == Totals(400, 0, 200000)
  {
    var s := [Impact(Accepted, 400, false, None)];
    assert s[..0] == [];
    assert Contribution(s[0], Rate(500, 1)) == Totals(400, 0, 200000);
  }

  // ---------------------------------------------------------------------
  // Validators
  // ---------------------------------------------------------------------

  /** An uploaded file: its name and size in bytes. */
  datatype Upload = Upload(name: string, size: int)

  datatype UploadError = NotPdf | TooLarge

  const MaxUploadBytes: int := 10 * 1024 * 1024

  /** An upload is falsy when it has no name. */
  predicate Present(f: Option<Upload>) {
    f.Some? && f.value.name != ""
  }

  /** The PDF check comes first, then the 10 MB limit; a missing file passes untouched. */
  function ValidateUpload(f: Option<Upload>): (r: Result<Option<Upload>, UploadError>)
    ensures r.Ok? ==> r.value == f
    ensures r.Ok? <==> !Present(f) || (EndsWith(Lower(f.value.name), ".pdf") && f.value.size <= MaxUploadBytes)
    ensures r == Err(NotPdf) <==> Present(f) && !EndsWith(Lower(f.value.name), ".pdf")
  {
    if Present(f) && !EndsWith(Lower(f.value.name), ".pdf") then Err(NotPdf)
    else if Present(f) && f.value.size > MaxUploadBytes then Err(TooLarge)
    else Ok(f)
  }

  /** The PDF test ignores case, and the limit is inclusive. */
  lemma UploadExamples()
    ensures ValidateUpload(Some(Upload("FACTURA.PDF", MaxUploadBytes))).Ok?
    ensures ValidateUpload(Some(Upload("factura.pdf", MaxUploadBytes + 1))) == Err(TooLarge)
    ensures ValidateUpload(Some(Upload("factura.pdf.exe", 10))) == Err(NotPdf)
  {
    assert Lower("FACTURA.PDF") == "factura.pdf";
    assert Lower("factura.pdf") == "factura.pdf";
    assert Lower("factura.pdf.exe") == "factura.pdf.exe";
  }

  datatype AmountError = NotPositive

  /** An anticipo amount must be strictly positive. */
  function ValidateAnticipoAmount(amount: int): (r: Result<int, AmountError>)
    ensures r.Ok? <==> amount > 0
    ensures r.Ok? ==> r.value == amount
  {
    if amount <= 0 then Err(NotPositive) else Ok(amount)
  }
}

=== FILE: sidebar.dfy ===
/**
 * The navigation sidebar: which entries a user sees, and which entry is
 * highlighted for the current path. The permission flags come from the
 * current-user endpoint, built from the user's profile.
 */
module Sidebar {
  import opened Wrappers
  import opened Text
  import opened Profiles

  datatype PermKey = SeePortfolio | SeeProjects | SeePersonal | ManageBillingRoles | SeeFinancials

  datatype Permissions = Permissions(
    canSeePortfolio: bool,
    canSeeProjects: bool,
    canSeePersonal: bool,
    canManageBillingRoles: bool,
    canSeeFinancials: bool)

  function Granted(p: Permissions, k: PermKey): bool {
    match k
    case SeePortfolio => p.canSeePortfolio
    case SeeProjects => p.canSeeProjects
    case SeePersonal => p.canSeePersonal
    case ManageBillingRoles => p.canManageBillingRoles
    case SeeFinancials => p.canSeeFinancials
  }

  /**
   * The flags of the current-user response: a profile's own flags with
   * projects always visible; a user without a profile gets every flag.
   */
  function PermissionsFor(profile: Option<UserProfile>): (p: Permissions)
    ensures p.canSeeProjects
    ensures profile.None? ==> forall k :: Granted(p, k)
    ensures profile.Some? ==> (p.canSeeFinancials <==> profile.value.organization.orgType == Internal)
    ensures profile.Some? ==> (p.canSeePortfolio <==> profile.value.role == Director || profile.value.role == Admin)
    ensures profile.Some? ==> (p.canSeePersonal <==> profile.value.role == PM || profile.value.role == Admin)
    ensures profile.Some? ==> (p.canManageBillingRoles <==> profile.value.role == Admin)
  {
    match profile
    case None => Permissions(true, true, true, true, true)
    case Some(pr) =>
      Permissions(CanSeePortfolio(pr), true, CanSeePersonal(pr), CanManageBillingRoles(pr), CanSeeFinancials(pr))
  }

  datatype NavItem = NavItem(href: string, title: string, permKey: Option<PermKey>)

  const AllNavItems: seq<NavItem> := [
    NavItem("/", "Resumen General", Some(SeePortfolio)),
    NavItem("/projects", "Proyectos", Some(SeeProjects)),
    NavItem("/personal", "Personal", Some(SeePersonal)),
    NavItem("/billing-roles", "Configuracion", Some(ManageBillingRoles))
  ]

  predicate Shown(p: Permissions, item: NavItem) {
    item.permKey.None? || Granted(p, item.permKey.value)
  }

  /** `a` is `b` with some elements deleted, the rest in their order. */
  predicate SubsequenceOf<T(==)>(a: seq<T>, b: seq<T>)
    decreases |b|
  {
    if |a| == 0 then true
    else if |b| == 0 then false
    else (a[0] == b[0] && SubsequenceOf(a[1..], b[1..])) || SubsequenceOf(a, b[1..])
  }

  /** The entries the flags allow, in menu order. */
  function Allowed(p: Permissions, items: seq<NavItem>): (r: seq<NavItem>)
    ensures SubsequenceOf(r, items)
    ensures forall x :: x in r <==> x in items && Shown(p, x)
    decreases |items|
  {
    if |items| == 0 then []
    else
      var rest := Allowed(p, items[1..]);
      assert forall x :: x in items <==> x == items[0] || x in items[1..];
      if Shown(p, items[0]) then
        var r := [items[0]] + rest;
        assert r[0] == items[0] && r[1..] == rest;
        r
      else rest
  }

  /** Before the user is known every entry shows; afterwards only the allowed ones, in menu order. */
  function VisibleItems(perms: Option<Permissions>): (r: seq<NavItem>)
    ensures perms.None? ==> r == AllNavItems
    ensures SubsequenceOf(r, AllNavItems)
    ensures perms.Some? ==> forall x :: x in r <==> x in AllNavItems && Shown(perms.value, x)
  {
    if perms.None? then
      assert SubsequenceOf(AllNavItems, AllNavItems) by { SubsequenceReflexive(AllNavItems); }
      AllNavItems
    else Allowed(perms.value, AllNavItems)
  }

  lemma {:induction false} SubsequenceReflexive<T>(s: seq<T>)
    ensures SubsequenceOf(s, s)
    decreases |s|
  {
    if |s| > 0 {
      SubsequenceReflexive(s[1..]);
    }
  }

  /** A client-role profile shows the project list and nothing else. */
  lemma ClientSeesOnlyProjects(pr: UserProfile)
    requires pr.role == ClientRole
    ensures VisibleItems(Some(PermissionsFor(Some(pr)))) == [AllNavItems[1]]
  {
    var p := PermissionsFor(Some(pr));
    ProfileFlags(pr);
    var items := AllNavItems;
    assert items[3..][1..] == [];
    assert items[2..][1..] == items[3..];
    assert items[1..][1..] == items[2..];
    assert Allowed(p, items[3..]) == [];
    assert Allowed(p, items[2..]) == [];
    assert Allowed(p, items[1..]) == [items[1]];
  }

  /**
   * `isActive`: the root entry only on the root itself; any other entry on
   * its own path and on the paths below it, never on a sibling sharing the
   * prefix.
   */
  function IsActive(href: string, path: string): (r: bool)
    ensures href == "/" ==> (r <==> path == "/")
    ensures href != "/" ==>
      (r <==> path == href || (|path| > |href| && path[..|href|] == href && path[|href|] == '/'))
  {
    if href == "/" then path == "/"
    else
      var r := path == href || StartsWith(path, href + "/");
      assert StartsWith(path, href + "/") <==> |path| > |href| && path[..|href|] == href && path[|href|] == '/' by {
        if |path| > |href| {
          if path[..|href|] == href && path[|href|] == '/' {
            assert path[..|href| + 1] == path[..|href|] + [path[|href|]];
          }
          if StartsWith(path, href + "/") {
            assert path[..|href|] == path[..|href| + 1][..|href|];
          }
        }
      }
      r
  }

  lemma ActiveIsPrefix(href: string, path: string)
    ensures IsActive(href, path) ==> StartsWith(path, href)
  {
    if href != "/" && path != href && StartsWith(path, href + "/") {
      assert path[..|href|] == (href + "/")[..|href|];
    }
  }

  /** A sibling path that merely shares the prefix does not activate the entry. */
  lemma SiblingPathInactive()
    ensures !IsActive("/projects", "/projects-x")
    ensures IsActive("/projects", "/projects/7")
    ensures !IsActive("/", "/projects")
  {
    var p := "/projects-x";
    assert |"/projects/"| == 10 && p[9] == '-' && ("/projects" + "/")[9] == '/';
    assert p != "/projects";
    assert "/projects/7"[..10] == "/projects" + "/";
  }

  /** Whatever the path, at most one menu entry is highlighted. */
  lemma AtMostOneActive(path: string)
    ensures forall i, j :: 0 <= i < j < |AllNavItems| ==>
      !(IsActive(AllNavItems[i].href, path) && IsActive(AllNavItems[j].href, path))
  {
    forall i, j | 0 <= i < j < |AllNavItems| && IsActive(AllNavItems[i].href, path)
      ensures !IsActive(AllNavItems[j].href, path)
    {
      var a := AllNavItems[i].href;
      var b := AllNavItems[j].href;
      ActiveIsPrefix(a, path);
      ActiveIsPrefix(b, path);
      assert |b| > 2;
      if i == 0 {
        assert |path| == 1;
      } else {
        assert path[..|a|] == a;
        assert path[1] == a[1] && path[2] == a[2];
        assert a[1] != b[1] || a[2] != b[2];
        assert !StartsWith(path, b) by {
          assert |path| >= |b| ==> path[..|b|][1] == path[1] && path[..|b|][2] == path[2];
        }
      }
    }
  }
}

=== FILE: sprints.dfy ===
/**
 * The deliverables list of a sprint card: the sprint's client-facing tasks,
 * each with the state of its advance (the work presented to the client),
 * followed by advances whose task is not in the sprint.
 */
module Sprints {
  import opened Wrappers
  import opened Text
  import opened Seqs

  datatype Task = Task(jiraKey: string, title: string, assignedTo: string, date: string)

  /** `status` is "pending" or "accepted"; `createdAt` is an ISO timestamp. */
  datatype Advance = Advance(
    id: int,
    taskJiraKey: string,
    description: string,
    presentedBy: string,
    status: string,
    createdAt: string)

  datatype DeliverableStatus = Pendiente | EnProceso | Aceptado

  datatype Deliverable = Deliverable(
    key: string,
    description: string,
    assignedTo: string,
    date: string,
    status: DeliverableStatus,
    advanceId: Option<int>)

  /** Keys holding one of these are internal work (management, kick-off, research), not deliverables. */
  const ManagementPatterns: seq<string> := ["GESTION", "KICK", "MISC", "INV-"]

  predicate IsDeliverableTask(jiraKey: string) {
    forall i :: 0 <= i < |ManagementPatterns| ==> !Contains(Upper(jiraKey), ManagementPatterns[i])
  }

  lemma ContainsAt(s: string, p: string, k: nat)
    requires k + |p| <= |s| && s[k..k + |p|] == p
    ensures Contains(s, p)
    decreases k
  {
    if k > 0 {
      assert s[1..][k - 1..k - 1 + |p|] == s[k..k + |p|];
      ContainsAt(s[1..], p, k - 1);
    }
  }

  /** The patterns match whatever the case, and "INV" only with its hyphen. */
  lemma DeliverableExamples()
    ensures !IsDeliverableTask("gestion")
    ensures !IsDeliverableTask("inv-2")
    ensures IsDeliverableTask("")
  {
    assert ManagementPatterns[0] == "GESTION" && ManagementPatterns[3] == "INV-";
    assert Upper("gestion") == "GESTION";
    ContainsAt("GESTION", "GESTION", 0);
    assert Upper("inv-2") == "INV-2";
    assert "INV-2"[0..4] == "INV-";
    ContainsAt("INV-2", "INV-", 0);
    assert Upper("") == "";
  }

  /** The first advance presented for `key`, as `advances.find` returns it. */
  function FindAdvance(advances: seq<Advance>, key: string): (r: Option<Advance>)
    ensures r.Some? ==> r.value in advances && r.value.taskJiraKey == key
    ensures r.None? <==> forall i :: 0 <= i < |advances| ==> advances[i].taskJiraKey != key
    ensures r.Some? ==>
      exists i :: 0 <= i < |advances| && advances[i] == r.value &&
        forall j :: 0 <= j < i ==> advances[j].taskJiraKey != key
  {
    if |advances| == 0 then None
    else if advances[0].taskJiraKey == key then Some(advances[0])
    else
      var r := FindAdvance(advances[1..], key);
      if r.Some? then
        var i :| 0 <= i < |advances[1..]| && advances[1..][i] == r.value
          && forall j :: 0 <= j < i ==> advances[1..][j].taskJiraKey != key;
        assert advances[i + 1] == r.value;
        assert forall j :: 1 <= j < i + 1 ==> advances[j] == advances[1..][j - 1];
        r
      else r
  }

  function AdvanceStatus(a: Advance): DeliverableStatus {
    if a.status == "accepted" then Aceptado else EnProceso
  }

  /** The date part of an ISO timestamp: everything before the first 'T'. */
  function DatePart(ts: string): (d: string)
    ensures 'T' !in d
    ensures StartsWith(ts, d)
    ensures |d| < |ts| ==> ts[|d|] == 'T'
  {
    var k := IndexOf(ts, 'T');
    if k < 0 then ts else ts[..k]
  }

  /**
   * A task's item: pending exactly when no advance was presented for its
   * key, accepted exactly when the first one was accepted, and showing that
   * advance's description.
   */
  function TaskItem(t: Task, advances: seq<Advance>): (d: Deliverable)
    ensures d.key == t.jiraKey
    ensures d.status == Pendiente <==> forall j :: 0 <= j < |advances| ==> advances[j].taskJiraKey != t.jiraKey
    ensures d.status == Aceptado <==>
      exists j :: 0 <= j < |advances| && advances[j].taskJiraKey == t.jiraKey && advances[j].status == "accepted" &&
        forall k :: 0 <= k < j ==> advances[k].taskJiraKey != t.jiraKey
    ensures FindAdvance(advances, t.jiraKey).Some? ==>
      d.description == FindAdvance(advances, t.jiraKey).value.description
        && d.advanceId == Some(FindAdvance(advances, t.jiraKey).value.id)
    ensures FindAdvance(advances, t.jiraKey).None? ==> d.description == t.title && d.advanceId.None?
    ensures d.assignedTo == t.assignedTo && d.date == t.date
  {
    var adv := FindAdvance(advances, t.jiraKey);
    match adv
    case Some(a) => Deliverable(t.jiraKey, a.description, t.assignedTo, t.date, AdvanceStatus(a), Some(a.id))
    case None => Deliverable(t.jiraKey, t.title, t.assignedTo, t.date, Pendiente, None)
  }

  function OrphanItem(a: Advance): (d: Deliverable)
    ensures d.key == a.taskJiraKey && d.status != Pendiente
  {
    Deliverable(a.taskJiraKey, a.description, a.presentedBy, DatePart(a.createdAt), AdvanceStatus(a), Some(a.id))
  }

  /** One mark per task: whether its key is client-facing. */
  function DeliverableMarks(tasks: seq<Task>): (m: seq<bool>)
    ensures |m| == |tasks| && forall i :: 0 <= i < |tasks| ==> m[i] == IsDeliverableTask(tasks[i].jiraKey)
  {
    seq(|tasks|, i requires 0 <= i < |tasks| => IsDeliverableTask(tasks[i].jiraKey))
  }

  /** `sprint.tasks.filter(t => isDeliverableTask(t.jiraKey))` */
  function DeliverableTasks(tasks: seq<Task>): (r: seq<Task>)
    ensures |r| <= |tasks|
    ensures forall t :: t in r <==> t in tasks && IsDeliverableTask(t.jiraKey)
  {
    if |tasks| == 0 then []
    else
      var init := tasks[..|tasks| - 1];
      var last := tasks[|tasks| - 1];
      assert tasks == init + [last];
      DeliverableTasks(init) + (if IsDeliverableTask(last.jiraKey) then [last] else [])
  }

  /** The listed tasks are the client-facing ones, all of them, in sprint order. */
  lemma {:induction false} DeliverableTasksFilter(tasks: seq<Task>)
    ensures Keeps(DeliverableTasks(tasks), tasks, DeliverableMarks(tasks))
  {
    if |tasks| > 0 {
      var n := |tasks| - 1;
      var marks := DeliverableMarks(tasks);
      DeliverableTasksFilter(tasks[..n]);
      assert DeliverableMarks(tasks[..n]) == marks[..n];
      KeepsLast(DeliverableTasks(tasks), tasks, marks, DeliverableTasks(tasks[..n]));
    }
  }

  function TaskKeys(tasks: seq<Task>): set<string> {
    set i | 0 <= i < |tasks| :: tasks[i].jiraKey
  }

  /** An advance is an extra item when its key is client-facing and no listed task carries it. */
  predicate IsOrphan(a: Advance, taskKeys: set<string>) {
    a.taskJiraKey !in taskKeys && IsDeliverableTask(a.taskJiraKey)
  }

  /** One mark per advance: whether it becomes an extra item. */
  function OrphanMarks(advances: seq<Advance>, taskKeys: set<string>): (m: seq<bool>)
    ensures |m| == |advances| && forall i :: 0 <= i < |advances| ==> m[i] == IsOrphan(advances[i], taskKeys)
  {
    seq(|advances|, i requires 0 <= i < |advances| => IsOrphan(advances[i], taskKeys))
  }

  /** `sprint.advances.filter(a => !taskKeys.has(a.taskJiraKey) && isDeliverableTask(a.taskJiraKey))` */
  function Orphans(advances: seq<Advance>, taskKeys: set<string>): (r: seq<Advance>)
    ensures |r| <= |advances|
    ensures forall a :: a in r <==> a in advances && a.taskJiraKey !in taskKeys && IsDeliverableTask(a.taskJiraKey)
  {
    if |advances| == 0 then []
    else
      var init := advances[..|advances| - 1];
      var last := advances[|advances| - 1];
      assert advances == init + [last];
      Orphans(init, taskKeys) + (if IsOrphan(last, taskKeys) then [last] else [])
  }

  /** The extra advances are exactly those marked as orphans, in advance order. */
  lemma {:induction false} OrphansFilter(advances: seq<Advance>, taskKeys: set<string>)
    ensures Keeps(Orphans(advances, taskKeys), advances, OrphanMarks(advances, taskKeys))
  {
    if |advances| > 0 {
      var n := |advances| - 1;
      var marks := OrphanMarks(advances, taskKeys);
      OrphansFilter(advances[..n], taskKeys);
      assert OrphanMarks(advances[..n], taskKeys) == marks[..n];
      KeepsLast(Orphans(advances, taskKeys), advances, marks, Orphans(advances[..n], taskKeys));
    }
  }

  function TaskItems(dt: seq<Task>, advances: seq<Advance>): (r: seq<Deliverable>)
    ensures |r| == |dt| && forall i :: 0 <= i < |dt| ==> r[i] == TaskItem(dt[i], advances)
  {
    seq(|dt|, i requires 0 <= i < |dt| => TaskItem(dt[i], advances))
  }

  function OrphanItems(orphans: seq<Advance>): (r: seq<Deliverable>)
    ensures |r| == |orphans| && forall i :: 0 <= i < |orphans| ==> r[i] == OrphanItem(orphans[i])
  {
    seq(|orphans|, i requires 0 <= i < |orphans| => OrphanItem(orphans[i]))
  }

  /** From position `from` on, `r` holds one extra item per orphan advance, in advance order. */
  predicate ExtraItemsFrom(r: seq<Deliverable>, from: nat, orphans: seq<Advance>) {
    from + |orphans| == |r| && forall i :: from <= i < |r| ==> r[i] == OrphanItem(orphans[i - from])
  }

  /** The task items first, in task order, then the extra items, in advance order. */
  function Assemble(dt: seq<Task>, orphans: seq<Advance>, advances: seq<Advance>): (r: seq<Deliverable>)
    ensures |r| == |dt| + |orphans|
    ensures forall i :: 0 <= i < |dt| ==> r[i] == TaskItem(dt[i], advances)
    ensures ExtraItemsFrom(r, |dt|, orphans)
  {
    var items := TaskItems(dt, advances);
    var extra := OrphanItems(orphans);
    var r := items + extra;
    assert forall i :: 0 <= i < |dt| ==> r[i] == items[i];
    assert forall i :: |dt| <= i < |r| ==> r[i] == extra[i - |dt|];
    r
  }

  /**
   * The sprint's deliverables: one item per client-facing task in task
   * order, then one per advance on a client-facing key that no such task
   * carries.
   */
  function Deliverables(tasks: seq<Task>, advances: seq<Advance>): (r: seq<Deliverable>)
    ensures |r| == |DeliverableTasks(tasks)| + |Orphans(advances, TaskKeys(DeliverableTasks(tasks)))|
    ensures forall i :: 0 <= i < |DeliverableTasks(tasks)| ==> r[i] == TaskItem(DeliverableTasks(tasks)[i], advances)
    ensures ExtraItemsFrom(r, |DeliverableTasks(tasks)|, Orphans(advances, TaskKeys(DeliverableTasks(tasks))))
    ensures forall i :: 0 <= i < |r| ==> IsDeliverableTask(r[i].key)
  {
    var dt := DeliverableTasks(tasks);
    var orphans := Orphans(advances, TaskKeys(dt));
    AssembledKeys(dt, orphans, advances);
    Assemble(dt, orphans, advances)
  }

  /** Items assembled from client-facing tasks and orphans carry client-facing keys. */
  lemma AssembledKeys(dt: seq<Task>, orphans: seq<Advance>, advances: seq<Advance>)
    requires forall t :: t in dt ==> IsDeliverableTask(t.jiraKey)
    requires forall a :: a in orphans ==> IsDeliverableTask(a.taskJiraKey)
    ensures forall i :: 0 <= i < |Assemble(dt, orphans, advances)| ==> IsDeliverableTask(Assemble(dt, orphans, advances)[i].key)
  {
    var r := Assemble(dt, orphans, advances);
    forall i | 0 <= i < |r| ensures IsDeliverableTask(r[i].key) {
      if i < |dt| {
        assert dt[i] in dt;
      } else {
        assert orphans[i - |dt|] in orphans;
      }
    }
  }

  /**
   * The extra items are never pending and belong to advances on keys no task
   * item has.
   */
  lemma ExtraItemsMeaning(tasks: seq<Task>, advances: seq<Advance>, i: int)
    requires |DeliverableTasks(tasks)| <= i < |Deliverables(tasks, advances)|
    ensures Deliverables(tasks, advances)[i].status != Pendiente
    ensures Deliverables(tasks, advances)[i].key !in TaskKeys(DeliverableTasks(tasks))
    ensures exists a :: a in advances && a.taskJiraKey == Deliverables(tasks, advances)[i].key
  {
    var dt := DeliverableTasks(tasks);
    var orphans := Orphans(advances, TaskKeys(dt));
    var r := Assemble(dt, orphans, advances);
    var a := orphans[i - |dt|];
    assert a in orphans;
    assert r[i] == OrphanItem(a);
  }

  /** Every client-facing task of the sprint has an item. */
  lemma EveryDeliverableTaskListed(tasks: seq<Task>, advances: seq<Advance>, t: Task)
    requires t in tasks && IsDeliverableTask(t.jiraKey)
    ensures exists d :: d in Deliverables(tasks, advances) && d.key == t.jiraKey
  {
    var dt := DeliverableTasks(tasks);
    assert t in dt;
    var i :| 0 <= i < |dt| && dt[i] == t;
    var r := Assemble(dt, Orphans(advances, TaskKeys(dt)), advances);
    assert r[i].key == t.jiraKey;
  }

  /** `deliverables.filter(d => d.status === "aceptado").length` */
  function AcceptedCount(ds: seq<Deliverable>): (n: nat)
    ensures n <= |ds|
    ensures n == 0 <==> forall i :: 0 <= i < |ds| ==> ds[i].status != Aceptado
    ensures n == |ds| <==> forall i :: 0 <= i < |ds| ==> ds[i].status == Aceptado
  {
    if |ds| == 0 then 0
    else
      var init := ds[..|ds| - 1];
      assert forall i :: 0 <= i < |init| ==> ds[i] == init[i];
      AcceptedCount(init) + (if ds[|ds| - 1].status == Aceptado then 1 else 0)
  }

  /** The positions holding an accepted item. */
  function AcceptedPositions(ds: seq<Deliverable>): set<int> {
    set i | 0 <= i < |ds| && ds[i].status == Aceptado
  }

  /** The last item adds its own position, if accepted, to those before it. */
  lemma AcceptedPositionsSnoc(ds: seq<Deliverable>)
    requires |ds| > 0
    ensures var n := |ds| - 1;
      AcceptedPositions(ds) == AcceptedPositions(ds[..n]) + (if ds[n].status == Aceptado then {n} else {})
        && n !in AcceptedPositions(ds[..n])
  {
    var n := |ds| - 1;
    var init := ds[..n];
    var a := AcceptedPositions(init);
    var c := if ds[n].status == Aceptado then {n} else {};
    forall i | i in AcceptedPositions(ds) ensures i in a + c {
      if i < n {
        assert init[i] == ds[i];
      }
    }
    forall i | i in a + c ensures i in AcceptedPositions(ds) {
      if i in a {
        assert init[i] == ds[i];
      }
    }
  }

  /** The count is the number of positions holding an accepted item. */
  lemma {:induction false} AcceptedCountIsSize(ds: seq<Deliverable>)
    ensures AcceptedCount(ds) == |AcceptedPositions(ds)|
  {
    if |ds| > 0 {
      AcceptedCountIsSize(ds[..|ds| - 1]);
      AcceptedPositionsSnoc(ds);
    }
  }

  /** A sprint with no advances has nothing accepted: every task item is pending and there are no extra items. */
  lemma NoAdvancesNothingAccepted(tasks: seq<Task>)
    ensures var r := Deliverables(tasks, []);
      AcceptedCount(r) == 0 && |r| == |DeliverableTasks(tasks)|
      && forall i :: 0 <= i < |r| ==> r[i].status == Pendiente
  {
    var dt := DeliverableTasks(tasks);
    assert |Orphans([], TaskKeys(dt))| == 0;
    var r := Assemble(dt, [], []);
    assert forall i :: 0 <= i < |r| ==> r[i] == TaskItem(dt[i], []);
  }
}

=== FILE: text.dfy ===
/**
 * String helpers over `seq<char>`: ASCII case mapping, prefix/suffix/substring
 * tests, Python's `str.replace`, and decimal rendering and parsing of naturals.
 * Case mapping is ASCII-only; Unicode case rules are not modelled.
 */
module Text {

  predicate IsAsciiUpper(c: char) { 'A' <= c <= 'Z' }

  predicate IsAsciiLower(c: char) { 'a' <= c <= 'z' }

  predicate IsDigit(c: char) { '0' <= c <= '9' }

  function UpperChar(c: char): (u: char)
    ensures IsAsciiLower(c) ==> IsAsciiUpper(u) && u as int == c as int - 32
    ensures !IsAsciiLower(c) ==> u == c
  {
    if IsAsciiLower(c) then (c as int - 32) as char else c
  }

  function LowerChar(c: char): (l: char)
    ensures IsAsciiUpper(c) ==> IsAsciiLower(l) && l as int == c as int + 32
    ensures !IsAsciiUpper(c) ==> l == c
  {
    if IsAsciiUpper(c) then (c as int + 32) as char else c
  }

  /** `s.upper()` / `s.toUpperCase()` restricted to ASCII letters. */
  function Upper(s: string): (u: string)
    ensures |u| == |s|
    ensures forall i :: 0 <= i < |s| ==> u[i] == UpperChar(s[i])
  {
    seq(|s|, i requires 0 <= i < |s| => UpperChar(s[i]))
  }

  /** `s.lower()` / `s.toLowerCase()` restricted to ASCII letters. */
  function Lower(s: string): (l: string)
    ensures |l| == |s|
    ensures forall i :: 0 <= i < |s| ==> l[i] == LowerChar(s[i])
  {
    seq(|s|, i requires 0 <= i < |s| => LowerChar(s[i]))
  }

  /** Case-insensitive equality, as a database `iexact` lookup on ASCII text. */
  predicate EqualsIgnoreCase(a: string, b: string) {
    Lower(a) == Lower(b)
  }

  predicate StartsWith(s: string, p: string) {
    |p| <= |s| && s[..|p|] == p
  }

  predicate EndsWith(s: string, p: string) {
    |p| <= |s| && s[|s| - |p|..] == p
  }

  /** `p in s` for strings: `p` occurs somewhere in `s`. */
  predicate Contains(s: string, p: string)
    decreases |s|
  {
    StartsWith(s, p) || (|s| > 0 && Contains(s[1..], p))
  }

  function CountChar(s: string, c: char): nat {
    if |s| == 0 then 0 else (if s[0] == c then 1 else 0) + CountChar(s[1..], c)
  }

  /**
   * Python's `s.replace(pat, rep)`: every non-overlapping occurrence of `pat`,
   * found left to right, is replaced by `rep`.
   */
  function ReplaceAll(s: string, pat: string, rep: string): string
    requires |pat| > 0
    decreases |s|
  {
    if |s| == 0 then s
    else if StartsWith(s, pat) then rep + ReplaceAll(s[|pat|..], pat, rep)
    else [s[0]] + ReplaceAll(s[1..], pat, rep)
  }

  /** Text with no occurrence of the pattern's first character is left as is. */
  lemma {:induction false} ReplaceAllAbsent(s: string, pat: string, rep: string)
    requires |pat| > 0
    requires forall i :: 0 <= i < |s| ==> s[i] != pat[0]
    ensures ReplaceAll(s, pat, rep) == s
    decreases |s|
  {
    if |s| > 0 {
      assert !StartsWith(s, pat) by { assert s[0] != pat[0]; }
      ReplaceAllAbsent(s[1..], pat, rep);
    }
  }

  /** Text before the pattern's first character is copied through unchanged. */
  lemma {:induction false} ReplaceAllPrefixAbsent(x: string, y: string, pat: string, rep: string)
    requires |pat| > 0
    requires forall i :: 0 <= i < |x| ==> x[i] != pat[0]
    ensures ReplaceAll(x + y, pat, rep) == x + ReplaceAll(y, pat, rep)
    decreases |x|
  {
    if |x| > 0 {
      assert !StartsWith(x + y, pat) by { assert (x + y)[0] != pat[0]; }
      assert (x + y)[1..] == x[1..] + y;
      ReplaceAllPrefixAbsent(x[1..], y, pat, rep);
      assert [x[0]] + (x[1..] + ReplaceAll(y, pat, rep)) == x + ReplaceAll(y, pat, rep);
    } else {
      assert x + y == y;
    }
  }

  /** Occurrences of a character add up over concatenation. */
  lemma {:induction false} CountCharAppend(a: string, b: string, c: char)
    ensures CountChar(a + b, c) == CountChar(a, c) + CountChar(b, c)
    decreases |a|
  {
    if |a| > 0 {
      assert (a + b)[1..] == a[1..] + b;
      CountCharAppend(a[1..], b, c);
    } else {
      assert a + b == b;
    }
  }

  /** A character that does not occur is counted zero times. */
  lemma {:induction false} CountCharAbsent(s: string, c: char)
    requires c !in s
    ensures CountChar(s, c) == 0
    decreases |s|
  {
    if |s| > 0 {
      assert s[0] in s;
      CountCharAbsent(s[1..], c);
    }
  }

  /** The index of the first `c` in `s`, when there is one. */
  function IndexOf(s: string, c: char): (i: int)
    ensures -1 <= i < |s|
    ensures i >= 0 ==> s[i] == c && forall j :: 0 <= j < i ==> s[j] != c
    ensures i == -1 ==> forall j :: 0 <= j < |s| ==> s[j] != c
    decreases |s|
  {
    if |s| == 0 then -1
    else if s[0] == c then 0
    else
      var k := IndexOf(s[1..], c);
      if k == -1 then -1 else k + 1
  }

  predicate AllDigits(s: string) {
    forall i :: 0 <= i < |s| ==> IsDigit(s[i])
  }

  function DigitChar(d: nat): char
    requires d < 10
  {
    ('0' as int + d) as char
  }

  /** The natural number written by a string of decimal digits. */
  function DigitsValue(s: string): nat
    requires AllDigits(s)
  {
    if |s| == 0 then 0
    else DigitsValue(s[..|s| - 1]) * 10 + (s[|s| - 1] as int - '0' as int)
  }

  /** Python's `str(n)` / JavaScript's `${n}` for a natural number. */
  function NatToString(n: nat): (s: string)
    ensures |s| > 0 && AllDigits(s)
  {
    if n < 10 then [DigitChar(n)] else NatToString(n / 10) + [DigitChar(n % 10)]
  }

  /** Reading back the digits of a rendered natural gives the natural. */
  lemma {:induction false} NatToStringRoundTrip(n: nat)
    ensures DigitsValue(NatToString(n)) == n
  {
    var s := NatToString(n);
    if n >= 10 {
      NatToStringRoundTrip(n / 10);
      assert s[..|s| - 1] == NatToString(n / 10);
    }
  }

  /** Distinct naturals are rendered as distinct strings. */
  lemma NatToStringInjective(a: nat, b: nat)
    requires NatToString(a) == NatToString(b)
    ensures a == b
  {
    NatToStringRoundTrip(a);
    NatToStringRoundTrip(b);
  }
}

=== FILE: triple_axis.dfy ===
/**
 * The triple-axis health engine: budget consumption, earned value, the
 * four-branch health classifier, and the evaluation step that records a
 * snapshot, overwrites the project's current status and raises an alert on
 * the transitions that call for one.
 *
 * Units: percentages, money and budget hours are `int` hundredths; logged
 * durations are `int` ten-thousandths of an hour; timestamps are plain `int`s.
 */
module TripleAxis {
  import opened Wrappers
  import opened Fixed

  datatype Health = Critical | Warning | Healthy

  datatype AlertKind = CriticalAlert | WarningAlert

  /** A logged time entry: hours in ten-thousandths, cost in hundredths, date as a day number. */
  datatype TimeEntry = TimeEntry(hours: int, cost: int, date: int)

  /** The project fields the engine reads, and the status it overwrites. */
  datatype Project = Project(
    name: string,
    budgetHours: int,
    invoiceAmount: int,
    entries: seq<TimeEntry>,
    currentStatus: Health)

  /** One immutable evaluation record. */
  datatype Snapshot = Snapshot(
    timestamp: int,
    consumptionPercent: int,
    progressPercent: int,
    budgetConsumed: int,
    earnedValue: int,
    status: Health,
    score: int)

  datatype Alert = Alert(
    kind: AlertKind,
    consumptionPercent: int,
    progressPercent: int,
    createdAt: int,
    isRead: bool)

  /** What the classifier returns: a status and a 0..100 gauge score. */
  datatype Evaluation = Evaluation(status: Health, score: int)

  /** Everything one evaluation reads or writes for a project. */
  datatype EvalState = EvalState(project: Project, snapshots: seq<Snapshot>, alerts: seq<Alert>)

  datatype EvalOutcome = EvalOutcome(state: EvalState, snapshot: Snapshot)

  /** Sum of logged hours; an empty aggregate is zero. */
  function ConsumedHours(entries: seq<TimeEntry>): (r: int)
    ensures (forall i :: 0 <= i < |entries| ==> entries[i].hours >= 0) ==> r >= 0
  {
    if |entries| == 0 then 0
    else ConsumedHours(entries[..|entries| - 1]) + entries[|entries| - 1].hours
  }

  /** Sum of entry costs; an empty aggregate is zero. */
  function ActualCost(entries: seq<TimeEntry>): (r: int)
    ensures (forall i :: 0 <= i < |entries| ==> entries[i].cost >= 0) ==> r >= 0
  {
    if |entries| == 0 then 0
    else ActualCost(entries[..|entries| - 1]) + entries[|entries| - 1].cost
  }

  /** The aggregates split over concatenation: each entry is counted exactly once. */
  lemma {:induction false} AggregatesAppend(a: seq<TimeEntry>, b: seq<TimeEntry>)
    ensures ConsumedHours(a + b) == ConsumedHours(a) + ConsumedHours(b)
    ensures ActualCost(a + b) == ActualCost(a) + ActualCost(b)
    decreases |b|
  {
    if |b| == 0 {
      assert a + b == a;
    } else {
      var b' := b[..|b| - 1];
      assert (a + b)[..|a + b| - 1] == a + b';
      assert (a + b)[|a + b| - 1] == b[|b| - 1];
      AggregatesAppend(a, b');
    }
  }

  /**
   * Consumed hours over budget hours, as a percentage quantized to hundredths
   * (half to even). A zero budget yields 0 instead of dividing.
   */
  function ConsumptionPercent(budgetHours: int, entries: seq<TimeEntry>): (r: int)
    ensures budgetHours == 0 ==> r == 0
    ensures budgetHours != 0 ==>
      2 * Abs(ConsumedHours(entries) * 100 - r * budgetHours) <= Abs(budgetHours)
    ensures budgetHours != 0 && 2 * Abs(ConsumedHours(entries) * 100 - r * budgetHours) == Abs(budgetHours)
      ==> r % 2 == 0
  {
    if budgetHours == 0 then 0
    else RoundHalfEven(ConsumedHours(entries) * 100, budgetHours)
  }

  /**
   * Invoice amount times progress percent over 100, quantized to hundredths;
   * for progress within 0..100 % it never leaves 0..invoice.
   */
  function EarnedValue(invoiceAmount: int, progressPercent: int): (r: int)
    ensures 2 * Abs(invoiceAmount * progressPercent - r * 10000) <= 10000
    ensures 2 * Abs(invoiceAmount * progressPercent - r * 10000) == 10000 ==> r % 2 == 0
    ensures invoiceAmount >= 0 && 0 <= progressPercent <= 10000 ==> 0 <= r <= invoiceAmount
  {
    var r := RoundHalfEven(invoiceAmount * progressPercent, 10000);
    if invoiceAmount >= 0 && 0 <= progressPercent <= 10000 then
      MulMonotone(progressPercent, 10000, invoiceAmount);
      MulMonotone(0, progressPercent, invoiceAmount);
      RoundHalfEvenWithin(invoiceAmount * progressPercent, 10000, 0, invoiceAmount);
      r
    else r
  }

  predicate HeavySpendLowProgress(consumption: int, progress: int) {
    consumption >= 8000 && progress < 5000
  }

  /**
   * The four ordered rules. All quantities in hundredths; the score is the
   * integer part of `100 - k * deviation` (k = 2, 1, 1 or 1.5), truncated
   * toward zero and then clamped by the branch's floor or cap.
   */
  function Classify(consumption: int, progress: int): (r: Evaluation)
    ensures var dev := Abs(consumption - progress);
      && (r.status == Critical <==> HeavySpendLowProgress(consumption, progress))
      && (r.status == Warning <==> !HeavySpendLowProgress(consumption, progress) && dev > 1000)
      && (r.status == Healthy <==> !HeavySpendLowProgress(consumption, progress) && dev <= 1000)
    ensures 0 <= r.score <= 100
    ensures var dev := Abs(consumption - progress);
      r.status == Critical ==>
        if 10000 - 2 * dev >= 100 then r.score * 100 <= 10000 - 2 * dev < (r.score + 1) * 100
        else r.score == 0
    ensures var dev := Abs(consumption - progress);
      r.status == Warning && dev > 1500 ==>
        if 10000 - dev >= 1500 then r.score * 100 <= 10000 - dev < (r.score + 1) * 100
        else r.score == 15
    ensures var dev := Abs(consumption - progress);
      r.status == Warning && dev <= 1500 ==> r.score * 200 <= 20000 - 3 * dev < (r.score + 1) * 200
    ensures var dev := Abs(consumption - progress);
      r.status == Healthy ==> r.score * 100 <= 10000 - dev < (r.score + 1) * 100
  {
    var dev := Abs(consumption - progress);
    if HeavySpendLowProgress(consumption, progress) then
      Evaluation(Critical, Max(0, TruncDiv(10000 - 2 * dev, 100)))
    else if dev > 1500 then
      Evaluation(Warning, Max(15, TruncDiv(10000 - dev, 100)))
    else if dev <= 1000 then
      Evaluation(Healthy, Min(100, TruncDiv(10000 - dev, 100)))
    else
      Evaluation(Warning, Max(20, TruncDiv(20000 - 3 * dev, 200)))
  }

  /** Every HEALTHY score (90..100) beats every WARNING score (15..84). */
  lemma HealthyOutscoresWarning(c1: int, p1: int, c2: int, p2: int)
    requires Classify(c1, p1).status == Healthy
    requires Classify(c2, p2).status == Warning
    ensures Classify(c1, p1).score >= 90
    ensures Classify(c2, p2).score <= 84
    ensures Classify(c1, p1).score > Classify(c2, p2).score
  {
  }

  /**
   * Within one branch the score never rises as the deviation grows; across the
   * boundary at 15 points it does (see `GreyZoneBoundary`).
   */
  lemma ScoreNonIncreasingWithinBranch(c1: int, p1: int, c2: int, p2: int)
    requires Classify(c1, p1).status == Classify(c2, p2).status
    requires HeavySpendLowProgress(c1, p1) || Abs(c1 - p1) > 1500 || Abs(c1 - p1) <= 1000
      <==> HeavySpendLowProgress(c2, p2) || Abs(c2 - p2) > 1500 || Abs(c2 - p2) <= 1000
    requires Abs(c1 - p1) <= Abs(c2 - p2)
    ensures Classify(c1, p1).score >= Classify(c2, p2).score
  {
    var d1: int, d2: int := Abs(c1 - p1), Abs(c2 - p2);
    TruncDivMonotone(10000 - 2 * d2, 10000 - 2 * d1, 100);
    TruncDivMonotone(10000 - d2, 10000 - d1, 100);
    TruncDivMonotone(20000 - 3 * d2, 20000 - 3 * d1, 200);
  }

  /**
   * A deviation of exactly 15 points falls in the grey zone (score 77), while
   * 15.01 points is a plain WARNING scoring 84: the score jumps upward.
   */
  lemma GreyZoneBoundary()
    ensures Classify(5500, 4000) == Evaluation(Warning, 77)
    ensures Classify(5501, 4000) == Evaluation(Warning, 84)
  {
  }

  /** The service's test scenarios: 85 of 100 hours is 85.00 %, and 40 % of 50000.00 is 20000.00. */
  lemma MetricExamples()
    ensures ConsumptionPercent(10000, [TimeEntry(850000, 0, 0)]) == 8500
    ensures ConsumptionPercent(0, [TimeEntry(850000, 0, 0)]) == 0
    ensures EarnedValue(5000000, 4000) == 2000000
  {
    var entries := [TimeEntry(850000, 0, 0)];
    assert entries[..0] == [];
    assert ConsumedHours(entries) == 850000;
    RoundHalfEvenExact(8500, 10000);
    RoundHalfEvenExact(2000000, 10000);
  }

  /** The classifier on the service's test scenarios. */
  lemma ClassifyExamples()
    ensures Classify(8500, 4000).status == Critical
    ensures Classify(6000, 4000).status == Warning
    ensures Classify(5500, 5000).status == Healthy
    ensures Classify(0, 0) == Evaluation(Healthy, 100)
  {
  }

  /**
   * The alert raised when the status moves from `prior` to `next`: CRITICAL on
   * entering CRITICAL, WARNING on leaving HEALTHY for WARNING, otherwise none.
   */
  function AlertFor(prior: Health, next: Health): (r: Option<AlertKind>)
    ensures r == Some(CriticalAlert) <==> next == Critical && prior != Critical
    ensures r == Some(WarningAlert) <==> next == Warning && prior == Healthy
    ensures r.None? <==> next == prior || next == Healthy || (prior == Critical && next == Warning)
  {
    match (prior, next)
    case (Critical, Critical) => None
    case (_, Critical) => Some(CriticalAlert)
    case (Healthy, Warning) => Some(WarningAlert)
    case _ => None
  }

  /**
   * One evaluation: classify from the project's consumption and the caller's
   * progress, append the snapshot, overwrite the current status, and append
   * an alert when the transition calls for one.
   */
  function RunEvaluation(st: EvalState, progress: int, now: int): (r: EvalOutcome)
    ensures r.state.snapshots == st.snapshots + [r.snapshot]
    ensures r.state.project == st.project.(currentStatus := r.snapshot.status)
    ensures r.snapshot.timestamp == now && r.snapshot.progressPercent == progress
    ensures r.snapshot.consumptionPercent
      == ConsumptionPercent(st.project.budgetHours, st.project.entries)
    ensures r.snapshot.budgetConsumed == ActualCost(st.project.entries)
    ensures r.snapshot.earnedValue == EarnedValue(st.project.invoiceAmount, progress)
    ensures Classify(r.snapshot.consumptionPercent, progress)
      == Evaluation(r.snapshot.status, r.snapshot.score)
    ensures AlertFor(st.project.currentStatus, r.snapshot.status).None? ==>
      r.state.alerts == st.alerts
    ensures AlertFor(st.project.currentStatus, r.snapshot.status).Some? ==>
      r.state.alerts == st.alerts + [Alert(AlertFor(st.project.currentStatus, r.snapshot.status).value,
                                           r.snapshot.consumptionPercent, progress, now, false)]
  {
    var p := st.project;
    var consumption := ConsumptionPercent(p.budgetHours, p.entries);
    var eval := Classify(consumption, progress);
    var snap := Snapshot(now, consumption, progress, ActualCost(p.entries),
                         EarnedValue(p.invoiceAmount, progress), eval.status, eval.score);
    var alerts := match AlertFor(p.currentStatus, eval.status)
      case Some(kind) => st.alerts + [Alert(kind, consumption, progress, now, false)]
      case None => st.alerts;
    EvalOutcome(EvalState(p.(currentStatus := eval.status), st.snapshots + [snap], alerts), snap)
  }

  /**
   * The history invariant: every snapshot's status and score are what the
   * classifier gives for its own stored percentages, and the project's current
   * status is the latest snapshot's.
   */
  ghost predicate Consistent(st: EvalState) {
    && (forall i :: 0 <= i < |st.snapshots| ==>
          Classify(st.snapshots[i].consumptionPercent, st.snapshots[i].progressPercent)
            == Evaluation(st.snapshots[i].status, st.snapshots[i].score))
    && (|st.snapshots| > 0 ==> st.project.currentStatus == st.snapshots[|st.snapshots| - 1].status)
  }

  lemma RunEvaluationPreservesConsistency(st: EvalState, progress: int, now: int)
    requires Consistent(st)
    ensures Consistent(RunEvaluation(st, progress, now).state)
  {
    var r := RunEvaluation(st, progress, now);
    forall i | 0 <= i < |r.state.snapshots|
      ensures Classify(r.state.snapshots[i].consumptionPercent, r.state.snapshots[i].progressPercent)
        == Evaluation(r.state.snapshots[i].status, r.state.snapshots[i].score)
    {
      if i < |st.snapshots| {
        assert r.state.snapshots[i] == st.snapshots[i];
      }
    }
  }

  /** One scheduled evaluation: the progress reported and the time it runs. */
  datatype Step = Step(progress: int, time: int)

  /**
   * Evaluations run in order on the same project: the history only grows,
   * one snapshot per run, earlier snapshots and alerts untouched, and the
   * project's entries, budget and invoice stay as they were.
   */
  function RunMany(st: EvalState, steps: seq<Step>): (r: EvalState)
    ensures r.project.entries == st.project.entries && r.project.budgetHours == st.project.budgetHours
    ensures r.project.invoiceAmount == st.project.invoiceAmount
    ensures |r.snapshots| == |st.snapshots| + |steps| && r.snapshots[..|st.snapshots|] == st.snapshots
    ensures |r.alerts| >= |st.alerts| && r.alerts[..|st.alerts|] == st.alerts
    decreases |steps|
  {
    if |steps| == 0 then st
    else
      var next := RunEvaluation(st, steps[0].progress, steps[0].time).state;
      var r := RunMany(next, steps[1..]);
      assert r.snapshots[..|st.snapshots|] == r.snapshots[..|next.snapshots|][..|st.snapshots|];
      assert r.alerts[..|st.alerts|] == r.alerts[..|next.alerts|][..|st.alerts|];
      r
  }

  /** The number of alerts a run of evaluations at fixed consumption raises from status `prior`. */
  function TransitionAlerts(prior: Health, consumption: int, steps: seq<Step>): nat
    decreases |steps|
  {
    if |steps| == 0 then 0
    else
      var next := Classify(consumption, steps[0].progress).status;
      (if AlertFor(prior, next).Some? then 1 else 0) + TransitionAlerts(next, consumption, steps[1..])
  }

  /** A run of evaluations appends exactly the alerts its status transitions call for. */
  lemma {:induction false} RunManyEffect(st: EvalState, steps: seq<Step>)
    ensures |RunMany(st, steps).alerts| == |st.alerts| + TransitionAlerts(
      st.project.currentStatus, ConsumptionPercent(st.project.budgetHours, st.project.entries), steps)
    decreases |steps|
  {
    if |steps| > 0 {
      var next := RunEvaluation(st, steps[0].progress, steps[0].time).state;
      RunManyEffect(next, steps[1..]);
    }
  }

  /**
   * Repeated CRITICAL evaluations raise a single alert when the project was
   * not already CRITICAL, and none when it was.
   */
  lemma {:induction false} AlertOnceWhileCritical(prior: Health, consumption: int, steps: seq<Step>)
    requires |steps| > 0
    requires forall i :: 0 <= i < |steps| ==> Classify(consumption, steps[i].progress).status == Critical
    ensures TransitionAlerts(prior, consumption, steps) == if prior == Critical then 0 else 1
    decreases |steps|
  {
    if |steps| > 1 {
      AlertOnceWhileCritical(Critical, consumption, steps[1..]);
    }
  }

  /** A project starting HEALTHY that is evaluated CRITICAL twice gets exactly one alert. */
  lemma AlertOnceScenario(st: EvalState, s1: Step, s2: Step)
    requires st.project.currentStatus == Healthy
    requires Classify(ConsumptionPercent(st.project.budgetHours, st.project.entries), s1.progress).status == Critical
    requires Classify(ConsumptionPercent(st.project.budgetHours, st.project.entries), s2.progress).status == Critical
    ensures |RunMany(st, [s1, s2]).alerts| == |st.alerts| + 1
  {
    RunManyEffect(st, [s1, s2]);
    AlertOnceWhileCritical(Healthy, ConsumptionPercent(st.project.budgetHours, st.project.entries), [s1, s2]);
  }
}

=== FILE: wrappers.dfy ===
/** Optional values and error-or-value results shared by every module. */
module Wrappers {

  /** A value that may be absent: Python's `None`, JavaScript's `null`/`undefined`. */
  datatype Option<+T> = None | Some(value: T) {
    /** The wrapped value, or `default` when absent. */
    function GetOr(default: T): T {
      match this
      case Some(v) => v
      case None => default
    }
  }

  /** Either a computed value or the error the source raises or returns instead. */
  datatype Result<+T, +E> = Ok(value: T) | Err(error: E)
}
